=== FILE: README.md ===
# LinuxDev Manager core in Dafny

LinuxDev Manager is a desktop tool that sets up a local web-development
machine. It creates projects, provisions Apache or nginx virtual hosts,
issues self-signed certificates, registers domains in the hosts file,
drives systemd services, installs packages through apt and manages MySQL
and PostgreSQL databases. Everything privileged goes through one command
bridge, which wraps a command in `pkexec bash -c '…'` when the program does
not run as root.

This project models the provisioning logic and the small decision and
parsing functions around it as pure functions, and proves what they
promise. The outside world is a `Bridge.World`:

- the files the program can see (a map from path to text);
- the directories;
- the paths the unprivileged process may not open;
- the log of every command line started so far.

What the program cannot compute itself comes in through `Bridge.Env`:

- whether the process runs as root;
- the outcome of each command, from an oracle indexed by its position in the log;
- the name of the temporary file that a privileged write goes through.

Each manager operation maps a world to a result and the next world. The
ordering and early-exit properties are therefore statements about the
command log.

Modules, following the program's structure:

| module | file | models |
|---|---|---|
| `Wrappers` | wrappers.dfy | `Option`, for Python's `None` and for calls that raise |
| `JsonTree` | json.dfy | the JSON values the configuration holds |
| `Text` | text.dfy | the Python string built-ins the program uses: `strip`, `split`, `join`, `in`, ASCII `lower`, `str(int)` |
| `Validators` | validators.dfy | utils/validators.py |
| `Config` | config.dfy | core/config_manager.py |
| `Bridge` | bridge.dfy | utils/system_utils.py |
| `Certificates` | certificates.dfy | core/ssl_manager.py |
| `VHost` | vhost.dfy | core/vhost_manager.py |
| `Projects` | projects.dfy | core/project_manager.py |
| `Services` | services.dfy | core/service_manager.py |
| `Packages` | packages.dfy | core/package_installer.py |
| `Databases` | databases.dfy | core/database_manager.py |
| `Dialogs` | dialogs.dfy | the `create_vhost` and `create_project` handlers of gui/vhost_dialog.py and gui/project_dialog.py |
| `Terminal` | terminal.dfy | the history and environment logic of gui/terminal_widget.py |

Where the code differs from what its comments or documentation suggest,
the model follows the code:

- Every validator pattern is anchored with `^…$` and used with
  `re.match`. Python's `$` also matches just before one final newline, so
  `"db\n"` is a valid database name and `"app.test\n"` a valid domain
  (`Validators.NameWithNewlineAccepted`, `Validators.ValidateDomainName`).
- `get_service_status` documents an `error` status, but the code never
  produces it (`Services.GetStatus`).
- The hosts entry test is a substring test, so `127.0.0.1 app.test` counts
  as present when `127.0.0.1 app.testing` is there. Removal drops every
  line that ends with the domain, which includes the lines of longer
  domains ending with it (`VHost.AppendHostEntry`, `VHost.RemoveHostLines`).
- The virtual-host dialog asks for a certificate for the unsanitised
  domain, while the virtual host serves the sanitised one
  (`Dialogs.CertificateMatchesVHost`).
- `create_project` makes the directory before it looks at the type, so an
  unsupported type leaves an empty directory behind
  (`Projects.CreateProject`).
- `os.makedirs` and `open` inside `create_project` are not guarded, so
  their exceptions escape the method, and then the dialog's slot
  (`Projects.Created.Escaped`). The model records such a dialog run as
  not accepted.
- The terminal builds the child's environment from a new `QProcess`,
  whose environment is empty. Without a project it stays empty, and the
  child inherits the program's environment. With a project the child
  sees only the three project variables and, when a tool directory
  exists, a `PATH` made of those directories. The old search path is
  not kept, and the new one ends in an empty entry
  (`Terminal.ProjectRun`, `Terminal.EmptyStartPath`).

## Model

| member | source | states |
|---|---|---|
| Bridge.Effective | utils/system_utils.py:20-24 | The command line is wrapped in pkexec exactly when privileges are asked for and the process is not root. The wrapped line carries the original command. |
| Bridge.WrapRoundTrip | utils/system_utils.py:22-24 | The single-quoted word built by replacing every `'` with `'"'"'` unquotes to exactly the original command under POSIX quote removal, whatever quotes the command holds. |
| Bridge.LoggedCommand | utils/system_utils.py:20-24 | A privileged call outside root starts one line that begins with `pkexec bash -c ` and whose argument unquotes to the command. Otherwise the started line is the command itself. |
| Bridge.RunCommand | utils/system_utils.py:8-51 | Exactly one command line is started and logged. A privileged call with status 126 reports the cancellation notice on stderr, whether or not it was wrapped. An exception becomes status 1 with empty stdout and the message on stderr. Any other reply is the process's own. |
| Bridge.ReadFile | utils/system_utils.py:137-156 | An unprivileged read yields the file exactly when it exists and may be opened, and runs nothing. A privileged read runs one `cat` and yields its output exactly when `cat` exits with 0. |
| Bridge.WriteFile | utils/system_utils.py:159-187 | The target holds the content exactly on success, and no other file changes. An unprivileged write runs nothing and succeeds exactly when the path is neither locked nor a directory. A privileged write runs one `cp` and succeeds exactly when it exits with 0. |
| Bridge.AppendExtends | utils/system_utils.py:190-203 | An unprivileged append succeeds iff the path is neither locked nor a directory. It then leaves the old text (empty when absent) followed by the content, and leaves every other file alone. |
| Bridge.PrivilegedAppend | utils/system_utils.py:190-203 | A privileged append runs exactly two commands. On success it writes what `cat` reported (nothing when `cat` failed) followed by the content. On failure no file changes. |
| Bridge.EnsureDirectory | utils/system_utils.py:112-134 | An existing path is success with nothing done. Otherwise a successful `mkdir -p` or `os.makedirs` makes the path together with every missing ancestor, and a failure changes no directory. The unprivileged route runs nothing and fails exactly when a missing directory of the lineage may not be made or one of them is a file. The privileged route runs one `mkdir -p`, whose exit status 0 decides. No file changes. |
| Bridge.Lineage | utils/system_utils.py:127-131 | What `mkdir -p` and `os.makedirs` make: the path and every ancestor, i.e. each prefix ending just before a `/` that follows a name, and nothing else. |
| Bridge.JoinedLineage | core/project_manager.py:108-115 | Making a project path under a root also makes the root and all the root's ancestors. |
| Bridge.JoinedPathValid | utils/validators.py:28-49 | Joining two paths that pass `validate_path` gives a path that passes it. |
| Validators.ValidateDomainName | utils/validators.py:6-25 | Accepted iff the name has 1 to 253 characters and is either `localhost` or matches the label grammar `(?:L\.)*L`, on the whole string or on the string less one final newline. |
| Validators.LabelSequenceIff | utils/validators.py:24 | The grammar of the domain pattern accepts a string iff every dot-separated part of it is a label: 1 to 63 letters, digits or hyphens, not starting or ending with a hyphen. |
| Validators.DottedLabelsAccepted | utils/validators.py:16-25 | Dot-separated labels within the length bound are accepted. |
| Validators.HyphenatedDomainAccepted | utils/validators.py:24-25 | `my-app.test` is accepted. |
| Validators.LeadingHyphenRejected | utils/validators.py:24-25 | A name starting with a hyphen is rejected. |
| Validators.OverlongDomainRejected | utils/validators.py:16-17 | A name longer than 253 characters is rejected whatever it holds. |
| Validators.DatabaseNameShape | utils/validators.py:52-67 | A database name is accepted iff it has 1 to 64 characters, all from `[A-Za-z0-9_-]`, except that the last one may be a newline after at least one such character. |
| Validators.UsernameIsDatabaseName | utils/validators.py:70-85 | Every accepted user name is an accepted database name, and the two checks differ only in the 32-character bound. |
| Validators.NameWithNewlineAccepted | utils/validators.py:62-67 | `"db\n"` passes both name checks, because of the trailing-newline match. |
| Validators.ValidatePort | utils/validators.py:88-98 | An integer is accepted iff it lies in 1..65535. A boolean is accepted iff it is `True`. Nothing else is accepted. |
| Validators.BoolPortIsInt | utils/validators.py:98 | A boolean port is checked as the integer 0 or 1 it stands for, as Python's `isinstance(port, int)` does. |
| Validators.OctetPatternIsValue | utils/validators.py:114 | The octet alternation of the IPv4 pattern accepts exactly one to three decimal digits whose value is at most 255. |
| Validators.ValidateIpAddress | utils/validators.py:101-115 | Accepted iff non-empty and made of four dot-separated octets of value at most 255, up to one final newline. |
| Validators.ValidatePath | utils/validators.py:28-49 | Rejects the empty path and any path holding NUL, LF or CR. Otherwise the result is true, or the existence test when existence is required. |
| Validators.ExistingPathStricter | utils/validators.py:42-49 | With `must_exist` a path passes iff it passes without it and exists. |
| Validators.SanitizeDomain | utils/validators.py:152-168 | The result is no longer than the input, holds only `[a-z0-9.-]`, and neither starts nor ends with `.` or `-`. |
| Validators.SanitizeDomainIdempotent | utils/validators.py:162-168 | Sanitising a domain twice gives the same result as sanitising it once. |
| Validators.SanitizeDomainKeepsAlnum | utils/validators.py:162-168 | Every letter and digit of the input survives, lower-cased and in order. Only other characters are lost. |
| Validators.SanitizeChangesUpper | utils/validators.py:163 | A name holding an upper-case letter is changed by sanitising. |
| Validators.SanitizeFilename | utils/validators.py:135-149 | The result is no longer than the input, holds none of `<>:"/\|?*` or NUL, and neither starts nor ends with `.` or a space. |
| Validators.SanitizeFilenameIdempotent | utils/validators.py:145-148 | Sanitising a filename twice gives the same result as sanitising it once. |
| Config.DeepMerge | core/config_manager.py:52-58 | The merged keys are those of both trees. A key only in the base keeps its value. A key of the override replaces the base value unless both values are objects, in which case the two are merged recursively. |
| Config.MergeOverrideWins | core/config_manager.py:52-58 | Wherever the override holds a non-object value along a path, the merged configuration holds that value there. |
| Config.MergeBaseShowsThrough | core/config_manager.py:52-58 | Wherever the override says nothing along a path, and nothing on the way is a non-object, the merged configuration agrees with the defaults. |
| Config.MergeEmptyOverride | core/config_manager.py:121-125 | Merging an empty user file over the defaults gives the defaults. |
| Config.GetStopsEarly | core/config_manager.py:71-80 | As soon as a segment of the dotted key is missing, or the value reached is not an object, `get` answers the caller's default. |
| Config.SetPath | core/config_manager.py:90-100 | The walk succeeds iff every existing intermediate on the path is an object, which is when Python does not raise. On success only the first segment's key changes at the top level. |
| Config.EmptySettable | core/config_manager.py:94-97 | A chain of freshly created intermediate objects never makes `set` raise. |
| Config.SetThenGet | core/config_manager.py:82-100 | After a successful `set`, `get` of the same key answers the value set. |
| Config.SetFrame | core/config_manager.py:94-100 | `set` leaves the value at every path that diverges from the key unchanged. |
| Config.ExpandUser | core/config_manager.py:131 | A path not starting with `~` is returned unchanged. A `~` path expands to a non-empty path. Its values for `~`, `~/rest` and `~name/rest` are stated by Config.ExpandTilde, Config.ExpandHomePath and Config.ExpandOtherUser. |
| Config.ExpandTilde | core/config_manager.py:131 | `~` alone is the home with its trailing `/` characters dropped, and `/` when nothing else is left. |
| Config.ExpandHomePath | core/config_manager.py:131 | `~/rest` is `rest` joined under the home, with the home's trailing `/` characters dropped, for every `rest` and every home. |
| Config.ExpandHome | core/config_manager.py:131 | For a home without a trailing `/`, `~` is the home and `~/rest` is `home + "/" + rest`. |
| Config.ExpandOtherUser | core/config_manager.py:131 | `~name/rest` is `rest` under that user's home when the account exists, and is returned unchanged when it does not. |
| Config.ExpandDefaultProjectsRoot | core/config_manager.py:127-131 | The default projects root `~/projects` expands to `projects` under the user's home. |
| Config.SettingAbsent | core/config_manager.py:138-190 | Without a `settings` section, every typed getter of a `settings.` key answers its fixed default. |
| Config.ProjectsRootDefault | core/config_manager.py:127-131 | Without a `settings` section, the projects root is `projects` under the user's home. |
| Config.FirstIndex | core/config_manager.py:173 | The position `list.remove` acts on: an occurrence of the element with none before it. |
| Config.RemoveFirst | core/config_manager.py:173 | `list.remove` deletes the first occurrence and keeps the rest in order: the result is the input with exactly that position cut out, so its multiset is the input's less one copy. |
| Config.AddUniqueKeepsSet | core/config_manager.py:162-167 | For any stored list, an absent service is appended at the end and a present one leaves the list and the configuration as they were. The service is then in the list, a list without duplicates stays so, and the multiset grows by the service exactly when it was absent. |
| Config.RemoveOneDropsOne | core/config_manager.py:169-174 | After removing a present service, the stored list is the old list with its first occurrence of the service deleted and the order of the rest kept. Removing an absent one changes nothing. |
| Config.Open | core/config_manager.py:26-50 | The files are kept as loaded, and the view is the user file deep-merged over the defaults, a missing or unreadable file counting as empty. So its keys are those of both files. |
| Config.Save | core/config_manager.py:102-119 | A successful save makes the user file the whole merged view, defaults included, and keeps the defaults and the view. A failed save changes nothing. |
| Config.MergeSelf | core/config_manager.py:52-58 | Merging a configuration over itself gives it back. |
| Config.MergeAbsorb | core/config_manager.py:52-58 | Merging the defaults again over an already merged view changes nothing. |
| Config.SaveThenReload | core/config_manager.py:26-119 | Loading again after a save gives back the configuration that was saved. |
| Config.Reset | core/config_manager.py:121-125 | After a reset the user file is gone and the configuration equals the defaults. |
| Config.SetInMemory | core/config_manager.py:134-152 | A setter other than the theme changes neither file, and afterwards reading the key answers the value set. |
| Config.SetTheme | core/config_manager.py:192-200 | After `set_theme` the theme reads as the new value, and when the file is writable the user file holds the whole configuration at once. |
| Certificates.BuildRequest | core/ssl_manager.py:42-76 | The certificate is self-signed: subject equals issuer, and its only common name is the domain. The alternative names are exactly the domain and `www.` plus the domain, non-critical. The key is 2048-bit RSA with exponent 65537, signed with SHA-256. |
| Certificates.Generate | core/ssl_manager.py:26-107 | A generator failure is reported with its message and nothing is done. Success means both the certificate and the key exist. No directory changes. |
| Certificates.GenerateSuccess | core/ssl_manager.py:88-104 | A successful issue has written the certificate and then the key, and has started exactly the two copies and then the two mode changes, in that order. |
| Certificates.CertWriteFailure | core/ssl_manager.py:92-94 | A failed certificate write ends the call: no key is written, no file changes, and only the failed copy was started. |
| Certificates.KeyWriteFailure | core/ssl_manager.py:96-98 | A failed key write leaves the certificate just written in place, after exactly two commands. |
| Certificates.Install | core/ssl_manager.py:109-146 | A missing certificate is reported before any command runs. Installation changes no file or directory of the model. |
| Certificates.InstallOrder | core/ssl_manager.py:124-143 | A failed copy stops before the trust store is rebuilt. Success holds iff both commands exit with 0, after exactly those two commands. |
| Certificates.CertificateExists | core/ssl_manager.py:172-185 | True iff both `/etc/ssl/certs/<domain>.crt` and `/etc/ssl/private/<domain>.key` exist, as files or directories. |
| Certificates.CertificateExistsLocal | core/ssl_manager.py:182-185 | The answer depends on the existence of those two paths only, not on other files or on the command log. |
| Certificates.Remove | core/ssl_manager.py:148-170 | Removal always succeeds and starts exactly the three `rm -f` commands and then the rebuild, in that order. |
| VHost.DerivedDomainShape | core/vhost_manager.py:45-50 | A custom domain comes out sanitised. Otherwise the domain ends with the unsanitised extension, and what precedes it is the sanitised project name. |
| VHost.SslPathsAgree | core/vhost_manager.py:104-105 | The SSL block points at the very certificate and key paths the certificate issuer writes. |
| VHost.SslConfig | core/vhost_manager.py:97-113 | Without SSL the block is empty. A missing or empty SSL template also yields an empty block. Otherwise the block is the template rendered with the domain, root, PHP version and the two certificate paths. |
| VHost.RenderConfig | core/vhost_manager.py:90-121 | A configuration exists iff the main template is present and non-empty. It is that template rendered with the domain, root, PHP version and SSL block. |
| VHost.Apache | core/vhost_manager.py:82-95 | A missing or empty Apache template fails with nothing done. |
| VHost.ApacheFinish | core/vhost_manager.py:135-141 | The three module activations and the reload are started in that order. |
| VHost.ApacheCopyFails | core/vhost_manager.py:123-128 | A failed configuration write ends the Apache step with no file changed and only the copy started. |
| VHost.ApacheEnableFails | core/vhost_manager.py:130-133 | A failed site activation ends the step after the copy: the configuration stays written and no module is activated. |
| VHost.ApacheSuccess | core/vhost_manager.py:123-145 | A successful Apache step has written the configuration. It started the copy, the activation, three module activations and the reload, in that order, and the copy and the activation exited with 0. |
| VHost.Nginx | core/vhost_manager.py:147-160 | A missing or empty nginx template fails with nothing done. |
| VHost.NginxActivate | core/vhost_manager.py:195-216 | Linking, testing and reloading change no file or directory of the model. |
| VHost.NginxCopyFails | core/vhost_manager.py:188-193 | A failed configuration write ends the nginx step with no file changed and only the copy started. |
| VHost.NginxLinkFails | core/vhost_manager.py:195-204 | A failed link ends the step right after it. |
| VHost.NginxTestFails | core/vhost_manager.py:206-209 | A failed configuration test ends the step before the reload. |
| VHost.NginxReloadFails | core/vhost_manager.py:211-214 | A failed reload fails the step with the configuration left written. |
| VHost.NginxActivateSuccess | core/vhost_manager.py:195-216 | Successful activation has started the link, the test and the reload, in that order. |
| VHost.NginxSuccess | core/vhost_manager.py:188-216 | A successful nginx step has written the configuration and started the copy, link, test and reload, in that order. |
| VHost.AppendHostEntry | core/vhost_manager.py:227-233 | The result always contains the entry. Text already containing it, even as part of a longer name, is unchanged. Otherwise the result is the text without trailing whitespace followed by the entry on its own line. |
| VHost.AppendHostEntryIdempotent | core/vhost_manager.py:228-236 | Registering a domain twice is the same as registering it once. |
| VHost.Reject | core/vhost_manager.py:293 | The filter keeps exactly the lines that do not match, and keeps everything when nothing matches. |
| VHost.RejectConcat | core/vhost_manager.py:293 | Filtering works line by line: the kept lines of two pieces of text are the kept lines of each, in order. |
| VHost.RejectSingle | core/vhost_manager.py:293 | A single line is kept, once, iff it does not match. With RejectConcat this fixes the order and the number of kept lines. |
| VHost.RemoveHostLinesNoMatch | core/vhost_manager.py:291-294 | Hosts text with no line ending with the domain comes back unchanged. |
| VHost.RemoveHostLinesExact | core/vhost_manager.py:291-294 | The lines of the result are exactly the kept lines, and for a non-empty domain none of them ends with it. |
| VHost.AddThenRemove | core/vhost_manager.py:218-299 | After adding and then removing a domain, no line ending with it remains. |
| VHost.AddToHosts | core/vhost_manager.py:218-238 | A failed read fails with no file changed. After a successful read, an entry already present is success with nothing written. Otherwise success holds iff the `cp` of the appended text exits with 0, and success leaves the appended text in the file. |
| VHost.RemoveFromHosts | core/vhost_manager.py:282-299 | A failed read fails. After a successful read, success holds iff the `cp` of the text without the domain's lines exits with 0. Success writes that text, and a failure changes no file. |
| VHost.ServerStep | core/vhost_manager.py:60-70 | There is a server step iff the server is `apache2` or `nginx`. |
| VHost.CreateVirtualHost | core/vhost_manager.py:22-80 | An invalid domain, a missing root and an unsupported server are reported in that order, with nothing done. A failed server step is reported as it is. After a successful server step, the world is the one the hosts registration leaves, and the message is the success message or the hosts failure. Success holds iff both steps succeed. |
| VHost.RunIgnoring | core/vhost_manager.py:251-275 | The removal commands are all started, in order, whatever they return. |
| VHost.RemoveVirtualHost | core/vhost_manager.py:240-280 | Removal always succeeds. It starts the server's removal commands and then updates the hosts file, whose outcome is ignored. |
| Projects.Classify | core/project_manager.py:52-90 | Detection fails only when the directory cannot be listed. `Unknown` is reported only for a directory that was listed. |
| Projects.FirstMarker | core/project_manager.py:62-80 | A marker type is found iff some marker file is present. |
| Projects.ClassifyByTable | core/project_manager.py:62-90 | Detection reads the marker table in order (artisan, wp-config.php, symfony.lock, package.json, requirements.txt), and only then the `.php` and `.html` extension rule. |
| Projects.MarkerPriority | core/project_manager.py:62-80 | A marker earlier in the table wins over every later one, whatever else the directory holds. |
| Projects.Collect | core/project_manager.py:34-48 | Every listed project is a directory under the root, has the detected type and the URL `http://` + name + extension, and there are no more projects than entries. |
| Projects.GetProjects | core/project_manager.py:20-50 | A missing or unlistable root gives no projects. |
| Projects.CollectNamesSubdirectories | core/project_manager.py:35-48 | The project names are a prefix of the subdirectories in listing order: a failing detection ends the list. They are all of the subdirectories when no detection fails. |
| Projects.ListedUrlIsOpened | core/project_manager.py:204-224 | Opening a listed project hands exactly its listed URL to `xdg-open`. |
| Projects.HtmlIndexNames | core/project_manager.py:155-167 | The HTML page carries the project name in its title and its heading. |
| Projects.CreateProject | core/project_manager.py:92-175 | An existing path fails with nothing changed. When a missing directory of the path's lineage cannot be made, the exception escapes. Otherwise the path and all its missing ancestors become directories before the type is looked at. Success means the project directory exists. An unsupported type fails and leaves the new empty directory behind. |
| Projects.CreateMakesRoot | core/project_manager.py:108-115 | Creating a project under a projects root that does not exist yet makes the root and its ancestors as well. The project list's existence test on the root (core/project_manager.py:29-30) then passes. |
| Projects.Populate | core/project_manager.py:117-175 | No directory is added after the project directory. An unsupported type fails with nothing else done. Empty and HTML projects cannot fail once written. Laravel and WordPress run exactly one command. |
| Projects.Page | core/project_manager.py:118-172 | Writing an empty or HTML project's page either raises or succeeds. |
| Projects.WriteIndex | core/project_manager.py:123-126 | The page write raises iff the file may not be opened for writing: it is locked or a directory. Otherwise the page holds the content and the call succeeds with the given message. |
| Projects.Fetch | core/project_manager.py:128-153 | A Laravel or WordPress project runs exactly one unprivileged command: Composer's `create-project`, or the WordPress download chain. |
| Projects.Download | core/project_manager.py:130-138 | The outcome of a fetch is the exit status of its one command. A failure message ends with the command's stderr. |
| Projects.CreatedIndex | core/project_manager.py:118-172 | A new empty project holds `index.php` with the PHP information page. A new HTML project holds `index.html` naming the project in title and heading. |
| Projects.DeleteProject | core/project_manager.py:177-202 | A missing project is reported before any command. Otherwise success holds iff `rm -rf` exits with 0. |
| Projects.OpenInBrowser | core/project_manager.py:204-224 | Exactly one unprivileged `xdg-open` of the project URL is started. Success holds iff it exits with 0. |
| Services.GetStatus | core/service_manager.py:30-62 | The status is never `error`. After a successful `is-active`, it is running iff stripped stdout is `active`, else stopped. Otherwise it is not installed iff `list-unit-files` fails, else stopped. |
| Services.IsEnabled | core/service_manager.py:164-179 | Enabled iff `is-enabled` exits with 0 and stripped stdout is `enabled`. |
| Services.Control | core/service_manager.py:64-162 | Each action runs one privileged `systemctl <verb> <name>` and succeeds iff it exits with 0. A failure message names the verb, the service and stderr. |
| Services.ControlCancelled | core/service_manager.py:74-82 | A dismissed password prompt (status 126) makes the action fail with a message ending in the cancellation notice. |
| Services.ServiceEntry | core/service_manager.py:211-219 | A missing service is reported as not enabled without asking `is-enabled`. Otherwise it reports the `is-enabled` answer, with the service's description and status. |
| Services.Statuses | core/service_manager.py:209-221 | There is one row per service name, no row says `error`, and no not-installed row says enabled. The value of each row is stated by Services.StatusesLastWins. |
| Services.AllStatuses | core/service_manager.py:202-221 | The rows are exactly the known services. |
| Services.AllStatusesRows | core/service_manager.py:209-219 | Each known service's row is the one `ServiceEntry` gives on the world left by the services before it. Its status is what `get_service_status` answers there. Its enabled flag is false for a missing service and otherwise what `is_enabled` answers. |
| Services.KnownDistinct | core/service_manager.py:11-24 | No service name appears twice in the table, so every service keeps its own row. |
| Services.StatusesLastWins | core/service_manager.py:211-219 | The row kept for a name is the whole entry (description, status, enabled flag) that `ServiceEntry` produced for its last occurrence, on the world left by the services before that occurrence, as dictionary assignment does. |
| Services.StatusesRows | core/service_manager.py:209-219 | For services with distinct names, every row is the entry its own service produced on the world left by the services before it. |
| Services.StatusesKeeps | core/service_manager.py:209-221 | A row for a name no later service mentions is kept unchanged. |
| Services.Port | core/service_manager.py:223-244 | A service has a port iff it is in the fixed table, and the port is the table's entry. |
| Services.PortsValid | core/service_manager.py:234-242 | Every port of the table passes the port validator. |
| Services.PortsOfKnownServices | core/service_manager.py:11-24 | Every service with a port is a known service. The PHP FPM services are known but have no port. |
| Packages.Flatten | core/package_installer.py:50-51 | The flattened catalog holds exactly the entries of all categories. |
| Packages.FirstIndex | core/package_installer.py:50-54 | The index found is that of the first entry whose display or package name matches; no earlier entry matches. |
| Packages.FindIn | core/package_installer.py:50-54 | Nothing is found iff no entry matches. A found entry matches and belongs to the entries. |
| Packages.LookupFlat | core/package_installer.py:40-54 | Looking up category by category is looking up the first match in the whole catalog, in catalog order. |
| Packages.Filter | core/package_installer.py:208-213 | The filter keeps exactly the matching entries. |
| Packages.FilterConcat | core/package_installer.py:208-213 | Filtering works entry by entry: the matches of two lists are the matches of each, in order. |
| Packages.FilterSingle | core/package_installer.py:208-213 | A single entry is kept, once, iff it matches. With FilterConcat this fixes the order and the number of matches. |
| Packages.Search | core/package_installer.py:195-215 | The result holds exactly the catalog entries whose lower-cased name, description or package contains the lower-cased query. |
| Packages.FlattenConcat | core/package_installer.py:205-213 | The entries of two catalogs put together are those of the first, then those of the second. |
| Packages.SearchConcat | core/package_installer.py:205-213 | Search keeps catalog order: the matches of earlier categories come first. |
| Packages.SearchCategory | core/package_installer.py:208-213 | Within one category the result is that category's matches, in order. |
| Packages.SearchEmptyQuery | core/package_installer.py:205-215 | The empty query returns the whole catalog in order. |
| Packages.SearchIgnoresCase | core/package_installer.py:205 | A query and its lower-case form find the same entries. |
| Packages.IsInstalled | core/package_installer.py:56-76 | A package counts as installed iff `dpkg -l \| grep -w` exits with 0 and prints something, or else the program is on the `PATH`. |
| Packages.EnsurePpaTools | core/package_installer.py:97-112 | The PPA step runs one or two commands, only adds to the log, and changes no file. |
| Packages.AptInstall | core/package_installer.py:97-126 | A PPA failure is reported first. A failed `apt-get update` is reported before the install command. Otherwise success holds iff the install command exits with 0. |
| Packages.Install | core/package_installer.py:78-126 | An unknown package fails with nothing done. An installed package succeeds without apt. Otherwise the apt steps decide. |
| Packages.InstallRunsUpdateFirst | core/package_installer.py:114-126 | A successful installation ran `apt-get update` and, last, the entry's install command. |
| Packages.Uninstall | core/package_installer.py:129-157 | An unknown package fails. A package not installed succeeds without `apt-get remove`. Otherwise success holds iff the removal exits with 0. |
| Packages.InstallEach | core/package_installer.py:174-175 | The results are keyed by the recorded names and the requested names. A recorded name that is not requested keeps its result. |
| Packages.InstallEachConcat | core/package_installer.py:174-175 | Installing two lists in a row is installing the first, then the second from where the first left the world and the results. |
| Packages.InstallEachWorld | core/package_installer.py:174-175 | The world the installations reach does not depend on the results recorded so far. |
| Packages.InstallEachLast | core/package_installer.py:174-175 | The result recorded for a name is what installing it at its last occurrence returned, on the world the earlier installations left. |
| Packages.InstallMultiple | core/package_installer.py:159-177 | There is exactly one result per requested name, and the first command is one `apt-get update`. |
| Packages.InstallMultipleResult | core/package_installer.py:159-177 | Each requested name maps to what installing it at its last occurrence returned, after the package list update and the installations before it. |
| Packages.LogGrows | core/package_installer.py:174-175 | Installing a list of packages only adds to the command log. |
| Packages.InstallPhpExtension | core/package_installer.py:217-240 | Success holds iff the package install exits with 0. Only then is the FPM service restarted, and its result is ignored. |
| Packages.ExtensionPackageShape | core/package_installer.py:228 | The extension package is named `php<version>-<extension>`. |
| Databases.Pick | core/database_manager.py:88-91 | No picked name is empty or a system name. |
| Databases.PickMembership | core/database_manager.py:88-91 | A name is picked iff some line yields it and it is neither empty nor excluded. |
| Databases.MysqlListed | core/database_manager.py:86-94 | A database is listed iff the reply succeeded and a line after the header strips to its name, which is neither empty nor a system schema. |
| Databases.PostgresListed | core/database_manager.py:209-219 | A database is listed iff the reply succeeded and some line's first `\|` column strips to its name, which is neither empty nor postgres, template0 or template1. |
| Databases.MysqlRoundTrip | core/database_manager.py:83-94 | A header followed by one clean database name per line parses back to exactly those names, in order. |
| Databases.ListingRoundTrip | core/database_manager.py:88-91 | The same round trip holds for any set of excluded names. |
| Databases.PostgresRow | core/database_manager.py:212-214 | The name of a row is its first column, stripped. |
| Databases.ListMysql | core/database_manager.py:76-94 | The listing is one privileged `SHOW DATABASES` parsed by the MySQL rule. |
| Databases.ListPostgres | core/database_manager.py:199-219 | The listing is one unprivileged `psql \l` parsed by the PostgreSQL rule. |
| Databases.DefaultPort | core/database_manager.py:244-251 | Only `mysql` and `postgresql` have a default port. |
| Databases.PortOr | core/database_manager.py:245 | A missing port and port 0 both fall back to the default. |
| Databases.ConnectionString | core/database_manager.py:221-251 | An unknown type gives the empty string. A known type gives the rendered URL, with the given port or the type's default. |
| Databases.RenderRoundTrip | core/database_manager.py:246-249 | A connection string reads back as its parts when the parts hold no separator. |
| Databases.ConnectionRoundTrip | core/database_manager.py:244-251 | A connection string for a known type reads back as the type, the credentials, the host, the port or its default, and the database. |
| Databases.CreateMysql | core/database_manager.py:15-56 | A failed database step is reported with nothing more done. Without both a user name and a password, success follows that one step. |
| Databases.MysqlCreateOrder | core/database_manager.py:39-54 | With credentials, the user comes after the database and the grant after the user. Success holds iff all three steps succeed. |
| Databases.MysqlCreateSteps | core/database_manager.py:32-56 | The database command runs first. The creation runs one to three commands, and more than one only with full credentials and a successful database step. |
| Databases.OwnerClause | core/database_manager.py:170 | The OWNER clause is present iff a user name is given, with or without a password. |
| Databases.PostgresDatabaseStep | core/database_manager.py:169-179 | The database step succeeds iff the command exits with 0 or stderr says `already exists`, which is reported as an existing database. |
| Databases.PostgresWithoutUser | core/database_manager.py:161-172 | Without full credentials no user is created: the only command is the unprivileged database one. |
| Databases.PostgresUserFirst | core/database_manager.py:161-167 | With credentials, a user failure other than `already exists` stops before the database. Otherwise the database step decides. |
| Databases.SingleCommand | core/database_manager.py:68-74 | A one-command operation succeeds iff the command exits with 0, and a failure message ends with its stderr. |
| Databases.DeleteOutcome | core/database_manager.py:58-74 | Deleting runs one command, privileged for MySQL and, as delete_postgresql_database does, unprivileged for PostgreSQL. |
| Dialogs.CustomDomain | gui/vhost_dialog.py:120 | A custom-domain field that strips to nothing means no custom domain. Otherwise the custom domain is the stripped text. |
| Dialogs.CreateVHostDialog | gui/vhost_dialog.py:114-155 | An empty name or root stops before any call. Acceptance needs a final virtual-host call. With SSL the first call issues a certificate for the unsanitised domain. Without SSL no certificate is asked for. |
| Dialogs.PlainHost | gui/vhost_dialog.py:141-155 | Without SSL the only call is the virtual host, and the dialog is accepted iff it succeeds. |
| Dialogs.SecuredHost | gui/vhost_dialog.py:132-155 | With SSL the certificate is asked for first. An accepted dialog made exactly the two calls. A failed certificate stops the dialog after one call. |
| Dialogs.CertificateFailureStops | gui/vhost_dialog.py:133-139 | A certificate that cannot be issued stops the dialog before the virtual host is asked for, and the dialog stays open. |
| Dialogs.AcceptedIffCreated | gui/vhost_dialog.py:141-155 | Once a virtual host is asked for, with the stripped fields, the dialog is accepted iff it is created. |
| Dialogs.CertificateMatchesVHost | gui/vhost_dialog.py:134 | The certificate domain equals the virtual host's domain iff sanitising leaves the typed name unchanged. |
| Dialogs.CapitalisedDomainMismatch | gui/vhost_dialog.py:133-135 | A custom domain with a capital letter gets a certificate that the virtual host does not use. |
| Dialogs.ProjectType | gui/project_dialog.py:110-117 | Every choice maps to one of the four supported types, and an unknown label means an empty project. |
| Dialogs.CreateProjectDialog | gui/project_dialog.py:98-160 | An empty name stops before any call. Otherwise the project is created first, and the dialog is accepted iff that creation succeeds. |
| Dialogs.ProjectSite | gui/project_dialog.py:126-151 | The site asks for a certificate for name plus extension only with SSL. It then always asks for the virtual host, with the configured server and PHP version, no custom domain, and the project directory (its `public` directory for Laravel). |
| Dialogs.ProjectSiteCalls | gui/project_dialog.py:126-160 | Once the project exists and a site is asked for, the dialog makes the site's calls and is accepted whatever they return. |
| Dialogs.DialogTypesSupported | gui/project_dialog.py:110-120 | The dialog only asks for supported types, so a failure after the directory is made comes from the one command of a Laravel or WordPress project. |
| Terminal.FreshValid | gui/terminal_widget.py:25-26 | The initial history (empty, position -1) is well formed. |
| Terminal.Navigate | gui/terminal_widget.py:159-174 | An empty history changes nothing. Otherwise the position moves by the step, clamped at 0 below and at the length above. The input shows the entry at the position, or is cleared past the end. |
| Terminal.NavigateValid | gui/terminal_widget.py:159-174 | Walking the history keeps the position in range and the history well formed. |
| Terminal.UpThenDown | gui/terminal_widget.py:148-174 | Up then down returns to the same position and entry. |
| Terminal.NavigateStops | gui/terminal_widget.py:164-171 | At either end a further step in the same direction changes nothing. |
| Terminal.Execute | gui/terminal_widget.py:221-244 | A command that strips to nothing changes nothing. Otherwise the stripped command is run and is the last history entry. It is appended iff it differs from the previous last entry. The position moves past the end and the input is cleared. |
| Terminal.ExecuteValid | gui/terminal_widget.py:223-231 | Running a command keeps every entry stripped and non-empty, with no entry repeating the one before it. |
| Terminal.AppendGood | gui/terminal_widget.py:229-230 | Recording a command that differs from the last entry keeps the history well formed. |
| Terminal.RecallLast | gui/terminal_widget.py:228-231 | After a command runs, the up key brings it back. |
| Terminal.RepeatRecordedOnce | gui/terminal_widget.py:229-230 | Running the same command twice in a row records it once. |
| Terminal.WorkingDirectory | gui/terminal_widget.py:233-237 | The command runs in the selected project's directory, or in the home directory without one. |
| Terminal.Prepend | gui/terminal_widget.py:266-267 | Prepending puts the directory and a colon in front of the old `PATH`, or of the empty string when unset, and leaves every other variable alone. |
| Terminal.ProcessEnvironment | gui/terminal_widget.py:247-275 | Without a project the child inherits the program's environment unchanged. With a project it sees nothing beyond the three project variables and `PATH`. |
| Terminal.ProjectExported | gui/terminal_widget.py:259-261 | With a project, its root, name and type label are exported. |
| Terminal.ProjectOnly | gui/terminal_widget.py:251-274 | Started from the empty environment, a project run holds exactly the three project variables, and `PATH` iff a tool directory exists. |
| Terminal.ProjectRun | gui/terminal_widget.py:247-274 | What a project run sees does not depend on the program's environment. It holds the project's root, name and type label, and `PATH` iff a tool directory exists. |
| Terminal.SearchPathOrder | gui/terminal_widget.py:263-273 | Whatever the starting environment, with both tool directories the search path is the Composer tools, then the Node.js tools, then the starting path. Each directory is present only when it exists. |
| Terminal.EmptyStartPath | gui/terminal_widget.py:263-273 | From the empty environment, the search path is the existing tool directories, Composer's first, each followed by a colon. It ends in an empty entry. |

## Left out

- Process execution is not modelled: `subprocess`, `pkexec` and `QProcess`. The outcome of every command line is an oracle input of `Bridge.Env`, and whether the process is root is a field of it.
- The `shell=False` branch of run_command is left out. Every caller uses the default `shell=True`.
- run_command_async, get_system_info, is_root and check_command_exists are not modelled as operations. Root status and `shutil.which` become the `isRoot` field and the `onPath` parameter.
- Creating and deleting the temporary file of a privileged write is not modelled: its name is a field of `Bridge.Env`. The write is modelled by its `cp`, whose status decides the result.
- The effect of a shell command on the file system (`rm`, `chmod`, `ln`, `composer`, `wget`, `mysqldump`) is not modelled. Only the command log records it. There are two exceptions. A `cp` of the temporary file writes the target (Bridge.WriteFile). A successful `mkdir -p` adds the directory and its missing ancestors (Bridge.EnsureDirectory).
- validate_email is not modelled. No other file in scope calls it.
- The cryptography of the certificate issuer is opaque: RSA key generation, X.509 signing, PEM encoding, the random serial number and the clock. It is a `Certificates.Mint` function of the certificate request, which may fail with a message.
- Template files and `str.format` are not interpreted. Rendering is an uninterpreted function of the template text and the exact bindings passed. A template with an unknown placeholder (a `KeyError`) is outside the model.
- JSON parsing and serialisation of the configuration and of the package catalog are left out. A missing or unreadable file is `None`, and the catalog is a parameter.
- A configuration file that parses but whose top-level value is not a JSON object is not modelled: `Config.Open` takes both files as object trees. In the program such a user file makes `_deep_merge` raise `AttributeError`, a default file holding a string, number, boolean or null makes `.copy()` raise it, and a default file holding a list becomes the configuration itself; in the raising cases the `ConfigManager` constructor fails (core/config_manager.py:26-55).
- Floating-point JSON numbers are not part of `JsonTree.Json`.
- Config.GetDefaultWebServer, Config.GetDefaultPhpVersion, Config.GetDomainExtension, Config.GetTheme, Config.GetAutoStartServices and Config.GetPath return the stored JSON value rather than a Python `str` or `list`. The program does not check the type either.
- Config.SetInMemory, Config.SetTheme: a `set` that would raise `TypeError` is `None`. The model assumes nothing was changed by then, which holds because the walk raises before it creates anything.
- `str.lower` is modelled on ASCII letters only. Other Unicode case mappings are left out.
- Validators.ValidateDomainName: stated as "labels, or labels less one final newline", following Python's `$`, rather than as "labels" alone.
- Databases.ParseMysql and Databases.ParsePostgres state only the failure case in their own contracts. Databases.MysqlListed, Databases.PostgresListed and Databases.MysqlRoundTrip carry the rest.
- Databases.CreatePostgres has no contract of its own. Databases.PostgresWithoutUser, Databases.PostgresUserFirst and Databases.PostgresDatabaseStep state its behaviour.
- Databases.DeleteMysql, Databases.DeletePostgres, Databases.ImportMysql and Databases.ExportMysql are stated through Databases.SingleCommand and Databases.DeleteOutcome.
- Terminal.ProcessEnvironment states the project case only as a bound on its variables. Terminal.ProjectRun, Terminal.ProjectOnly and Terminal.EmptyStartPath state the values.
- Projects.GetProjects: `os.listdir` order and errors are the `Projects.Listing` parameter, and directory status is read off the world.
- Projects.Detect has no contract of its own. Projects.ClassifyByTable and Projects.MarkerPriority state the priority order on `Projects.Classify`.
- get_service_logs, the psutil port scan, get_installed_packages, get_all_packages and the npm and Composer helpers are left out. They run one command or read a table, and none of the modelled operations uses them.
- The terminal's output display, prompt label, process signals, refresh_projects and on_project_changed are left out. The selected project is a parameter, and the expanded `~` is the `home` parameter.
- What Qt does with an exception that escapes a dialog's slot is left out: PyQt ends the application. Message boxes in the dialogs are left out too. A dialog run records only its manager calls, the final world and whether it was accepted.
- The main window, styles, icons, tray, database dialog and main.py startup checks are left out as user interface and environment probing.
- Timer-driven status polling and concurrent hosts-file updates are left out. The model is sequential.

=== FILE: bridge.dfy ===
/** The command bridge (utils/system_utils.py).

    The outside world is abstract. `World` holds the files the program can
    see, the directories, and the log of every shell command line that was
    started. `Env` supplies what the program cannot compute itself: whether
    it runs as root, the outcome of each command (an oracle indexed by the
    command's position in the log, so that the same command line may behave
    differently at different times), and the name of the temporary file a
    privileged write goes through. */
module Bridge {
  import opened Wrappers
  import opened Text
  import Validators

  /** What starting a command line yields: an exit status with its two
      output streams, or a Python exception with its message. */
  datatype Outcome = Exited(code: int, stdout: string, stderr: string) | Raised(message: string)

  /** run_command's triple. */
  datatype Reply = Reply(code: int, stdout: string, stderr: string)

  datatype World = World(
    files: map<string, string>,
    dirs: set<string>,
    locked: set<string>,   // files the unprivileged process may not open or create (no permission, no parent)
    log: seq<Line>)

  /** A started command line: the command itself, or the command handed to
      `pkexec bash -c` as one single-quoted word (see `LineText`). */
  datatype Line = Direct(command: string) | Pkexec(command: string)

  datatype Env = Env(isRoot: bool, oracle: (nat, Line) -> Outcome, tempPath: string)

  /** The `(success, message)` pair the managers answer, with the world
      after the call. */
  datatype Done = Done(ok: bool, message: string, world: World)

  const AuthCancelled := "Authentication cancelled by user"

  /** os.path.exists */
  predicate Exists(w: World, path: string)
  {
    path in w.files || path in w.dirs
  }

  /** The directories `os.makedirs` and `mkdir -p` make for `path`: the path
      itself and each ancestor, that is the text before a '/' that does
      not follow another '/' (so neither the root nor an empty name is
      one). */
  function Lineage(path: string): (r: set<string>)
    ensures path in r
    ensures forall a :: a in r && a != path ==> 0 < |a| < |path| && a == path[..|a|] && path[|a|] == '/'
    ensures forall i :: 0 < i < |path| && path[i] == '/' && path[i - 1] != '/' ==> path[..i] in r
  {
    {path} + set i | 0 < i < |path| && path[i] == '/' && path[i - 1] != '/' :: path[..i]
  }

  /** `os.makedirs(path)` raises: a missing directory of the lineage may not
      be created, or one of them is a file. */
  predicate MakedirsBlocked(w: World, path: string)
  {
    exists a :: a in Lineage(path) && a !in w.dirs && (a in w.files || a in w.locked)
  }

  /** os.path.join of two components: an absolute second part replaces the
      first; otherwise a '/' is inserted unless the first is empty or
      already ends with one. */
  function PathJoin(a: string, b: string): (r: string)
    ensures StartsWith(b, "/") ==> r == b
    ensures EndsWith(r, b)
  {
    if |b| > 0 && b[0] == '/' then b
    else if |a| == 0 || a[|a| - 1] == '/' then a + b
    else a + "/" + b
  }

  /** Joining a name onto a directory puts the directory and all its
      ancestors in the lineage of the result. */
  lemma JoinedLineage(root: string, name: string)
    requires |root| > 0 && root[|root| - 1] != '/'
    requires |name| > 0 && name[0] != '/'
    ensures Lineage(root) <= Lineage(PathJoin(root, name))
  {
    var path := PathJoin(root, name);
    assert path == root + "/" + name;
    forall a | a in Lineage(root) ensures a in Lineage(path) {
      if a == root {
        assert path[..|root|] == root && path[|root|] == '/' && path[|root| - 1] != '/';
      } else {
        var i := |a|;
        assert path[..i] == root[..i] == a;
        assert path[i] == root[i] && path[i - 1] == root[i - 1];
      }
    }
  }

  /** Joining two paths that pass validate_path gives one that passes. */
  lemma JoinedPathValid(a: string, b: string, pathExists: string -> bool)
    requires Validators.ValidatePath(a, false, pathExists) && Validators.ValidatePath(b, false, pathExists)
    ensures Validators.ValidatePath(PathJoin(a, b), false, pathExists)
  {
  }

  // ---------------------------------------------------------------------
  // Privilege wrapping

  /** Each single quote becomes `'"'"'`: close the quoted string, emit a
      double-quoted single quote, and reopen. */
  function Escape(s: string): (r: string)
    ensures |r| >= |s|
    ensures '\'' !in s ==> r == s
  {
    if |s| == 0 then ""
    else (if s[0] == '\'' then "'\"'\"'" else [s[0]]) + Escape(s[1..])
  }

  const PkexecPrefix := "pkexec bash -c "

  /** The command line a non-root privileged call actually starts. */
  function Wrap(command: string): string
  {
    PkexecPrefix + "'" + Escape(command) + "'"
  }

  /** The text of a started command line. */
  function LineText(line: Line): string
  {
    match line
    case Direct(command) => command
    case Pkexec(command) => Wrap(command)
  }

  /** The command line run_command starts: wrapped exactly when privileges
      are asked for and the process is not already root. */
  function Effective(env: Env, command: string, useSudo: bool): (r: Line)
    ensures r.command == command
    ensures r.Pkexec? <==> useSudo && !env.isRoot
  {
    if useSudo && !env.isRoot then Pkexec(command) else Direct(command)
  }

  /** The command lines a run of commands starts, in order. */
  function Started(env: Env, commands: seq<string>, useSudo: bool): (r: seq<Line>)
    ensures |r| == |commands|
    ensures forall i :: 0 <= i < |commands| ==> r[i] == Effective(env, commands[i], useSudo)
  {
    if |commands| == 0 then [] else [Effective(env, commands[0], useSudo)] + Started(env, commands[1..], useSudo)
  }

  // ---------------------------------------------------------------------
  // Quote removal of one shell word (section 2.2 of POSIX.1-2017 XCU,
  // restricted to words built from single- and double-quoted pieces)

  /** Outside any quotes. Unquoted characters are not needed by the words
      the program builds and are rejected. */
  function UnquoteOutside(s: string, acc: string): Option<string>
    decreases |s|, 1
  {
    if |s| == 0 then Some(acc)
    else if s[0] == '\'' then UnquoteSingle(s[1..], acc)
    else if s[0] == '"' then UnquoteDouble(s[1..], acc)
    else None
  }

  /** Inside single quotes every character stands for itself up to the next
      single quote (section 2.2.2). */
  function UnquoteSingle(s: string, acc: string): Option<string>
    decreases |s|, 0
  {
    if |s| == 0 then None
    else if s[0] == '\'' then UnquoteOutside(s[1..], acc)
    else UnquoteSingle(s[1..], acc + [s[0]])
  }

  /** Inside double quotes; `$`, backquote and backslash keep a special
      meaning there (section 2.2.3) and are rejected. */
  function UnquoteDouble(s: string, acc: string): Option<string>
    decreases |s|, 0
  {
    if |s| == 0 then None
    else if s[0] == '"' then UnquoteOutside(s[1..], acc)
    else if s[0] in {'$', '`', '\\'} then None
    else UnquoteDouble(s[1..], acc + [s[0]])
  }

  function Unquote(word: string): Option<string>
  {
    UnquoteOutside(word, "")
  }

  /** The five characters that replace one single quote unquote to that
      quote and leave the reader inside single quotes again. */
  lemma QuoteStep(tail: string, acc: string)
    ensures UnquoteSingle("'\"'\"'" + tail, acc) == UnquoteSingle(tail, acc + "'")
  {
    var s := "'\"'\"'" + tail;
    assert s[0] == '\'' && s[1] == '"' && s[2] == '\'' && s[3] == '"' && s[4] == '\'';
    assert s[1..][1..] == s[2..];
    assert s[2..][1..] == s[3..];
    assert s[3..][1..] == s[4..];
    assert s[4..][1..] == s[5..];
    assert s[5..] == tail;
    assert UnquoteSingle(s, acc) == UnquoteOutside(s[1..], acc);
    assert UnquoteOutside(s[1..], acc) == UnquoteDouble(s[2..], acc);
    assert UnquoteDouble(s[2..], acc) == UnquoteDouble(s[3..], acc + "'");
    assert UnquoteDouble(s[3..], acc + "'") == UnquoteOutside(s[4..], acc + "'");
  }

  lemma {:induction false} UnquoteEscaped(c: string, rest: string, acc: string)
    ensures UnquoteSingle(Escape(c) + "'" + rest, acc) == UnquoteOutside(rest, acc + c)
    decreases |c|
  {
    if |c| == 0 {
      assert Escape(c) + "'" + rest == "'" + rest;
      assert acc + c == acc;
    } else {
      var tail := Escape(c[1..]) + "'" + rest;
      UnquoteEscaped(c[1..], rest, acc + [c[0]]);
      assert acc + [c[0]] + c[1..] == acc + c;
      if c[0] == '\'' {
        assert Escape(c) + "'" + rest == "'\"'\"'" + tail;
        QuoteStep(tail, acc);
      } else {
        var s := [c[0]] + tail;
        assert Escape(c) + "'" + rest == s;
        assert s[1..] == tail;
      }
    }
  }

  /** The quoted word handed to `bash -c` unquotes to exactly the original
      command, whatever quotes the command holds. */
  lemma WrapRoundTrip(command: string)
    ensures Unquote("'" + Escape(command) + "'") == Some(command)
    ensures Wrap(command) == PkexecPrefix + ("'" + Escape(command) + "'")
  {
    WordUnquotes(command);
  }

  lemma WordUnquotes(command: string)
    ensures Unquote("'" + Escape(command) + "'") == Some(command)
  {
    var e := Escape(command);
    var word := "'" + e + "'";
    assert word[0] == '\'';
    assert word[1..] == e + "'" + "";
    assert Unquote(word) == UnquoteSingle(word[1..], "");
    UnquoteEscaped(command, "", "");
    assert "" + command == command;
  }

  // ---------------------------------------------------------------------
  // Running a command

  /** run_command with `shell=True`: the effective command line is started
      and logged; exit status 126 of a privileged call means the password
      dialog was dismissed; an exception becomes status 1 with its message
      on stderr. */
  function RunCommand(env: Env, w: World, command: string, useSudo: bool): (r: (Reply, World))
    ensures r.1 == w.(log := w.log + [Effective(env, command, useSudo)])
    ensures r.0.code == Status(env.oracle(|w.log|, Effective(env, command, useSudo)))
    ensures env.oracle(|w.log|, Effective(env, command, useSudo)).Raised? ==>
      r.0 == Reply(1, "", env.oracle(|w.log|, Effective(env, command, useSudo)).message)
    ensures env.oracle(|w.log|, Effective(env, command, useSudo)).Exited? ==>
      var o := env.oracle(|w.log|, Effective(env, command, useSudo));
      && r.0.code == o.code
      && r.0.stdout == o.stdout
      && r.0.stderr == (if useSudo && o.code == 126 then AuthCancelled else o.stderr)
  {
    var line := Effective(env, command, useSudo);
    var w' := w.(log := w.log + [line]);
    match env.oracle(|w.log|, line)
    case Raised(message) => (Reply(1, "", message), w')
    case Exited(code, out, err) =>
      if useSudo && code == 126 then (Reply(code, out, AuthCancelled), w')
      else (Reply(code, out, err), w')
  }

  /** The status run_command reports for an outcome. */
  function Status(o: Outcome): int
  {
    match o
    case Exited(code, _, _) => code
    case Raised(_) => 1
  }

  /** The status the oracle gives the `k`-th of a run of command lines
      started from `w`. */
  function StatusAt(env: Env, w: World, plan: seq<Line>, k: nat): int
    requires k < |plan|
  {
    Status(env.oracle(|w.log| + k, plan[k]))
  }

  /** A privileged call outside root starts `pkexec bash -c` with one
      word that the shell unquotes to exactly the requested command; as
      root, or unprivileged, the command line is the command itself. */
  lemma LoggedCommand(env: Env, w: World, command: string, useSudo: bool)
    ensures var w' := RunCommand(env, w, command, useSudo).1;
      var line := LineText(w'.log[|w.log|]);
      && |w'.log| == |w.log| + 1
      && (useSudo && !env.isRoot ==>
            StartsWith(line, PkexecPrefix) && Unquote(line[|PkexecPrefix|..]) == Some(command))
      && (!(useSudo && !env.isRoot) ==> line == command)
  {
    if useSudo && !env.isRoot {
      WrapRoundTrip(command);
      var line := Wrap(command);
      assert line[|PkexecPrefix|..] == "'" + Escape(command) + "'";
    }
  }

  /** Quoting a path for the shell commands the bridge builds. */
  function DoubleQuoted(path: string): string
  {
    "\"" + path + "\""
  }

  // ---------------------------------------------------------------------
  // Files

  /** read_file. The privileged route answers `cat`'s output when it exits
      with status 0. */
  function ReadFile(env: Env, w: World, path: string, useSudo: bool): (r: (Option<string>, World))
    ensures !useSudo ==> r.1 == w
    ensures !useSudo ==> (r.0.Some? <==> path in w.files && path !in w.locked)
    ensures !useSudo && r.0.Some? ==> r.0.value == w.files[path]
    ensures useSudo ==> r.1.files == w.files && r.1.dirs == w.dirs && |r.1.log| == |w.log| + 1
    ensures useSudo ==> (r.0.Some? <==> RunCommand(env, w, "cat " + DoubleQuoted(path), true).0.code == 0)
  {
    if useSudo then
      var (reply, w') := RunCommand(env, w, "cat " + DoubleQuoted(path), true);
      (if reply.code == 0 then Some(reply.stdout) else None, w')
    else if path in w.files && path !in w.locked then (Some(w.files[path]), w)
    else (None, w)
  }

  /** write_file. The privileged route writes a temporary file and copies it
      into place with `cp`; the target holds the content exactly when the
      copy exits with status 0. The unprivileged `open(path, 'w')` raises,
      and the call answers false, on a locked path and on a directory. */
  function WriteFile(env: Env, w: World, path: string, content: string, useSudo: bool): (r: (bool, World))
    ensures r.0 ==> r.1.files == w.files[path := content]
    ensures !r.0 ==> r.1.files == w.files
    ensures r.1.dirs == w.dirs && r.1.locked == w.locked
    ensures !useSudo ==> (r.0 <==> path !in w.locked && path !in w.dirs) && r.1.log == w.log
    ensures useSudo ==> |r.1.log| == |w.log| + 1 && (r.0 <==> CopyCommand(env, w, path).0.code == 0)
  {
    if useSudo then
      var (reply, w') := CopyCommand(env, w, path);
      if reply.code == 0 then (true, w'.(files := w'.files[path := content])) else (false, w')
    else if path in w.locked || path in w.dirs then (false, w)
    else (true, w.(files := w.files[path := content]))
  }

  /** The command that moves the temporary file over `path`. */
  function CopyInto(env: Env, path: string): string
  {
    "cp " + DoubleQuoted(env.tempPath) + " " + DoubleQuoted(path)
  }

  function CopyCommand(env: Env, w: World, path: string): (Reply, World)
  {
    RunCommand(env, w, CopyInto(env, path), true)
  }

  /** append_to_file: read (a failed read counts as empty), then write the
      concatenation. */
  function AppendToFile(env: Env, w: World, path: string, content: string, useSudo: bool): (r: (bool, World))
  {
    var (existing, w1) := ReadFile(env, w, path, useSudo);
    WriteFile(env, w1, path, existing.GetOr("") + content, useSudo)
  }

  /** An unprivileged append succeeds unless the path is locked or a
      directory. It extends a readable file by exactly the content, and
      creates a missing file with the content. */
  lemma AppendExtends(env: Env, w: World, path: string, content: string)
    ensures AppendToFile(env, w, path, content, false).0 <==> path !in w.locked && path !in w.dirs
    ensures AppendToFile(env, w, path, content, false).0 ==>
      var w' := AppendToFile(env, w, path, content, false).1;
      path in w'.files &&
      w'.files[path] == (if path in w.files then w.files[path] else "") + content &&
      forall p :: p in w.files && p != path ==> p in w'.files && w'.files[p] == w.files[p]
  {
  }

  /** A privileged append writes the old content as `cat` reported it (or
      nothing, when `cat` failed) followed by the new content, after
      exactly two commands. */
  lemma PrivilegedAppend(env: Env, w: World, path: string, content: string)
    ensures var (ok, w') := AppendToFile(env, w, path, content, true);
      var (read, w1) := ReadFile(env, w, path, true);
      && |w'.log| == |w.log| + 2
      && (ok ==> w'.files == w.files[path := read.GetOr("") + content])
      && (!ok ==> w'.files == w.files)
  {
  }

  /** ensure_directory. An existing path is success with nothing done;
      otherwise a successful `mkdir -p` or `os.makedirs` makes the path
      and every missing ancestor, and the latter fails exactly when one
      of them may not be made. */
  function EnsureDirectory(env: Env, w: World, path: string, useSudo: bool): (r: (bool, World))
    ensures Exists(w, path) ==> r == (true, w)
    ensures r.0 ==> Exists(r.1, path)
    ensures r.0 && !Exists(w, path) ==> r.1.dirs == w.dirs + Lineage(path)
    ensures !r.0 ==> r.1.dirs == w.dirs
    ensures !useSudo && !Exists(w, path) ==> (r.0 <==> !MakedirsBlocked(w, path)) && r.1.log == w.log
    ensures useSudo && !Exists(w, path) ==>
      |r.1.log| == |w.log| + 1 && (r.0 <==> RunCommand(env, w, "mkdir -p " + DoubleQuoted(path), true).0.code == 0)
    ensures r.1.files == w.files
  {
    if Exists(w, path) then (true, w)
    else if useSudo then
      var (reply, w') := RunCommand(env, w, "mkdir -p " + DoubleQuoted(path), true);
      if reply.code == 0 then (true, w'.(dirs := w'.dirs + Lineage(path))) else (false, w')
    else if MakedirsBlocked(w, path) then (false, w)
    else (true, w.(dirs := w.dirs + Lineage(path)))
  }
}

=== FILE: certificates.dfy ===
/** The certificate issuer (core/ssl_manager.py).

    Key generation, signing and PEM encoding belong to an external library
    and are represented by a `Mint` function from the certificate request to
    the two PEM texts (or the message of the exception it raised). What the
    model keeps is the request itself (names, alternative names, key and
    hash parameters), where the files go, and in which order the commands
    run. */
module Certificates {
  import opened Text
  import opened Bridge

  function CertPath(domain: string): string { "/etc/ssl/certs/" + domain + ".crt" }
  function KeyPath(domain: string): string { "/etc/ssl/private/" + domain + ".key" }
  function TrustPath(domain: string): string { "/usr/local/share/ca-certificates/" + domain + ".crt" }

  /** The attribute types of an X.509 distinguished name that the issuer
      fills in (section 4.1.2.4 of RFC 5280). */
  datatype NameOid = Country | StateOrProvince | Locality | Organization | CommonName

  datatype Attribute = Attribute(oid: NameOid, value: string)

  datatype HashAlgorithm = Sha256

  /** Everything the certificate builder is given, apart from the random
      serial number and the validity start, which come from the clock. */
  datatype Request = Request(
    subject: seq<Attribute>,
    issuer: seq<Attribute>,
    subjectAltNames: seq<string>,
    altNamesCritical: bool,
    keySize: nat,
    publicExponent: nat,
    hash: HashAlgorithm,
    daysValid: int)

  datatype Minted = Minted(certificatePem: string, privateKeyPem: string) | MintFailed(message: string)

  type Mint = Request -> Minted

  function DistinguishedName(domain: string): seq<Attribute>
  {
    [ Attribute(Country, "US"), Attribute(StateOrProvince, "State"), Attribute(Locality, "City"),
      Attribute(Organization, "LinuxDev Manager"), Attribute(CommonName, domain) ]
  }

  /** The values of the common-name attributes of a name, in order. */
  function CommonNames(name: seq<Attribute>): seq<string>
  {
    if |name| == 0 then []
    else (if name[0].oid == CommonName then [name[0].value] else []) + CommonNames(name[1..])
  }

  /** The request for `domain`: a self-signed certificate (subject and
      issuer are the same name) whose only common name is the domain, with
      the domain and its `www.` name as DNS alternative names (section
      4.2.1.6 of RFC 5280), a 2048-bit RSA key with exponent 65537 and a
      SHA-256 signature. */
  function BuildRequest(domain: string, daysValid: int): (r: Request)
    ensures r.subject == r.issuer
    ensures CommonNames(r.subject) == [domain]
    ensures |r.subjectAltNames| == 2 && r.subjectAltNames[0] == domain
    ensures r.subjectAltNames[1] == "www." + r.subjectAltNames[0]
    ensures forall n :: n in r.subjectAltNames ==> EndsWith(n, domain)
    ensures !r.altNamesCritical
    ensures r.keySize == 2048 && r.publicExponent == 65537 && r.hash == Sha256
  {
    var name := DistinguishedName(domain);
    assert CommonNames(name) == [domain] by {
      assert name[4..] == [Attribute(CommonName, domain)];
      assert CommonNames(name[4..]) == [domain] + CommonNames(name[4..][1..]);
      assert name[3..][1..] == name[4..] && name[3].oid != CommonName;
      assert CommonNames(name[3..]) == CommonNames(name[4..]);
      assert name[2..][1..] == name[3..] && name[2].oid != CommonName;
      assert CommonNames(name[2..]) == CommonNames(name[3..]);
      assert name[1..][1..] == name[2..] && name[1].oid != CommonName;
      assert CommonNames(name[1..]) == CommonNames(name[2..]);
    }
    Request(name, name, [domain, "www." + domain], false, 2048, 65537, Sha256, daysValid)
  }

  /** generate_self_signed_certificate: write the certificate, then the
      key, then set their modes; either write failing ends the call, and
      the results of the two `chmod` calls are not looked at. */
  function Generate(env: Env, w: World, mint: Mint, domain: string, daysValid: int): (r: Done)
    ensures mint(BuildRequest(domain, daysValid)).MintFailed? ==>
      r == Done(false, "Failed to generate certificate: " + mint(BuildRequest(domain, daysValid)).message, w)
    ensures r.ok ==> CertificateExists(r.world, domain)
    ensures r.world.dirs == w.dirs
  {
    match mint(BuildRequest(domain, daysValid))
    case MintFailed(message) => Done(false, "Failed to generate certificate: " + message, w)
    case Minted(certPem, keyPem) =>
      var (certOk, w1) := WriteFile(env, w, CertPath(domain), certPem, true);
      if !certOk then Done(false, "Failed to write certificate file", w1)
      else
        var (keyOk, w2) := WriteFile(env, w1, KeyPath(domain), keyPem, true);
        if !keyOk then Done(false, "Failed to write private key file", w2)
        else
          var (_, w3) := RunCommand(env, w2, "chmod 644 " + CertPath(domain), true);
          var (_, w4) := RunCommand(env, w3, "chmod 600 " + KeyPath(domain), true);
          Done(true, "SSL certificate generated successfully for " + domain, w4)
  }

  /** A successful run writes both PEM texts and starts exactly the two
      copies and the two mode changes, in that order. */
  lemma GenerateSuccess(env: Env, w: World, mint: Mint, domain: string, daysValid: int)
    requires Generate(env, w, mint, domain, daysValid).ok
    ensures var m := mint(BuildRequest(domain, daysValid));
      var r := Generate(env, w, mint, domain, daysValid);
      && m.Minted?
      && r.world.files == w.files[CertPath(domain) := m.certificatePem][KeyPath(domain) := m.privateKeyPem]
      && r.world.log == w.log + [Effective(env, CopyInto(env, CertPath(domain)), true),
                                 Effective(env, CopyInto(env, KeyPath(domain)), true),
                                 Effective(env, "chmod 644 " + CertPath(domain), true),
                                 Effective(env, "chmod 600 " + KeyPath(domain), true)]
  {
  }

  /** When the certificate cannot be written the key is not written either,
      and nothing but the failed copy has been started. */
  lemma CertWriteFailure(env: Env, w: World, mint: Mint, domain: string, daysValid: int)
    requires mint(BuildRequest(domain, daysValid)).Minted?
    requires CopyCommand(env, w, CertPath(domain)).0.code != 0
    ensures var r := Generate(env, w, mint, domain, daysValid);
      && !r.ok
      && r.message == "Failed to write certificate file"
      && r.world.files == w.files
      && r.world.log == w.log + [Effective(env, CopyInto(env, CertPath(domain)), true)]
  {
  }

  /** When the key cannot be written the certificate written just before
      stays in place. */
  lemma KeyWriteFailure(env: Env, w: World, mint: Mint, domain: string, daysValid: int)
    requires mint(BuildRequest(domain, daysValid)).Minted?
    requires CopyCommand(env, w, CertPath(domain)).0.code == 0
    requires CopyCommand(env, CopyCommand(env, w, CertPath(domain)).1, KeyPath(domain)).0.code != 0
    ensures var r := Generate(env, w, mint, domain, daysValid);
      && !r.ok
      && r.message == "Failed to write private key file"
      && r.world.files == w.files[CertPath(domain) := mint(BuildRequest(domain, daysValid)).certificatePem]
      && |r.world.log| == |w.log| + 2
  {
  }

  /** install_certificate: copy into the system trust store, then rebuild
      it; a missing certificate is reported before any command runs. */
  function Install(env: Env, w: World, domain: string): (r: Done)
    ensures !Exists(w, CertPath(domain)) ==> r == Done(false, "Certificate not found: " + CertPath(domain), w)
    ensures r.world.files == w.files && r.world.dirs == w.dirs
  {
    if !Exists(w, CertPath(domain)) then Done(false, "Certificate not found: " + CertPath(domain), w)
    else
      var (copied, w1) := RunCommand(env, w, "cp " + CertPath(domain) + " " + TrustPath(domain), true);
      if copied.code != 0 then Done(false, "Failed to copy certificate: " + copied.stderr, w1)
      else
        var (updated, w2) := RunCommand(env, w1, "update-ca-certificates", true);
        if updated.code != 0 then Done(false, "Failed to update certificates: " + updated.stderr, w2)
        else Done(true, "Certificate installed for " + domain, w2)
  }

  /** A failed copy ends the installation before the trust store is
      rebuilt; success needs both commands to exit with status 0. */
  lemma InstallOrder(env: Env, w: World, domain: string)
    requires Exists(w, CertPath(domain))
    ensures var r := Install(env, w, domain);
      var copy := "cp " + CertPath(domain) + " " + TrustPath(domain);
      var (copied, w1) := RunCommand(env, w, copy, true);
      && (copied.code != 0 ==> !r.ok && r.world.log == w.log + [Effective(env, copy, true)])
      && (r.ok <==> copied.code == 0 && RunCommand(env, w1, "update-ca-certificates", true).0.code == 0)
      && (r.ok ==> r.world.log == w.log + [Effective(env, copy, true), Effective(env, "update-ca-certificates", true)])
  {
  }

  /** remove_certificate: delete the three files and rebuild the trust
      store, whatever each command answers. */
  function Remove(env: Env, w: World, domain: string): (r: Done)
    ensures r.ok
    ensures r.world.files == w.files && r.world.dirs == w.dirs
    ensures r.world.log == w.log + [Effective(env, "rm -f " + CertPath(domain), true),
                                    Effective(env, "rm -f " + KeyPath(domain), true),
                                    Effective(env, "rm -f " + TrustPath(domain), true),
                                    Effective(env, "update-ca-certificates", true)]
  {
    var (_, w1) := RunCommand(env, w, "rm -f " + CertPath(domain), true);
    var (_, w2) := RunCommand(env, w1, "rm -f " + KeyPath(domain), true);
    var (_, w3) := RunCommand(env, w2, "rm -f " + TrustPath(domain), true);
    var (_, w4) := RunCommand(env, w3, "update-ca-certificates", true);
    Done(true, "Certificate removed for " + domain, w4)
  }

  /** certificate_exists: both the certificate and its key are present,
      as a file or as anything else at that path. */
  predicate CertificateExists(w: World, domain: string): (r: bool)
    ensures r <==> Exists(w, "/etc/ssl/certs/" + domain + ".crt") && Exists(w, "/etc/ssl/private/" + domain + ".key")
  {
    Exists(w, CertPath(domain)) && Exists(w, KeyPath(domain))
  }

  /** The answer depends on those two paths only: worlds that agree on
      them, whatever else they hold and whatever was logged, agree on it. */
  lemma CertificateExistsLocal(w: World, v: World, domain: string)
    requires Exists(w, CertPath(domain)) == Exists(v, CertPath(domain))
    requires Exists(w, KeyPath(domain)) == Exists(v, KeyPath(domain))
    ensures CertificateExists(w, domain) == CertificateExists(v, domain)
  {
  }
}

=== FILE: config.dfy ===
/** The layered configuration store (core/config_manager.py).

    The configuration is the JSON object obtained by deep-merging the
    per-user file over the packaged defaults. Keys are dotted paths
    (`settings.theme`). Reading and writing the two JSON files is abstracted
    into the `Store` record: each file is either absent/unreadable (`None`)
    or holds a JSON object. */
module Config {
  import opened Text
  import opened JsonTree
  import opened Wrappers

  /** A JSON object: the shape of the whole configuration and of every
      nested section. */
  type Tree = map<string, Json>

  predicate BothObjects(base: Tree, override: Tree, k: string)
  {
    k in base && k in override && base[k].JObject? && override[k].JObject?
  }

  /** _deep_merge: every key of `override` replaces the key of `base`,
      except that two objects under the same key are merged recursively. */
  function DeepMerge(base: Tree, override: Tree): (r: Tree)
    ensures r.Keys == base.Keys + override.Keys
    ensures forall k :: k in base && k !in override ==> r[k] == base[k]
    ensures forall k :: k in override && !BothObjects(base, override, k) ==> r[k] == override[k]
    ensures forall k :: BothObjects(base, override, k) ==>
      r[k].JObject? && r[k].fields.Keys == base[k].fields.Keys + override[k].fields.Keys
    decreases JObject(override)
  {
    map k | k in base.Keys + override.Keys ::
      if BothObjects(base, override, k) then JObject(DeepMerge(base[k].fields, override[k].fields))
      else if k in override then override[k]
      else base[k]
  }

  /** Merging nothing over a tree leaves it as it is (a reset reloads the
      defaults unchanged). */
  lemma MergeEmptyOverride(base: Tree)
    ensures DeepMerge(base, map[]) == base
  {
  }

  // ---------------------------------------------------------------------
  // Paths

  /** The value at `path` below `tree`, descending only through objects. */
  function Lookup(tree: Json, path: seq<string>): Option<Json>
    decreases |path|
  {
    if |path| == 0 then Some(tree)
    else if tree.JObject? && path[0] in tree.fields then Lookup(tree.fields[path[0]], path[1..])
    else None
  }

  /** Looking up a concatenated path is looking up its parts in turn. */
  lemma {:induction false} LookupConcat(tree: Json, p: seq<string>, q: seq<string>)
    ensures Lookup(tree, p + q) == (match Lookup(tree, p) case Some(v) => Lookup(v, q) case None => None)
    decreases |p|
  {
    if |p| == 0 {
      assert p + q == q;
    } else {
      assert (p + q)[0] == p[0];
      assert (p + q)[1..] == p[1..] + q;
      if tree.JObject? && p[0] in tree.fields {
        LookupConcat(tree.fields[p[0]], p[1..], q);
      }
    }
  }

  /** get: the value at the dotted key, or `default`. */
  function Get(config: Tree, key: string, default: Json): Json
  {
    Lookup(JObject(config), Split(key, '.')).GetOr(default)
  }

  /** As soon as one segment of the path is missing, or the value reached so
      far is not an object, `get` answers the caller's default. */
  lemma GetStopsEarly(config: Tree, key: string, default: Json, i: nat)
    requires i < |Split(key, '.')|
    requires var reached := Lookup(JObject(config), Split(key, '.')[..i]);
      reached.Some? && (!reached.value.JObject? || Split(key, '.')[i] !in reached.value.fields)
    ensures Get(config, key, default) == default
  {
    var p := Split(key, '.');
    assert p == p[..i] + p[i..];
    LookupConcat(JObject(config), p[..i], p[i..]);
  }

  /** Every intermediate object on `path` is either missing or an object,
      which is exactly when `set` does not raise. */
  predicate Settable(tree: Tree, path: seq<string>)
    decreases |path|
  {
    |path| <= 1 ||
      (path[0] in tree ==> tree[path[0]].JObject? && Settable(tree[path[0]].fields, path[1..]))
  }

  /** The walk of `set` along `path`, creating each missing intermediate
      object. `None` is the `TypeError` Python raises when an existing
      intermediate is not an object; it is raised before anything has been
      created, so the configuration is then unchanged. */
  function SetPath(tree: Tree, path: seq<string>, value: Json): (r: Option<Tree>)
    requires |path| >= 1
    ensures r.Some? <==> Settable(tree, path)
    ensures r.Some? ==> r.value.Keys == tree.Keys + {path[0]}
    ensures r.Some? ==> forall k :: k in tree && k != path[0] ==> r.value[k] == tree[k]
    decreases |path|
  {
    var k := path[0];
    if |path| == 1 then Some(tree[k := value])
    else if k !in tree then
      var sub := SetPath(map[], path[1..], value);
      if sub.Some? then Some(tree[k := JObject(sub.value)]) else None
    else if tree[k].JObject? then
      var sub := SetPath(tree[k].fields, path[1..], value);
      if sub.Some? then Some(tree[k := JObject(sub.value)]) else None
    else None
  }

  /** A freshly created chain of objects never blocks `set`. */
  lemma {:induction false} EmptySettable(path: seq<string>)
    ensures Settable(map[], path)
    decreases |path|
  {
  }

  /** set */
  function Set(config: Tree, key: string, value: Json): Option<Tree>
  {
    SetPath(config, Split(key, '.'), value)
  }

  /** After a successful `set`, `get` of the same key answers the value. */
  lemma {:induction false} SetThenLookup(tree: Tree, path: seq<string>, value: Json)
    requires |path| >= 1
    requires SetPath(tree, path, value).Some?
    ensures Lookup(JObject(SetPath(tree, path, value).value), path) == Some(value)
    decreases |path|
  {
    if |path| > 1 {
      var k := path[0];
      var inner := if k in tree then tree[k].fields else map[];
      SetThenLookup(inner, path[1..], value);
    }
  }

  lemma SetThenGet(config: Tree, key: string, value: Json, default: Json)
    requires Set(config, key, value).Some?
    ensures Get(Set(config, key, value).value, key, default) == value
  {
    SetThenLookup(config, Split(key, '.'), value);
  }

  /** Two paths that part ways at some segment: neither is a prefix of the
      other. */
  predicate Diverge(p: seq<string>, q: seq<string>)
    decreases |p|
  {
    |p| > 0 && |q| > 0 && (p[0] != q[0] || Diverge(p[1..], q[1..]))
  }

  /** `set` leaves the value at every path that diverges from the key
      unchanged. */
  lemma {:induction false} SetFrame(tree: Tree, path: seq<string>, value: Json, other: seq<string>)
    requires |path| >= 1
    requires SetPath(tree, path, value).Some?
    requires Diverge(path, other)
    ensures Lookup(JObject(SetPath(tree, path, value).value), other) == Lookup(JObject(tree), other)
    decreases |path|
  {
    var k := path[0];
    if other[0] != k {
    } else if |path| > 1 {
      var inner := if k in tree then tree[k].fields else map[];
      SetFrame(inner, path[1..], value, other[1..]);
      if k !in tree {
        NothingBelowEmpty(other[1..]);
      }
    }
  }

  lemma NothingBelowEmpty(path: seq<string>)
    requires |path| >= 1
    ensures Lookup(JObject(map[]), path) == None
  {
  }

  // ---------------------------------------------------------------------
  // What the merge promises along whole paths

  /** A proper prefix of `path` leads, in `tree`, to something that is not
      an object. */
  predicate Blocked(tree: Tree, path: seq<string>)
    decreases |path|
  {
    |path| >= 2 && path[0] in tree &&
      (!tree[path[0]].JObject? || Blocked(tree[path[0]].fields, path[1..]))
  }

  /** Wherever the override holds a non-object value, the merged
      configuration holds that value. */
  lemma {:induction false} MergeOverrideWins(base: Tree, override: Tree, path: seq<string>, v: Json)
    requires Lookup(JObject(override), path) == Some(v)
    requires !v.JObject?
    ensures Lookup(JObject(DeepMerge(base, override)), path) == Some(v)
    decreases |path|
  {
    var k := path[0];
    if BothObjects(base, override, k) {
      MergeOverrideWins(base[k].fields, override[k].fields, path[1..], v);
    }
  }

  /** Wherever the override says nothing (no value, and nothing on the way
      that is not an object), the merged configuration agrees with the
      defaults. */
  lemma {:induction false} MergeBaseShowsThrough(base: Tree, override: Tree, path: seq<string>)
    requires |path| >= 1
    requires Lookup(JObject(override), path) == None
    requires !Blocked(override, path)
    ensures Lookup(JObject(DeepMerge(base, override)), path) == Lookup(JObject(base), path)
    decreases |path|
  {
    var k := path[0];
    if BothObjects(base, override, k) {
      MergeBaseShowsThrough(base[k].fields, override[k].fields, path[1..]);
    } else if k in override {
      if k in base && |path| >= 2 {
        assert !base[k].JObject?;
      }
    }
  }

  // ---------------------------------------------------------------------
  // Typed accessors

  const ProjectsRootKey := "settings.projects_root"
  const WebServerKey := "settings.default_web_server"
  const PhpVersionKey := "settings.default_php_version"
  const DomainExtensionKey := "settings.default_domain_extension"
  const AutoStartKey := "settings.auto_start_services"
  const ThemeKey := "settings.theme"

  /** os.path.expanduser for POSIX: `~` or `~/…` is the caller's home,
      `~name/…` is that user's home when the account exists; anything else
      is returned as it is. A trailing '/' of the home is dropped, and an
      empty result becomes "/". */
  function ExpandUser(path: string, home: string, users: map<string, string>): (r: string)
    ensures !StartsWith(path, "~") ==> r == path
    ensures StartsWith(path, "~") ==> |r| > 0
  {
    if |path| == 0 || path[0] != '~' then path
    else
      var i := 1 + IndexOf(path[1..], '/');
      var name := path[1..i];
      if name != "" && name !in users then path
      else
        var userHome := RStripChars(if name == "" then home else users[name], {'/'});
        var expanded := userHome + path[i..];
        if expanded == "" then "/" else expanded
  }

  /** `~` alone is the caller's home without its trailing '/' characters;
      only a home made of nothing else gives "/". */
  lemma ExpandTilde(home: string, users: map<string, string>)
    ensures var h := RStripChars(home, {'/'});
      ExpandUser("~", home, users) == (if h == "" then "/" else h)
  {
    var alone := "~";
    assert alone[1..] == "";
  }

  /** `~/rest` is `rest` under the caller's home, which loses its trailing
      '/' characters first. */
  lemma ExpandHomePath(rest: string, home: string, users: map<string, string>)
    ensures ExpandUser("~/" + rest, home, users) == RStripChars(home, {'/'}) + "/" + rest
  {
    var path := "~/" + rest;
    assert path[1..] == "/" + rest;
    assert IndexOf(path[1..], '/') == 0;
    assert path[1..1] == "";
  }

  /** For a home without a trailing '/', `~` is the home itself and
      `~/rest` is `home + "/" + rest`. */
  lemma ExpandHome(rest: string, home: string, users: map<string, string>)
    requires |home| > 0 && home[|home| - 1] != '/'
    ensures ExpandUser("~", home, users) == home
    ensures ExpandUser("~/" + rest, home, users) == home + "/" + rest
  {
    ExpandTilde(home, users);
    ExpandHomePath(rest, home, users);
  }

  /** `~name/rest` is `rest` under that user's home when the account
      exists, and is left alone when it does not. */
  lemma {:induction false} ExpandOtherUser(name: string, rest: string, home: string, users: map<string, string>)
    requires name != "" && '/' !in name
    ensures var path := "~" + name + "/" + rest;
      ExpandUser(path, home, users) == (if name in users then RStripChars(users[name], {'/'}) + "/" + rest else path)
  {
    var path := "~" + name + "/" + rest;
    assert path[1..] == name + "/" + rest;
    var i := IndexOf(path[1..], '/');
    assert path[1..][|name|] == '/';
    assert forall j :: 0 <= j < |name| ==> path[1..][j] == name[j];
    assert i == |name|;
    assert path[1..1 + i] == name;
    assert path[1 + i..] == "/" + rest;
  }

  /** The default projects root is `projects` in the user's home. */
  lemma ExpandDefaultProjectsRoot(home: string, users: map<string, string>)
    requires |home| > 0 && home[|home| - 1] != '/'
    ensures ExpandUser("~/projects", home, users) == home + "/projects"
  {
    ExpandHome("projects", home, users);
  }

  /** get_projects_root; `None` when the stored value is not a string, where
      Python's `expanduser` raises. */
  function GetProjectsRoot(config: Tree, home: string, users: map<string, string>): Option<string>
  {
    match Get(config, ProjectsRootKey, JStr("~/projects"))
    case JStr(s) => Some(ExpandUser(s, home, users))
    case _ => None
  }

  function GetDefaultWebServer(config: Tree): Json { Get(config, WebServerKey, JStr("apache2")) }
  function GetDefaultPhpVersion(config: Tree): Json { Get(config, PhpVersionKey, JStr("8.2")) }
  function GetDomainExtension(config: Tree): Json { Get(config, DomainExtensionKey, JStr(".test")) }
  function GetTheme(config: Tree): Json { Get(config, ThemeKey, JStr("light")) }
  function GetAutoStartServices(config: Tree): Json { Get(config, AutoStartKey, JList([])) }

  /** get_path: the value under `paths.<key>`, or the empty string. */
  function GetPath(config: Tree, pathKey: string): Json { Get(config, "paths." + pathKey, JStr("")) }

  function SetProjectsRoot(config: Tree, path: string): Option<Tree> { Set(config, ProjectsRootKey, JStr(path)) }
  function SetDefaultWebServer(config: Tree, server: string): Option<Tree> { Set(config, WebServerKey, JStr(server)) }
  function SetDefaultPhpVersion(config: Tree, version: string): Option<Tree> { Set(config, PhpVersionKey, JStr(version)) }

  /** A key under the `settings.` section starts its path there. */
  lemma SettingsSection(key: string)
    requires |key| >= 9 && key[..9] == "settings."
    ensures Split(key, '.')[0] == "settings"
  {
    var section := "settings";
    assert key == section + ['.'] + key[9..];
    IndexOfPrefix(section, '.', key[9..]);
    SplitAt(key, '.', 8);
    assert key[..8] == section;
  }

  /** Without a `settings` section, every `settings.` key reads as the
      caller's default. */
  lemma SettingAbsent(config: Tree, key: string, default: Json)
    requires "settings" !in config
    requires |key| >= 9 && key[..9] == "settings."
    ensures Get(config, key, default) == default
  {
    SettingsSection(key);
  }

  /** Without a `settings` section the projects root is `projects` in the
      user's home. */
  lemma ProjectsRootDefault(config: Tree, home: string, users: map<string, string>)
    requires "settings" !in config
    requires |home| > 0 && home[|home| - 1] != '/'
    ensures GetProjectsRoot(config, home, users) == Some(home + "/projects")
  {
    SettingAbsent(config, ProjectsRootKey, JStr("~/projects"));
    ExpandDefaultProjectsRoot(home, users);
  }

  // ---------------------------------------------------------------------
  // The auto-start list

  /** Python's `item in container` for a string item; `None` where Python
      raises `TypeError` (numbers, booleans, None). */
  function PyContains(container: Json, item: string): Option<bool>
  {
    match container
    case JList(xs) => Some(JStr(item) in xs)
    case JStr(s) => Some(Contains(s, item))
    case JObject(m) => Some(item in m)
    case _ => None
  }

  /** Where `list.index(x)` finds `x`: its first position. */
  function FirstIndex<T(==)>(xs: seq<T>, x: T): (i: nat)
    requires x in xs
    ensures i < |xs| && xs[i] == x && x !in xs[..i]
  {
    if xs[0] == x then 0
    else
      var k := FirstIndex(xs[1..], x);
      assert xs[..k + 1] == [xs[0]] + xs[1..][..k];
      k + 1
  }

  /** `list.remove(x)`: drop the first occurrence, keeping the order of the
      rest. */
  function RemoveFirst<T(==)>(xs: seq<T>, x: T): (r: seq<T>)
    requires x in xs
    ensures exists i :: 0 <= i < |xs| && xs[i] == x && x !in xs[..i] && r == xs[..i] + xs[i+1..]
    ensures multiset(r) == multiset(xs) - multiset{x}
    ensures |r| == |xs| - 1
  {
    var i := FirstIndex(xs, x);
    assert xs == xs[..i] + [xs[i]] + xs[i+1..];
    xs[..i] + xs[i+1..]
  }

  predicate NoDuplicates<T(==)>(xs: seq<T>)
  {
    forall i, j :: 0 <= i < j < |xs| ==> xs[i] != xs[j]
  }

  /** add_auto_start_service, for the list stored under `key`; `None` where
      Python raises (a stored value that is neither a list nor absent and
      does not already contain the name, or one that cannot be searched at
      all). */
  function AddUnique(config: Tree, key: string, service: string): Option<Tree>
  {
    var services := Get(config, key, JList([]));
    match PyContains(services, service)
    case None => None
    case Some(true) => Some(config)
    case Some(false) =>
      if services.JList? then Set(config, key, JList(services.items + [JStr(service)])) else None
  }

  /** remove_auto_start_service, for the list stored under `key`. */
  function RemoveOne(config: Tree, key: string, service: string): Option<Tree>
  {
    var services := Get(config, key, JList([]));
    match PyContains(services, service)
    case None => None
    case Some(false) => Some(config)
    case Some(true) =>
      if services.JList? then Set(config, key, JList(RemoveFirst(services.items, JStr(service)))) else None
  }

  function AddAutoStartService(config: Tree, service: string): Option<Tree>
  {
    AddUnique(config, AutoStartKey, service)
  }

  function RemoveAutoStartService(config: Tree, service: string): Option<Tree>
  {
    RemoveOne(config, AutoStartKey, service)
  }

  /** Adding a service to a list puts it there, never twice: an absent
      service is appended at the end, a list without duplicates stays
      without duplicates, and an already present service leaves the
      configuration as it was. */
  lemma AddUniqueKeepsSet(config: Tree, key: string, service: string)
    requires Get(config, key, JList([])).JList?
    ensures AddUnique(config, key, service).Some? ==>
      var before := Get(config, key, JList([])).items;
      var after := Get(AddUnique(config, key, service).value, key, JList([]));
      && after.JList?
      && JStr(service) in after.items
      && after.items == (if JStr(service) in before then before else before + [JStr(service)])
      && (NoDuplicates(before) ==> NoDuplicates(after.items))
      && multiset(after.items) == multiset(before) + (if JStr(service) in before then multiset{} else multiset{JStr(service)})
    ensures JStr(service) in Get(config, key, JList([])).items ==> AddUnique(config, key, service) == Some(config)
  {
    var services := Get(config, key, JList([]));
    if JStr(service) !in services.items {
      var grown := JList(services.items + [JStr(service)]);
      if Set(config, key, grown).Some? {
        SetThenGet(config, key, grown, JList([]));
      }
    }
  }

  /** Removing a present service drops exactly one occurrence; removing an
      absent one changes nothing. */
  lemma RemoveOneDropsOne(config: Tree, key: string, service: string)
    requires Get(config, key, JList([])).JList?
    ensures RemoveOne(config, key, service).Some? ==>
      var before := Get(config, key, JList([])).items;
      var after := Get(RemoveOne(config, key, service).value, key, JList([]));
      && after.JList?
      && (if JStr(service) in before then after.items == RemoveFirst(before, JStr(service)) else after.items == before)
      && multiset(after.items) == multiset(before) - multiset{JStr(service)}
    ensures JStr(service) !in Get(config, key, JList([])).items ==> RemoveOne(config, key, service) == Some(config)
  {
    var services := Get(config, key, JList([]));
    if JStr(service) in services.items {
      var shrunk := JList(RemoveFirst(services.items, JStr(service)));
      if Set(config, key, shrunk).Some? {
        SetThenGet(config, key, shrunk, JList([]));
      }
    } else {
      assert multiset(services.items)[JStr(service)] == 0;
    }
  }

  // ---------------------------------------------------------------------
  // Loading, saving and resetting

  /** The two files and the in-memory merged view. */
  datatype Store = Store(defaultFile: Option<Tree>, userFile: Option<Tree>, config: Tree)

  /** _load_config: a missing or unreadable file counts as an empty object. */
  function LoadConfig(defaultFile: Option<Tree>, userFile: Option<Tree>): Tree
  {
    DeepMerge(defaultFile.GetOr(map[]), userFile.GetOr(map[]))
  }

  /** ConfigManager(): both files are loaded and the view is the user file
      merged over the defaults. */
  function Open(defaultFile: Option<Tree>, userFile: Option<Tree>): (s: Store)
    ensures s.defaultFile == defaultFile && s.userFile == userFile
    ensures s.config == LoadConfig(defaultFile, userFile)
    ensures s.config.Keys == defaultFile.GetOr(map[]).Keys + userFile.GetOr(map[]).Keys
  {
    Store(defaultFile, userFile, LoadConfig(defaultFile, userFile))
  }

  /** save: the whole merged view, defaults included, becomes the user file.
      `writable` says whether creating the directory and writing succeed. */
  function Save(s: Store, writable: bool): (r: (bool, Store))
    ensures r.0 == writable
    ensures r.0 ==> r.1.userFile == Some(s.config) && r.1.config == s.config && r.1.defaultFile == s.defaultFile
    ensures !r.0 ==> r.1 == s
  {
    if writable then (true, s.(userFile := Some(s.config))) else (false, s)
  }

  /** Merging a tree over itself changes nothing. */
  lemma {:induction false} MergeSelf(t: Tree)
    ensures DeepMerge(t, t) == t
    decreases JObject(t)
  {
    forall k | k in t && t[k].JObject?
      ensures DeepMerge(t, t)[k] == t[k]
    {
      MergeSelf(t[k].fields);
    }
  }

  /** Merging the defaults again over an already merged view changes
      nothing: the view already holds every default it did not override. */
  lemma {:induction false} MergeAbsorb(d: Tree, u: Tree)
    ensures DeepMerge(d, DeepMerge(d, u)) == DeepMerge(d, u)
    decreases JObject(u)
  {
    var m := DeepMerge(d, u);
    forall k | k in m
      ensures DeepMerge(d, m)[k] == m[k]
    {
      if BothObjects(d, u, k) {
        MergeAbsorb(d[k].fields, u[k].fields);
      } else if k in d && k !in u && d[k].JObject? {
        MergeSelf(d[k].fields);
      }
    }
  }

  /** Saving and loading again gives back the configuration that was
      saved: the saved user file, merged over the same defaults, is the
      view itself. */
  lemma SaveThenReload(defaultFile: Option<Tree>, userFile: Option<Tree>)
    ensures var s := Save(Open(defaultFile, userFile), true).1;
      LoadConfig(s.defaultFile, s.userFile) == Open(defaultFile, userFile).config
  {
    MergeAbsorb(defaultFile.GetOr(map[]), userFile.GetOr(map[]));
  }

  /** reset: delete the user file and reload, which yields the defaults. */
  function Reset(s: Store): (r: Store)
    ensures r.userFile.None?
    ensures r.config == s.defaultFile.GetOr(map[])
  {
    MergeEmptyOverride(s.defaultFile.GetOr(map[]));
    Store(s.defaultFile, None, LoadConfig(s.defaultFile, None))
  }

  /** A setter other than the theme changes only the in-memory view. */
  function SetInMemory(s: Store, key: string, value: Json): (r: Option<Store>)
    ensures r.Some? ==> r.value.userFile == s.userFile && r.value.defaultFile == s.defaultFile
    ensures r.Some? ==> Get(r.value.config, key, JNull) == value
  {
    match Set(s.config, key, value)
    case None => None
    case Some(c) =>
      SetThenGet(s.config, key, value, JNull);
      Some(s.(config := c))
  }

  /** set_theme: set, then save at once. */
  function SetTheme(s: Store, theme: string, writable: bool): (r: Option<(bool, Store)>)
    ensures r.Some? && writable ==> r.value.0 && r.value.1.userFile == Some(r.value.1.config)
    ensures r.Some? ==> GetTheme(r.value.1.config) == JStr(theme)
  {
    match SetInMemory(s, ThemeKey, JStr(theme))
    case None => None
    case Some(s1) =>
      SetThenGet(s.config, ThemeKey, JStr(theme), JStr("light"));
      Some(Save(s1, writable))
  }
}

=== FILE: databases.dfy ===
/** The database manager (core/database_manager.py): the two listing
    parsers, the connection string, and the branching of the create,
    delete, import and export operations over the command bridge. */
module Databases {
  import opened Wrappers
  import opened Text
  import opened Bridge

  // ---------------------------------------------------------------------
  // Listing

  /** The schemas MySQL and MariaDB create for themselves. */
  const MysqlSystem: set<string> := {"information_schema", "mysql", "performance_schema", "sys"}

  /** The databases PostgreSQL creates for itself. */
  const PostgresSystem: set<string> := {"postgres", "template0", "template1"}

  /** The names `field` reads off `lines`, in order, leaving out empty
      names and the `excluded` ones. */
  function Pick(lines: seq<string>, field: string -> string, excluded: set<string>): (r: seq<string>)
    ensures |r| <= |lines|
    ensures forall k :: 0 <= k < |r| ==> r[k] != "" && r[k] !in excluded
    decreases |lines|
  {
    if |lines| == 0 then []
    else
      var name := field(lines[0]);
      (if name != "" && name !in excluded then [name] else []) + Pick(lines[1..], field, excluded)
  }

  /** A name is picked exactly when some line yields it and it is neither
      empty nor excluded. */
  lemma {:induction false} PickMembership(lines: seq<string>, field: string -> string, excluded: set<string>, x: string)
    ensures x in Pick(lines, field, excluded) <==>
      (x != "" && x !in excluded && exists i :: 0 <= i < |lines| && field(lines[i]) == x)
    decreases |lines|
  {
    if |lines| > 0 {
      PickMembership(lines[1..], field, excluded, x);
      if exists i :: 0 <= i < |lines| && field(lines[i]) == x {
        var i :| 0 <= i < |lines| && field(lines[i]) == x;
        if i > 0 { assert field(lines[1..][i - 1]) == x; }
      }
      if exists i :: 0 <= i < |lines[1..]| && field(lines[1..][i]) == x {
        var i :| 0 <= i < |lines[1..]| && field(lines[1..][i]) == x;
        assert field(lines[i + 1]) == x;
      }
    }
  }

  /** Lines that are already clean names pass through unchanged and in
      order. */
  lemma {:induction false} PickKeepsAll(lines: seq<string>, field: string -> string, excluded: set<string>)
    requires forall i :: 0 <= i < |lines| ==> field(lines[i]) == lines[i] && lines[i] != "" && lines[i] !in excluded
    ensures Pick(lines, field, excluded) == lines
    decreases |lines|
  {
    if |lines| > 0 {
      PickKeepsAll(lines[1..], field, excluded);
    }
  }

  /** The name on one line of `SHOW DATABASES`. */
  function MysqlField(line: string): string { Strip(line) }

  /** The name on one line of `psql -c "\l" -t`: the first `|`-separated
      column, stripped. */
  function PostgresField(line: string): string { Strip(Split(line, '|')[0]) }

  /** The lines of a listing: the reply stripped, then split at line
      breaks. */
  function Lines(stdout: string): (r: seq<string>)
    ensures |r| >= 1
  {
    Split(Strip(stdout), '\n')
  }

  /** list_mysql_databases' parsing of the reply: the first line is the
      column header. */
  function ParseMysql(reply: Reply): (r: seq<string>)
    ensures reply.code != 0 ==> r == []
  {
    if reply.code != 0 then [] else Pick(Lines(reply.stdout)[1..], MysqlField, MysqlSystem)
  }

  /** list_postgresql_databases' parsing of the reply. */
  function ParsePostgres(reply: Reply): (r: seq<string>)
    ensures reply.code != 0 ==> r == []
  {
    if reply.code != 0 then [] else Pick(Lines(reply.stdout), PostgresField, PostgresSystem)
  }

  /** A database is listed exactly when a line after the header strips to
      its name and it is not a system schema. */
  lemma MysqlListed(reply: Reply, x: string)
    ensures var lines := Lines(reply.stdout);
      x in ParseMysql(reply) <==>
        (reply.code == 0 && x != "" && x !in MysqlSystem &&
         exists i :: 1 <= i < |lines| && MysqlField(lines[i]) == x)
  {
    if reply.code == 0 {
      var lines := Lines(reply.stdout);
      var rows := lines[1..];
      PickMembership(rows, MysqlField, MysqlSystem, x);
      if exists i :: 1 <= i < |lines| && MysqlField(lines[i]) == x {
        var i :| 1 <= i < |lines| && MysqlField(lines[i]) == x;
        assert MysqlField(rows[i - 1]) == x;
      }
      if exists i :: 0 <= i < |rows| && MysqlField(rows[i]) == x {
        var i :| 0 <= i < |rows| && MysqlField(rows[i]) == x;
        assert MysqlField(lines[i + 1]) == x;
      }
    }
  }

  /** A database is listed exactly when some line's first column strips
      to its name and it is not one of PostgreSQL's own. */
  lemma PostgresListed(reply: Reply, x: string)
    ensures var lines := Lines(reply.stdout);
      x in ParsePostgres(reply) <==>
        (reply.code == 0 && x != "" && x !in PostgresSystem &&
         exists i :: 0 <= i < |lines| && PostgresField(lines[i]) == x)
  {
    if reply.code == 0 {
      PickMembership(Lines(reply.stdout), PostgresField, PostgresSystem, x);
    }
  }

  /** A clean name has no surrounding whitespace and no line break. */
  predicate CleanName(s: string)
  {
    && s != ""
    && s[0] !in Whitespace && s[|s| - 1] !in Whitespace
    && '\n' !in s
  }

  /** A non-empty list of clean names, none of them excluded. */
  predicate Listable(names: seq<string>, excluded: set<string>)
  {
    && |names| >= 1
    && (forall k :: 0 <= k < |names| ==> CleanName(names[k]))
    && (forall k :: 0 <= k < |names| ==> names[k] !in excluded)
  }

  /** Printing a header and then one database per line, as the `mysql`
      client does, and parsing the reply gives the databases back. */
  lemma MysqlRoundTrip(header: string, names: seq<string>, stderr: string)
    requires CleanName(header)
    requires Listable(names, MysqlSystem)
    ensures ParseMysql(Reply(0, header + "\n" + Join(names, '\n'), stderr)) == names
  {
    ListingRoundTrip(header, names, MysqlSystem);
  }

  /** The same for any set of excluded names. */
  lemma ListingRoundTrip(header: string, names: seq<string>, excluded: set<string>)
    requires CleanName(header)
    requires Listable(names, excluded)
    ensures Pick(Lines(header + "\n" + Join(names, '\n'))[1..], MysqlField, excluded) == names
  {
    ListingLines(header, names);
    CleanNamesKept(names, excluded);
  }

  /** Clean names outside `excluded` are picked as they are. */
  lemma CleanNamesKept(names: seq<string>, excluded: set<string>)
    requires forall k :: 0 <= k < |names| ==> CleanName(names[k])
    requires forall k :: 0 <= k < |names| ==> names[k] !in excluded
    ensures Pick(names, MysqlField, excluded) == names
  {
    forall k | 0 <= k < |names| ensures MysqlField(names[k]) == names[k] {
      StripCharsIdentity(names[k], Whitespace);
    }
    PickKeepsAll(names, MysqlField, excluded);
  }

  /** The lines of a header followed by clean names are the header and
      the names. */
  lemma ListingLines(header: string, names: seq<string>)
    requires CleanName(header)
    requires |names| >= 1
    requires forall k :: 0 <= k < |names| ==> CleanName(names[k])
    ensures Lines(header + "\n" + Join(names, '\n'))[1..] == names
  {
    StripListing(header, names);
    SplitHeader(header, '\n', names);
    assert Lines(header + "\n" + Join(names, '\n')) == [header] + names;
  }

  /** A listing of clean lines is not changed by stripping. */
  lemma StripListing(header: string, names: seq<string>)
    requires CleanName(header)
    requires |names| >= 1
    requires forall k :: 0 <= k < |names| ==> CleanName(names[k])
    ensures Strip(header + "\n" + Join(names, '\n')) == header + "\n" + Join(names, '\n')
  {
    JoinEnds(names);
    StripBetween(header, Join(names, '\n'));
  }

  /** Two visible ends joined by a line break survive stripping. */
  lemma StripBetween(header: string, body: string)
    requires |header| > 0 && header[0] !in Whitespace
    requires |body| > 0 && body[|body| - 1] !in Whitespace
    ensures Strip(header + "\n" + body) == header + "\n" + body
  {
    var out := header + "\n" + body;
    assert out[0] == header[0] && out[|out| - 1] == body[|body| - 1];
    StripCharsIdentity(out, Whitespace);
  }

  /** A join of clean names begins and ends with a character that is not
      whitespace. */
  lemma {:induction false} JoinEnds(names: seq<string>)
    requires |names| >= 1
    requires forall k :: 0 <= k < |names| ==> CleanName(names[k])
    ensures var s := Join(names, '\n');
      |s| > 0 && s[0] !in Whitespace && s[|s| - 1] !in Whitespace
    decreases |names|
  {
    assert CleanName(names[0]);
    if |names| > 1 {
      JoinEnds(names[1..]);
      var tail := Join(names[1..], '\n');
      assert Join(names, '\n') == names[0] + ['\n'] + tail;
    }
  }

  /** The first column of a row that begins with a name free of `|`. */
  lemma PostgresRow(name: string, rest: string)
    requires '|' !in name
    ensures PostgresField(name + "|" + rest) == Strip(name)
  {
    SplitFirst(name, '|', rest);
  }

  /** list_mysql_databases */
  function ListMysql(env: Env, w: World): (r: (seq<string>, World))
    ensures var (reply, w1) := RunCommand(env, w, "mysql -e \"SHOW DATABASES;\"", true);
      r == (ParseMysql(reply), w1)
  {
    var (reply, w1) := RunCommand(env, w, "mysql -e \"SHOW DATABASES;\"", true);
    (ParseMysql(reply), w1)
  }

  /** list_postgresql_databases */
  function ListPostgres(env: Env, w: World): (r: (seq<string>, World))
    ensures var (reply, w1) := RunCommand(env, w, "sudo -u postgres psql -c \"\\l\" -t", false);
      r == (ParsePostgres(reply), w1)
  {
    var (reply, w1) := RunCommand(env, w, "sudo -u postgres psql -c \"\\l\" -t", false);
    (ParsePostgres(reply), w1)
  }

  // ---------------------------------------------------------------------
  // Connection strings

  /** The parts of a connection string. */
  datatype Target = Target(scheme: string, username: string, password: string, host: string, port: int, database: string)

  function Render(t: Target): string
  {
    t.scheme + "://" + t.username + ":" + t.password + "@" + t.host + ":" + IntToString(t.port) + "/" + t.database
  }

  /** The port the manager uses for a database type, if it knows the type. */
  function DefaultPort(dbType: string): (r: Option<int>)
    ensures r.Some? <==> dbType == "mysql" || dbType == "postgresql"
  {
    if dbType == "mysql" then Some(3306)
    else if dbType == "postgresql" then Some(5432)
    else None
  }

  /** `port or default`: a missing port and port 0 both fall back. */
  function PortOr(port: Option<int>, default: int): (r: int)
    ensures port.Some? && port.value != 0 ==> r == port.value
    ensures port.None? || port.value == 0 ==> r == default
  {
    if port.Some? && port.value != 0 then port.value else default
  }

  /** get_connection_string */
  function ConnectionString(dbType: string, database: string, username: string, password: string,
                            host: string, port: Option<int>): (r: string)
    ensures r == "" <==> DefaultPort(dbType).None?
    ensures DefaultPort(dbType).Some? ==>
      r == Render(Target(dbType, username, password, host, PortOr(port, DefaultPort(dbType).value), database))
  {
    match DefaultPort(dbType)
    case None => ""
    case Some(default) => Render(Target(dbType, username, password, host, PortOr(port, default), database))
  }

  /** `int(s)` for the text `str` produces. */
  function ParseInt(s: string): int
  {
    if |s| > 0 && s[0] == '-' then
      if forall i :: 1 <= i < |s| ==> IsDigit(s[i]) then -(DigitsValue(s[1..]) as int) else 0
    else if forall i :: 0 <= i < |s| ==> IsDigit(s[i]) then DigitsValue(s) else 0
  }

  /** Reading a connection string back into its parts, for strings whose
      parts hold no separator. */
  function ParseConnection(s: string): (r: Option<Target>)
  {
    var parts := Split(s, '/');
    if |parts| != 4 || parts[1] != "" || |parts[0]| == 0 || parts[0][|parts[0]| - 1] != ':' then None
    else
      var at := Split(parts[2], '@');
      if |at| != 2 then None
      else
        var credentials := Split(at[0], ':');
        var address := Split(at[1], ':');
        if |credentials| != 2 || |address| != 2 then None
        else Some(Target(parts[0][..|parts[0]| - 1], credentials[0], credentials[1],
                         address[0], ParseInt(address[1]), parts[3]))
  }

  /** A part that holds none of the separators of a connection string. */
  predicate Plain(s: string)
  {
    ':' !in s && '@' !in s && '/' !in s
  }

  lemma IntToStringPlain(i: int)
    ensures Plain(IntToString(i))
    ensures ParseInt(IntToString(i)) == i
  {
    var n := if i < 0 then -i else i;
    var digits := NatToString(n);
    NatToStringRoundTrip(n);
    assert forall c :: c in digits ==> IsDigit(c);
    if i < 0 {
      assert IntToString(i)[1..] == digits;
    } else {
      assert IsDigit(digits[0]);
    }
  }

  /** Parsing a string whose separators cut it into the expected
      pieces. */
  lemma ParsePieces(s: string, head: string, authority: string, database: string,
                    credentials: string, address: string, username: string, password: string,
                    host: string, port: string)
    requires Split(s, '/') == [head, [], authority, database]
    requires |head| > 0 && head[|head| - 1] == ':'
    requires Split(authority, '@') == [credentials, address]
    requires Split(credentials, ':') == [username, password]
    requires Split(address, ':') == [host, port]
    ensures ParseConnection(s) == Some(Target(head[..|head| - 1], username, password, host, ParseInt(port), database))
  {
  }

  /** Rendering and parsing are inverse on parts free of separators. */
  lemma RenderRoundTrip(t: Target)
    requires '/' !in t.scheme
    requires Plain(t.username) && Plain(t.password) && Plain(t.host) && Plain(t.database)
    ensures ParseConnection(Render(t)) == Some(t)
  {
    var port := IntToString(t.port);
    IntToStringPlain(t.port);
    var head := t.scheme + [':'];
    var credentials := t.username + [':'] + t.password;
    var address := t.host + [':'] + port;
    var authority := credentials + ['@'] + address;
    assert Render(t) == head + ['/'] + (['/'] + (authority + ['/'] + t.database));
    SplitFour(head, '/', authority, t.database);
    SplitPair(credentials, '@', address);
    SplitPair(t.username, ':', t.password);
    SplitPair(t.host, ':', port);
    assert head[..|head| - 1] == t.scheme;
    ParsePieces(Render(t), head, authority, t.database, credentials, address, t.username, t.password, t.host, port);
  }

  /** A connection string for a known type reads back as the type, the
      given credentials and database, and the given port or the type's
      default. */
  lemma ConnectionRoundTrip(dbType: string, database: string, username: string, password: string,
                            host: string, port: Option<int>)
    requires DefaultPort(dbType).Some?
    requires Plain(username) && Plain(password) && Plain(host) && Plain(database)
    ensures ParseConnection(ConnectionString(dbType, database, username, password, host, port)) ==
      Some(Target(dbType, username, password, host, PortOr(port, DefaultPort(dbType).value), database))
  {
    assert '/' !in dbType;
    RenderRoundTrip(Target(dbType, username, password, host, PortOr(port, DefaultPort(dbType).value), database));
  }

  // ---------------------------------------------------------------------
  // Creating

  /** A Python truth test of an optional string: present and non-empty. */
  predicate Given(s: Option<string>)
  {
    s.Some? && s.value != ""
  }

  function MysqlCreateDatabase(database: string): string
  {
    "mysql -e \"CREATE DATABASE IF NOT EXISTS " + database + ";\""
  }

  function MysqlCreateUser(username: string, password: string): string
  {
    "mysql -e \"CREATE USER IF NOT EXISTS '" + username + "'@'localhost' IDENTIFIED BY '" + password + "';\""
  }

  function MysqlGrant(database: string, username: string): string
  {
    "mysql -e \"GRANT ALL PRIVILEGES ON " + database + ".* TO '" + username + "'@'localhost'; FLUSH PRIVILEGES;\""
  }

  /** create_mysql_database: the database, then, when both a user name and
      a password are given, the user and the grant; every step is
      privileged and every failure stops the rest. */
  function CreateMysql(env: Env, w: World, database: string, username: Option<string>, password: Option<string>): (r: Done)
    ensures var (made, w1) := RunCommand(env, w, MysqlCreateDatabase(database), true);
      && (made.code != 0 ==> r == Done(false, "Failed to create database: " + made.stderr, w1))
      && (made.code == 0 && !(Given(username) && Given(password)) ==> r.ok && r.world == w1)
  {
    var (made, w1) := RunCommand(env, w, MysqlCreateDatabase(database), true);
    if made.code != 0 then Done(false, "Failed to create database: " + made.stderr, w1)
    else if Given(username) && Given(password) then
      var (user, w2) := RunCommand(env, w1, MysqlCreateUser(username.value, password.value), true);
      if user.code != 0 then Done(false, "Failed to create user: " + user.stderr, w2)
      else
        var (grant, w3) := RunCommand(env, w2, MysqlGrant(database, username.value), true);
        if grant.code != 0 then Done(false, "Failed to grant privileges: " + grant.stderr, w3)
        else Done(true, "Database and user created successfully", w3)
    else Done(true, "Database created successfully: " + database, w1)
  }

  /** With credentials, the user is created only after the database, the
      grant only after the user, and success means all three steps
      succeeded. */
  lemma MysqlCreateOrder(env: Env, w: World, database: string, username: string, password: string)
    requires username != "" && password != ""
    ensures var r := CreateMysql(env, w, database, Some(username), Some(password));
      var (made, w1) := RunCommand(env, w, MysqlCreateDatabase(database), true);
      var (user, w2) := RunCommand(env, w1, MysqlCreateUser(username, password), true);
      var (grant, w3) := RunCommand(env, w2, MysqlGrant(database, username), true);
      && (made.code == 0 && user.code != 0 ==> !r.ok && r.world == w2)
      && (made.code == 0 && user.code == 0 ==> r.world == w3 && (r.ok <==> grant.code == 0))
      && (r.ok <==> made.code == 0 && user.code == 0 && grant.code == 0)
  {
  }

  /** The number of commands a MySQL creation runs: one without
      credentials, and one more per step that succeeds with them. */
  lemma MysqlCreateSteps(env: Env, w: World, database: string, username: Option<string>, password: Option<string>)
    ensures var r := CreateMysql(env, w, database, username, password);
      && |w.log| + 1 <= |r.world.log| <= |w.log| + 3
      && (|r.world.log| > |w.log| + 1 ==>
            (Given(username) && Given(password) && RunCommand(env, w, MysqlCreateDatabase(database), true).0.code == 0))
      && r.world.log[..|w.log| + 1] == w.log + [Effective(env, MysqlCreateDatabase(database), true)]
  {
  }

  function PostgresCreateUser(username: string, password: string): string
  {
    "sudo -u postgres psql -c \"CREATE USER " + username + " WITH PASSWORD '" + password + "';\""
  }

  /** The `OWNER` clause: present whenever a user name is given, whether
      or not a password is. */
  function OwnerClause(username: Option<string>): (r: string)
    ensures r == "" <==> !Given(username)
  {
    if Given(username) then "OWNER " + username.value else ""
  }

  function PostgresCreateDatabase(database: string, owner: string): string
  {
    "sudo -u postgres psql -c \"CREATE DATABASE " + database + " " + owner + ";\""
  }

  /** The stderr PostgreSQL gives for an object that is already there. */
  const AlreadyExists := "already exists"

  /** create_postgresql_database: the user first (an existing one is fine),
      then the database owned by the user; an existing database counts
      as success. Nothing here is privileged. */
  function CreatePostgres(env: Env, w: World, database: string, username: Option<string>, password: Option<string>): (r: Done)
  {
    if Given(username) && Given(password) then
      var (user, w1) := RunCommand(env, w, PostgresCreateUser(username.value, password.value), false);
      if user.code != 0 && !Contains(user.stderr, AlreadyExists) then
        Done(false, "Failed to create user: " + user.stderr, w1)
      else PostgresDatabaseStep(env, w1, database, username)
    else PostgresDatabaseStep(env, w, database, username)
  }

  function PostgresDatabaseStep(env: Env, w: World, database: string, username: Option<string>): (r: Done)
    ensures var (made, w1) := RunCommand(env, w, PostgresCreateDatabase(database, OwnerClause(username)), false);
      && r.world == w1
      && (r.ok <==> made.code == 0 || Contains(made.stderr, AlreadyExists))
      && (made.code != 0 && Contains(made.stderr, AlreadyExists) ==> r.message == "Database already exists: " + database)
  {
    var (made, w1) := RunCommand(env, w, PostgresCreateDatabase(database, OwnerClause(username)), false);
    if made.code == 0 then Done(true, "PostgreSQL database created successfully", w1)
    else if Contains(made.stderr, AlreadyExists) then Done(true, "Database already exists: " + database, w1)
    else Done(false, "Failed to create database: " + made.stderr, w1)
  }

  /** Without full credentials no user is created: the only command is
      the database one, with an owner clause exactly when a user name is
      given. */
  lemma PostgresWithoutUser(env: Env, w: World, database: string, username: Option<string>, password: Option<string>)
    requires !(Given(username) && Given(password))
    ensures var r := CreatePostgres(env, w, database, username, password);
      r.world.log == w.log + [Direct(PostgresCreateDatabase(database, OwnerClause(username)))]
  {
  }

  /** With credentials, a user that fails for a reason other than already
      existing stops the creation before the database; otherwise the
      database step decides the outcome. */
  lemma PostgresUserFirst(env: Env, w: World, database: string, username: string, password: string)
    requires username != "" && password != ""
    ensures var r := CreatePostgres(env, w, database, Some(username), Some(password));
      var (user, w1) := RunCommand(env, w, PostgresCreateUser(username, password), false);
      && (user.code != 0 && !Contains(user.stderr, AlreadyExists) ==> !r.ok && r.world == w1)
      && (user.code == 0 || Contains(user.stderr, AlreadyExists) ==>
            r == PostgresDatabaseStep(env, w1, database, Some(username)))
  {
  }

  // ---------------------------------------------------------------------
  // Single-command operations

  /** One command whose exit status alone decides the outcome. */
  function SingleCommand(env: Env, w: World, command: string, useSudo: bool, success: string, failure: string): (r: Done)
    ensures var (reply, w1) := RunCommand(env, w, command, useSudo);
      && r.world == w1
      && (r.ok <==> reply.code == 0)
      && (r.ok ==> r.message == success)
      && (!r.ok ==> r.message == failure + reply.stderr)
  {
    var (reply, w1) := RunCommand(env, w, command, useSudo);
    if reply.code == 0 then Done(true, success, w1) else Done(false, failure + reply.stderr, w1)
  }

  /** delete_mysql_database */
  function DeleteMysql(env: Env, w: World, database: string): (r: Done)
  {
    SingleCommand(env, w, "mysql -e \"DROP DATABASE IF EXISTS " + database + ";\"", true,
                  "Database deleted: " + database, "Failed to delete database: ")
  }

  /** delete_postgresql_database */
  function DeletePostgres(env: Env, w: World, database: string): (r: Done)
  {
    SingleCommand(env, w, "sudo -u postgres psql -c \"DROP DATABASE IF EXISTS " + database + ";\"", false,
                  "Database deleted: " + database, "Failed to delete database: ")
  }

  /** import_mysql_database */
  function ImportMysql(env: Env, w: World, database: string, sqlFile: string): (r: Done)
  {
    SingleCommand(env, w, "mysql " + database + " < " + sqlFile, true,
                  "Database imported successfully", "Failed to import database: ")
  }

  /** export_mysql_database */
  function ExportMysql(env: Env, w: World, database: string, outputFile: string): (r: Done)
  {
    SingleCommand(env, w, "mysqldump " + database + " > " + outputFile, true,
                  "Database exported to " + outputFile, "Failed to export database: ")
  }

  /** Deleting a database runs one command, privileged for MySQL and not
      for PostgreSQL, and succeeds exactly when it exits with 0. */
  lemma DeleteOutcome(env: Env, w: World, database: string)
    ensures var r := DeleteMysql(env, w, database);
      |r.world.log| == |w.log| + 1 && r.world.log[|w.log|] == Effective(env, "mysql -e \"DROP DATABASE IF EXISTS " + database + ";\"", true)
    ensures var r := DeletePostgres(env, w, database);
      r.world.log == w.log + [Direct("sudo -u postgres psql -c \"DROP DATABASE IF EXISTS " + database + ";\"")]
  {
  }
}

=== FILE: dialogs.dfy ===
/** The two creation dialogs (gui/vhost_dialog.py, gui/project_dialog.py),
    reduced to the order in which they call the managers and which
    failures stop them. Widgets and message boxes are left out; what the
    model keeps is the form's text, the sequence of manager calls, the
    world they leave and whether the dialog closes as accepted. */
module Dialogs {
  import opened Wrappers
  import opened Text
  import opened Validators
  import opened Bridge
  import Certificates
  import VHost
  import Projects

  /** A call a dialog makes into a manager. */
  datatype Call =
    | GenerateCertificate(domain: string)
    | CreateVirtualHost(request: VHost.Request)
    | CreateProject(name: string, projectType: string)

  datatype DialogRun = DialogRun(accepted: bool, calls: seq<Call>, world: World)

  /** Validity of the certificates the dialogs ask for. */
  const DaysValid := 365

  // ---------------------------------------------------------------------
  // The virtual-host dialog

  datatype VHostForm = VHostForm(
    projectName: string,
    documentRoot: string,
    webServer: string,
    phpVersion: string,
    customDomain: string,
    enableSsl: bool)

  /** The custom-domain field: stripped, and empty means none. */
  function CustomDomain(field: string): (r: Option<string>)
    ensures r.Some? ==> r.value != "" && r.value == Strip(field)
    ensures r.None? <==> Strip(field) == ""
  {
    if Strip(field) == "" then None else Some(Strip(field))
  }

  /** The domain the dialog issues a certificate for: the custom domain as
      typed, or the project name with the extension, neither sanitised. */
  function CertificateDomain(name: string, custom: Option<string>, extension: string): string
  {
    custom.GetOr(name + extension)
  }

  /** create_vhost of the virtual-host dialog. */
  function CreateVHostDialog(env: Env, w: World, host: VHost.Host, mint: Certificates.Mint, form: VHostForm): (r: DialogRun)
    ensures Strip(form.projectName) == "" || Strip(form.documentRoot) == "" ==> r == DialogRun(false, [], w)
    ensures r.accepted ==> |r.calls| >= 1 && r.calls[|r.calls| - 1].CreateVirtualHost?
    ensures form.enableSsl && |r.calls| > 0 ==>
      r.calls[0] == GenerateCertificate(CertificateDomain(Strip(form.projectName), CustomDomain(form.customDomain), host.domainExtension))
    ensures !form.enableSsl ==> forall k :: 0 <= k < |r.calls| ==> !r.calls[k].GenerateCertificate?
  {
    var name := Strip(form.projectName);
    var root := Strip(form.documentRoot);
    var custom := CustomDomain(form.customDomain);
    if name == "" || root == "" then DialogRun(false, [], w)
    else
      var request := VHost.Request(name, root, form.webServer, form.phpVersion, form.enableSsl, custom);
      if form.enableSsl then SecuredHost(env, w, host, mint, CertificateDomain(name, custom, host.domainExtension), request)
      else PlainHost(env, w, host, request)
  }

  /** The path without SSL: the virtual host alone. */
  function PlainHost(env: Env, w: World, host: VHost.Host, request: VHost.Request): (r: DialogRun)
    ensures r.calls == [CreateVirtualHost(request)]
    ensures r.accepted == VHost.CreateVirtualHost(env, w, host, request).ok
  {
    var made := VHost.CreateVirtualHost(env, w, host, request);
    DialogRun(made.ok, [CreateVirtualHost(request)], made.world)
  }

  /** The SSL path of create_vhost: the certificate first; the virtual host
      only once it was issued. */
  function SecuredHost(env: Env, w: World, host: VHost.Host, mint: Certificates.Mint, domain: string, request: VHost.Request): (r: DialogRun)
    ensures |r.calls| >= 1 && r.calls[0] == GenerateCertificate(domain)
    ensures r.accepted ==> r.calls == [GenerateCertificate(domain), CreateVirtualHost(request)]
    ensures !Certificates.Generate(env, w, mint, domain, DaysValid).ok ==> !r.accepted && |r.calls| == 1
  {
    var cert := Certificates.Generate(env, w, mint, domain, DaysValid);
    if !cert.ok then DialogRun(false, [GenerateCertificate(domain)], cert.world)
    else
      var made := VHost.CreateVirtualHost(env, cert.world, host, request);
      DialogRun(made.ok, [GenerateCertificate(domain), CreateVirtualHost(request)], made.world)
  }

  /** A certificate that cannot be issued stops the dialog before the
      virtual host is asked for, and the dialog stays open. */
  lemma CertificateFailureStops(env: Env, w: World, host: VHost.Host, mint: Certificates.Mint, form: VHostForm)
    requires Strip(form.projectName) != "" && Strip(form.documentRoot) != "" && form.enableSsl
    requires !Certificates.Generate(env, w, mint,
               CertificateDomain(Strip(form.projectName), CustomDomain(form.customDomain), host.domainExtension), DaysValid).ok
    ensures var r := CreateVHostDialog(env, w, host, mint, form);
      !r.accepted && |r.calls| == 1 && r.calls[0].GenerateCertificate?
  {
  }

  /** Once the virtual host is asked for (so the inputs were present and
      any certificate was issued), the dialog passes the stripped fields
      on and is accepted exactly when the virtual host is created. */
  lemma AcceptedIffCreated(env: Env, w: World, host: VHost.Host, mint: Certificates.Mint, form: VHostForm)
    ensures var r := CreateVHostDialog(env, w, host, mint, form);
      var request := VHost.Request(Strip(form.projectName), Strip(form.documentRoot), form.webServer,
                                   form.phpVersion, form.enableSsl, CustomDomain(form.customDomain));
      var w1 := if form.enableSsl
                then Certificates.Generate(env, w, mint, CertificateDomain(Strip(form.projectName),
                       CustomDomain(form.customDomain), host.domainExtension), DaysValid).world
                else w;
      |r.calls| > 0 && r.calls[|r.calls| - 1] == CreateVirtualHost(request) ==>
        r.accepted == VHost.CreateVirtualHost(env, w1, host, request).ok
  {
    var name := Strip(form.projectName);
    var custom := CustomDomain(form.customDomain);
    var request := VHost.Request(name, Strip(form.documentRoot), form.webServer, form.phpVersion, form.enableSsl, custom);
    var r := CreateVHostDialog(env, w, host, mint, form);
    if name == "" || Strip(form.documentRoot) == "" {
      assert r.calls == [];
    } else if form.enableSsl {
      var cert := Certificates.Generate(env, w, mint, CertificateDomain(name, custom, host.domainExtension), DaysValid);
      if cert.ok {
        assert r.accepted == VHost.CreateVirtualHost(env, cert.world, host, request).ok;
      } else {
        assert r.calls == [GenerateCertificate(CertificateDomain(name, custom, host.domainExtension))];
      }
    } else {
      assert r.accepted == VHost.CreateVirtualHost(env, w, host, request).ok;
    }
  }

  /** Cancelling a common suffix. */
  lemma SuffixCancel(a: string, b: string, c: string)
    ensures a + c == b + c <==> a == b
  {
    if a + c == b + c {
      assert a == (a + c)[..|a|];
      assert |a| == |b|;
      assert b == (b + c)[..|b|];
    }
  }

  /** The certificate is issued for the name as typed, while the virtual
      host serves the sanitised name, so the two agree exactly when
      sanitising leaves the name alone. */
  lemma CertificateMatchesVHost(name: string, custom: Option<string>, extension: string)
    requires custom.Some? ==> custom.value != ""
    ensures CertificateDomain(name, custom, extension) == VHost.DeriveDomain(name, custom, extension) <==>
      (match custom
       case Some(d) => SanitizeDomain(d) == d
       case None => SanitizeDomain(name) == name)
  {
    if custom.None? {
      SuffixCancel(name, SanitizeDomain(name), extension);
    }
  }

  /** For instance, a custom domain with a capital letter gets a
      certificate the virtual host does not use. */
  lemma CapitalisedDomainMismatch(name: string, custom: string, extension: string, i: nat)
    requires i < |custom| && IsAsciiUpper(custom[i])
    ensures CertificateDomain(name, Some(custom), extension) != VHost.DeriveDomain(name, Some(custom), extension)
  {
    assert CertificateDomain(name, Some(custom), extension) == custom;
    assert VHost.DeriveDomain(name, Some(custom), extension) == SanitizeDomain(custom);
    SanitizeChangesUpper(custom, i);
  }

  // ---------------------------------------------------------------------
  // The project dialog

  datatype ProjectForm = ProjectForm(projectName: string, typeLabel: string, createVhost: bool, enableSsl: bool)

  /** The settings the project dialog reads from the configuration. */
  datatype ProjectSettings = ProjectSettings(projectsRoot: string, webServer: string, phpVersion: string)

  /** The type behind a choice of the type list; anything else is an empty
      project. */
  function ProjectType(choice: string): (t: string)
    ensures t in {"empty", "html", "laravel", "wordpress"}
    ensures choice !in {"Empty PHP Project", "HTML Project", "Laravel Project", "WordPress Project"} ==> t == "empty"
  {
    if choice == "HTML Project" then "html"
    else if choice == "Laravel Project" then "laravel"
    else if choice == "WordPress Project" then "wordpress"
    else "empty"
  }

  /** The document root of a new project's site: the project directory,
      or its `public` directory for Laravel. */
  function ProjectDocumentRoot(root: string, name: string, projectType: string): string
  {
    if projectType == "laravel" then PathJoin(PathJoin(root, name), "public") else PathJoin(root, name)
  }

  /** create_project of the project dialog. An exception out of the
      project manager escapes this slot; what Qt does then (it ends the
      application) is not modelled, and the run is recorded as not
      accepted. After the project exists, a failed certificate or virtual
      host only warns, and the dialog is accepted. */
  function CreateProjectDialog(env: Env, w: World, settings: ProjectSettings, host: VHost.Host,
                               mint: Certificates.Mint, form: ProjectForm): (r: DialogRun)
    ensures Strip(form.projectName) == "" ==> r == DialogRun(false, [], w)
    ensures Strip(form.projectName) != "" ==>
      |r.calls| >= 1 && r.calls[0] == CreateProject(Strip(form.projectName), ProjectType(form.typeLabel))
    ensures r.accepted <==> (|r.calls| >= 1 &&
      var c := Projects.CreateProject(env, w, settings.projectsRoot, Strip(form.projectName), ProjectType(form.typeLabel));
      c.Finished? && c.done.ok)
  {
    var name := Strip(form.projectName);
    if name == "" then DialogRun(false, [], w)
    else
      var projectType := ProjectType(form.typeLabel);
      var first := [CreateProject(name, projectType)];
      match Projects.CreateProject(env, w, settings.projectsRoot, name, projectType)
      case Escaped(w1) => DialogRun(false, first, w1)
      case Finished(created) =>
        if !created.ok then DialogRun(false, first, created.world)
        else if !form.createVhost then DialogRun(true, first, created.world)
        else
          var (calls, w2) := ProjectSite(env, created.world, settings, host, mint, name, projectType, form.enableSsl);
          DialogRun(true, first + calls, w2)
  }

  /** The site a new project gets: the virtual host is always asked
      for, with the configured server and PHP version, no custom domain,
      and the project (or its `public`) directory; a certificate, when
      asked for, comes first and its outcome does not matter. */
  function ProjectSite(env: Env, w: World, settings: ProjectSettings, host: VHost.Host, mint: Certificates.Mint,
                       name: string, projectType: string, enableSsl: bool): (r: (seq<Call>, World))
    ensures r.0 == (if enableSsl then [GenerateCertificate(name + host.domainExtension)] else []) +
      [CreateVirtualHost(VHost.Request(name, ProjectDocumentRoot(settings.projectsRoot, name, projectType),
                                       settings.webServer, settings.phpVersion, enableSsl, None))]
  {
    var request := VHost.Request(name, ProjectDocumentRoot(settings.projectsRoot, name, projectType),
                                 settings.webServer, settings.phpVersion, enableSsl, None);
    if enableSsl then
      var domain := name + host.domainExtension;
      var cert := Certificates.Generate(env, w, mint, domain, DaysValid);
      var made := VHost.CreateVirtualHost(env, cert.world, host, request);
      ([GenerateCertificate(domain), CreateVirtualHost(request)], made.world)
    else
      var made := VHost.CreateVirtualHost(env, w, host, request);
      ([CreateVirtualHost(request)], made.world)
  }

  /** After a project is created with a site requested, the dialog goes
      on to the site's calls and is accepted whatever they return. */
  lemma ProjectSiteCalls(env: Env, w: World, settings: ProjectSettings, host: VHost.Host,
                         mint: Certificates.Mint, form: ProjectForm)
    requires form.createVhost
    ensures var name := Strip(form.projectName);
      var projectType := ProjectType(form.typeLabel);
      var c := Projects.CreateProject(env, w, settings.projectsRoot, name, projectType);
      var r := CreateProjectDialog(env, w, settings, host, mint, form);
      name != "" && c.Finished? && c.done.ok ==>
        var site := ProjectSite(env, c.done.world, settings, host, mint, name, projectType, form.enableSsl);
        r.accepted && r.calls == [CreateProject(name, projectType)] + site.0 && r.world == site.1
  {
  }

  /** The dialog only asks for types the project manager supports, so
      once the directory is made a failure always comes from the one
      command the type runs (composer or the WordPress download). */
  lemma DialogTypesSupported(env: Env, w: World, root: string, name: string, choice: string)
    ensures var c := Projects.CreateProject(env, w, root, name, ProjectType(choice));
      c.Finished? && !c.done.ok && !Exists(w, PathJoin(root, name)) ==>
        |c.done.world.log| == |w.log| + 1 && ProjectType(choice) in {"laravel", "wordpress"}
  {
  }
}

=== FILE: json.dfy ===
/** The JSON-shaped values that Python's `json.load` produces and that the
    configuration store holds: a tree whose inner nodes are objects (Python
    dicts). Floating-point numbers are not part of the model. */
module JsonTree {

  datatype Json =
    | JNull
    | JBool(b: bool)
    | JInt(i: int)
    | JStr(s: string)
    | JList(items: seq<Json>)
    | JObject(fields: map<string, Json>)
}

=== FILE: packages.dfy ===
/** The package installer (core/package_installer.py): a catalog of
    packages grouped by category, looked up and searched in catalog order,
    and installed through `apt-get` with the command bridge. Whether a
    program is on the `PATH` (`shutil.which`) is the `onPath` parameter. */
module Packages {
  import opened Wrappers
  import opened Text
  import opened Bridge

  /** One catalog entry; `hasPpa` says whether the entry carries a `ppa`
      key, which is all the installer looks at. */
  datatype Package = Package(name: string, description: string, package: string, installCmd: string, hasPpa: bool)

  /** The categories of the catalog, in the order the catalog file lists
      them. */
  type Catalog = seq<seq<Package>>

  /** The entries of the catalog, category after category. */
  function Flatten(catalog: Catalog): (r: seq<Package>)
    ensures forall i :: 0 <= i < |catalog| ==> forall p :: p in catalog[i] ==> p in r
    ensures forall p :: p in r ==> exists i :: 0 <= i < |catalog| && p in catalog[i]
  {
    if |catalog| == 0 then []
    else
      var rest := Flatten(catalog[1..]);
      assert forall i :: 1 <= i < |catalog| ==> catalog[i] == catalog[1..][i - 1];
      catalog[0] + rest
  }

  // ---------------------------------------------------------------------
  // Lookup

  predicate Named(p: Package, name: string)
  {
    p.name == name || p.package == name
  }

  /** The position of the first entry of `entries` named `name` (by
      display name or package name), or `|entries|` when there is none. */
  function FirstIndex(entries: seq<Package>, name: string): (i: nat)
    ensures i <= |entries|
    ensures i < |entries| ==> Named(entries[i], name)
    ensures forall j :: 0 <= j < i ==> !Named(entries[j], name)
  {
    if |entries| == 0 then 0
    else if Named(entries[0], name) then 0
    else 1 + FirstIndex(entries[1..], name)
  }

  /** The first entry named `name`. */
  function FindIn(entries: seq<Package>, name: string): (r: Option<Package>)
    ensures r.None? <==> forall i :: 0 <= i < |entries| ==> !Named(entries[i], name)
    ensures r.Some? ==> Named(r.value, name) && r.value in entries
  {
    var i := FirstIndex(entries, name);
    if i < |entries| then Some(entries[i]) else None
  }

  /** get_package_by_name: categories in order, entries in order. */
  function Lookup(catalog: Catalog, name: string): Option<Package>
  {
    if |catalog| == 0 then None
    else
      match FindIn(catalog[0], name)
      case Some(p) => Some(p)
      case None => Lookup(catalog[1..], name)
  }

  lemma {:induction false} FindInConcat(a: seq<Package>, b: seq<Package>, name: string)
    ensures FirstIndex(a + b, name) == if FirstIndex(a, name) < |a| then FirstIndex(a, name) else |a| + FirstIndex(b, name)
    ensures FindIn(a + b, name) == (match FindIn(a, name) case Some(p) => Some(p) case None => FindIn(b, name))
  {
    if |a| > 0 {
      assert (a + b)[1..] == a[1..] + b;
      FindInConcat(a[1..], b, name);
    } else {
      assert a + b == b;
    }
  }

  /** Looking up category by category is looking up in the flattened
      catalog: the first entry in catalog order wins. */
  lemma {:induction false} LookupFlat(catalog: Catalog, name: string)
    ensures Lookup(catalog, name) == FindIn(Flatten(catalog), name)
  {
    if |catalog| > 0 {
      LookupFlat(catalog[1..], name);
      FindInConcat(catalog[0], Flatten(catalog[1..]), name);
    }
  }

  // ---------------------------------------------------------------------
  // Search

  /** `query in s.lower()` for the three searchable fields, with the query
      already lower-cased. */
  predicate Matches(p: Package, query: string)
  {
    Contains(Lower(p.name), query) || Contains(Lower(p.description), query) || Contains(Lower(p.package), query)
  }

  function Filter(entries: seq<Package>, query: string): (r: seq<Package>)
    ensures |r| <= |entries|
    ensures forall p :: p in r <==> p in entries && Matches(p, query)
  {
    if |entries| == 0 then []
    else
      var rest := Filter(entries[1..], query);
      assert entries == [entries[0]] + entries[1..];
      if Matches(entries[0], query) then [entries[0]] + rest else rest
  }

  /** search_packages: the matching entries in catalog order. */
  function Search(catalog: Catalog, query: string): (r: seq<Package>)
    ensures forall p :: p in r <==> p in Flatten(catalog) && Matches(p, Lower(query))
  {
    Filter(Flatten(catalog), Lower(query))
  }

  /** Filtering works entry by entry: a match is kept in its place, once,
      and anything else is dropped. Together with FilterSingle this pins
      the order and the multiplicity of the result. */
  lemma {:induction false} FilterConcat(a: seq<Package>, b: seq<Package>, query: string)
    ensures Filter(a + b, query) == Filter(a, query) + Filter(b, query)
  {
    if |a| > 0 {
      var ab := a + b;
      assert ab[0] == a[0];
      assert ab[1..] == a[1..] + b;
      FilterConcat(a[1..], b, query);
      var head := if Matches(a[0], query) then [a[0]] else [];
      assert Filter(ab, query) == head + Filter(a[1..] + b, query);
      assert Filter(a, query) == head + Filter(a[1..], query);
    } else {
      assert a + b == b;
    }
  }

  lemma FilterSingle(p: Package, query: string)
    ensures Filter([p], query) == if Matches(p, query) then [p] else []
  {
  }

  lemma {:induction false} FlattenConcat(a: Catalog, b: Catalog)
    ensures Flatten(a + b) == Flatten(a) + Flatten(b)
  {
    if |a| > 0 {
      assert (a + b)[0] == a[0];
      assert (a + b)[1..] == a[1..] + b;
      FlattenConcat(a[1..], b);
    } else {
      assert a + b == b;
    }
  }

  /** Search keeps catalog order: the matches of earlier categories come
      first, and within a category the matches keep their order. */
  lemma SearchConcat(a: Catalog, b: Catalog, query: string)
    ensures Search(a + b, query) == Search(a, query) + Search(b, query)
  {
    FlattenConcat(a, b);
    FilterConcat(Flatten(a), Flatten(b), Lower(query));
  }

  /** Within one category, search is the category's own matches in
      order. */
  lemma SearchCategory(entries: seq<Package>, query: string)
    ensures Search([entries], query) == Filter(entries, Lower(query))
  {
    assert Flatten([entries]) == entries + Flatten([]);
    assert entries + [] == entries;
  }

  /** The empty query matches every entry. */
  lemma {:induction false} FilterEmptyQuery(entries: seq<Package>)
    ensures Filter(entries, "") == entries
  {
    if |entries| > 0 {
      FilterEmptyQuery(entries[1..]);
      assert StartsWith(Lower(entries[0].name), "");
      assert entries == [entries[0]] + entries[1..];
    }
  }

  lemma SearchEmptyQuery(catalog: Catalog)
    ensures Search(catalog, "") == Flatten(catalog)
  {
    FilterEmptyQuery(Flatten(catalog));
  }

  /** Case does not matter: a query and its lower-case form find the
      same entries. */
  lemma SearchIgnoresCase(catalog: Catalog, query: string)
    ensures Search(catalog, query) == Search(catalog, Lower(query))
  {
    LowerIdempotent(query);
  }

  lemma LowerIdempotent(s: string)
    ensures Lower(Lower(s)) == Lower(s)
  {
    LowerIdentity(Lower(s));
  }

  // ---------------------------------------------------------------------
  // Installing

  /** is_package_installed: `dpkg -l | grep -w` printing something, or
      else the program being on the `PATH`. */
  function IsInstalled(env: Env, w: World, onPath: string -> bool, package: string): (r: (bool, World))
    ensures var (reply, w1) := RunCommand(env, w, "dpkg -l | grep -w " + package, false);
      r.1 == w1 && (r.0 <==> (reply.code == 0 && Strip(reply.stdout) != "") || onPath(package))
  {
    var (reply, w1) := RunCommand(env, w, "dpkg -l | grep -w " + package, false);
    (if reply.code == 0 && Strip(reply.stdout) != "" then true else onPath(package), w1)
  }

  /** The PPA step: make sure `add-apt-repository` is available. */
  function EnsurePpaTools(env: Env, w: World): (r: (Option<string>, World))
    ensures |r.1.log| == |w.log| + 1 || |r.1.log| == |w.log| + 2
    ensures w.log <= r.1.log
    ensures r.1.files == w.files
  {
    var (listed, w1) := RunCommand(env, w, "dpkg -l | grep -w software-properties-common", false);
    if listed.code == 0 then (None, w1)
    else
      var (installed, w2) := RunCommand(env, w1, "apt-get install -y software-properties-common", true);
      if installed.code != 0 then (Some("Failed to install software-properties-common: " + installed.stderr), w2)
      else (None, w2)
  }

  /** The steps after the package is known not to be installed. */
  function AptInstall(env: Env, w: World, p: Package, name: string): (r: Done)
    ensures r.world.files == w.files
    ensures w.log <= r.world.log
    ensures var (failure, w1) := if p.hasPpa then EnsurePpaTools(env, w) else (None, w);
      && (failure.Some? ==> r == Done(false, failure.value, w1))
      && (failure.None? ==>
            var (updated, w2) := RunCommand(env, w1, "apt-get update", true);
            && (updated.code != 0 ==> r == Done(false, "Failed to update package list: " + updated.stderr, w2))
            && (updated.code == 0 ==>
                  var (installed, w3) := RunCommand(env, w2, p.installCmd, true);
                  r.world == w3 && (r.ok <==> installed.code == 0)))
  {
    var (failure, w1) := if p.hasPpa then EnsurePpaTools(env, w) else (None, w);
    if failure.Some? then Done(false, failure.value, w1)
    else
      var (updated, w2) := RunCommand(env, w1, "apt-get update", true);
      if updated.code != 0 then Done(false, "Failed to update package list: " + updated.stderr, w2)
      else
        var (installed, w3) := RunCommand(env, w2, p.installCmd, true);
        if installed.code == 0 then Done(true, "Package installed successfully: " + name, w3)
        else Done(false, "Failed to install " + name + ": " + installed.stderr, w3)
  }

  /** install_package */
  function Install(env: Env, w: World, onPath: string -> bool, catalog: Catalog, name: string): (r: Done)
    ensures w.log <= r.world.log
    ensures Lookup(catalog, name).None? ==> r == Done(false, "Package not found: " + name, w)
    ensures Lookup(catalog, name).Some? ==>
      var p := Lookup(catalog, name).value;
      var (installed, w1) := IsInstalled(env, w, onPath, p.package);
      && (installed ==> r == Done(true, "Package already installed: " + name, w1))
      && (!installed ==> r == AptInstall(env, w1, p, name))
  {
    match Lookup(catalog, name)
    case None => Done(false, "Package not found: " + name, w)
    case Some(p) =>
      var (installed, w1) := IsInstalled(env, w, onPath, p.package);
      if installed then Done(true, "Package already installed: " + name, w1)
      else AptInstall(env, w1, p, name)
  }

  /** A successful installation of a missing package has run the package
      list update and, last, the entry's own install command. */
  lemma InstallRunsUpdateFirst(env: Env, w: World, p: Package, name: string)
    requires AptInstall(env, w, p, name).ok
    ensures var log := AptInstall(env, w, p, name).world.log;
      && |log| >= |w.log| + 2
      && log[|log| - 1] == Effective(env, p.installCmd, true)
      && log[|log| - 2] == Effective(env, "apt-get update", true)
  {
  }

  /** uninstall_package */
  function Uninstall(env: Env, w: World, onPath: string -> bool, catalog: Catalog, name: string): (r: Done)
    ensures Lookup(catalog, name).None? ==> r == Done(false, "Package not found: " + name, w)
    ensures Lookup(catalog, name).Some? ==>
      var p := Lookup(catalog, name).value;
      var (installed, w1) := IsInstalled(env, w, onPath, p.package);
      && (!installed ==> r == Done(true, "Package not installed: " + name, w1))
      && (installed ==>
            var (removed, w2) := RunCommand(env, w1, "apt-get remove -y " + p.package, true);
            r.world == w2 && (r.ok <==> removed.code == 0))
  {
    match Lookup(catalog, name)
    case None => Done(false, "Package not found: " + name, w)
    case Some(p) =>
      var (installed, w1) := IsInstalled(env, w, onPath, p.package);
      if !installed then Done(true, "Package not installed: " + name, w1)
      else
        var (removed, w2) := RunCommand(env, w1, "apt-get remove -y " + p.package, true);
        if removed.code == 0 then Done(true, "Package uninstalled successfully: " + name, w2)
        else Done(false, "Failed to uninstall " + name + ": " + removed.stderr, w2)
  }

  function NameSet(names: seq<string>): set<string>
  {
    set i | 0 <= i < |names| :: names[i]
  }

  /** The installations of `names` in order, recorded by name; a name that
      occurs twice is installed twice and keeps its last result. */
  function InstallEach(env: Env, w: World, onPath: string -> bool, catalog: Catalog, names: seq<string>,
                       acc: map<string, (bool, string)>): (r: (map<string, (bool, string)>, World))
    ensures r.0.Keys == acc.Keys + NameSet(names)
    ensures forall k :: k in acc && k !in NameSet(names) ==> r.0[k] == acc[k]
    decreases |names|
  {
    if |names| == 0 then (acc, w)
    else
      var d := Install(env, w, onPath, catalog, names[0]);
      assert NameSet(names) == {names[0]} + NameSet(names[1..]) by {
        forall n | n in NameSet(names) ensures n in {names[0]} + NameSet(names[1..]) {
          var i :| 0 <= i < |names| && names[i] == n;
          if i > 0 { assert names[1..][i - 1] == n; }
        }
      }
      InstallEach(env, d.world, onPath, catalog, names[1..], acc[names[0] := (d.ok, d.message)])
  }

  /** install_multiple_packages: one package list update whose result is
      ignored, then each installation; one result per requested name. */
  function InstallMultiple(env: Env, w: World, onPath: string -> bool, catalog: Catalog, names: seq<string>): (r: (map<string, (bool, string)>, World))
    ensures r.0.Keys == NameSet(names)
    ensures |r.1.log| > |w.log| && r.1.log[|w.log|] == Effective(env, "apt-get update", true)
  {
    var (_, w1) := RunCommand(env, w, "apt-get update", true);
    var r := InstallEach(env, w1, onPath, catalog, names, map[]);
    LogGrows(env, w1, onPath, catalog, names, map[]);
    r
  }

  /** Installing `a + b` is installing `a` and then `b`, from where `a`
      left the world and the results. */
  lemma {:induction false} InstallEachConcat(env: Env, w: World, onPath: string -> bool, catalog: Catalog,
                                             a: seq<string>, b: seq<string>, acc: map<string, (bool, string)>)
    ensures var first := InstallEach(env, w, onPath, catalog, a, acc);
      InstallEach(env, w, onPath, catalog, a + b, acc) == InstallEach(env, first.1, onPath, catalog, b, first.0)
    decreases |a|
  {
    if |a| == 0 {
      assert a + b == b;
    } else {
      assert (a + b)[0] == a[0];
      assert (a + b)[1..] == a[1..] + b;
      var d := Install(env, w, onPath, catalog, a[0]);
      InstallEachConcat(env, d.world, onPath, catalog, a[1..], b, acc[a[0] := (d.ok, d.message)]);
    }
  }

  /** The world the installations reach does not depend on the results
      recorded so far. */
  lemma {:induction false} InstallEachWorld(env: Env, w: World, onPath: string -> bool, catalog: Catalog,
                                            names: seq<string>, acc: map<string, (bool, string)>)
    ensures InstallEach(env, w, onPath, catalog, names, acc).1 == InstallEach(env, w, onPath, catalog, names, map[]).1
    decreases |names|
  {
    if |names| > 0 {
      var d := Install(env, w, onPath, catalog, names[0]);
      InstallEachWorld(env, d.world, onPath, catalog, names[1..], acc[names[0] := (d.ok, d.message)]);
      InstallEachWorld(env, d.world, onPath, catalog, names[1..], map[names[0] := (d.ok, d.message)]);
    }
  }

  /** The result recorded for a name is the outcome of installing it at its
      last occurrence, on the world the earlier installations left. */
  lemma InstallEachLast(env: Env, w: World, onPath: string -> bool, catalog: Catalog, names: seq<string>,
                        acc: map<string, (bool, string)>, i: nat)
    requires i < |names|
    requires forall j :: i < j < |names| ==> names[j] != names[i]
    ensures var d := Install(env, InstallEach(env, w, onPath, catalog, names[..i], map[]).1, onPath, catalog, names[i]);
      InstallEach(env, w, onPath, catalog, names, acc).0[names[i]] == (d.ok, d.message)
  {
    var a := names[..i];
    var b := names[i..];
    assert names == a + b;
    InstallEachConcat(env, w, onPath, catalog, a, b, acc);
    InstallEachWorld(env, w, onPath, catalog, a, acc);
    var first := InstallEach(env, w, onPath, catalog, a, acc);
    var d := Install(env, first.1, onPath, catalog, names[i]);
    assert b[0] == names[i];
    assert b[1..] == names[i + 1..];
    NotLater(names, i);
  }

  lemma NotLater(names: seq<string>, i: nat)
    requires i < |names|
    requires forall j :: i < j < |names| ==> names[j] != names[i]
    ensures names[i] !in NameSet(names[i + 1..])
  {
    var rest := names[i + 1..];
    forall k | 0 <= k < |rest| ensures rest[k] != names[i] {
      assert rest[k] == names[i + 1 + k];
    }
  }

  /** install_multiple_packages records, for each requested name, what
      installing it at its last occurrence returned, after the package
      list update and the installations before it. */
  lemma InstallMultipleResult(env: Env, w: World, onPath: string -> bool, catalog: Catalog, names: seq<string>, i: nat)
    requires i < |names|
    requires forall j :: i < j < |names| ==> names[j] != names[i]
    ensures var w1 := RunCommand(env, w, "apt-get update", true).1;
      var d := Install(env, InstallEach(env, w1, onPath, catalog, names[..i], map[]).1, onPath, catalog, names[i]);
      InstallMultiple(env, w, onPath, catalog, names).0[names[i]] == (d.ok, d.message)
  {
    var w1 := RunCommand(env, w, "apt-get update", true).1;
    InstallEachLast(env, w1, onPath, catalog, names, map[], i);
  }

  /** The installations only add to the log. */
  lemma {:induction false} LogGrows(env: Env, w: World, onPath: string -> bool, catalog: Catalog, names: seq<string>,
                                    acc: map<string, (bool, string)>)
    ensures w.log <= InstallEach(env, w, onPath, catalog, names, acc).1.log
    decreases |names|
  {
    if |names| > 0 {
      var d := Install(env, w, onPath, catalog, names[0]);
      LogGrows(env, d.world, onPath, catalog, names[1..], acc[names[0] := (d.ok, d.message)]);
    }
  }

  // ---------------------------------------------------------------------
  // PHP extensions

  /** The distribution package of a PHP extension. */
  function ExtensionPackage(extension: string, version: string): string
  {
    "php" + version + "-" + extension
  }

  /** install_php_extension: install the extension package; on success
      restart the matching PHP-FPM service and ignore how that goes. */
  function InstallPhpExtension(env: Env, w: World, extension: string, version: string): (r: Done)
    ensures var (installed, w1) := RunCommand(env, w, "apt-get install -y " + ExtensionPackage(extension, version), true);
      && (r.ok <==> installed.code == 0)
      && (r.ok ==> r.world == RunCommand(env, w1, "systemctl restart php" + version + "-fpm", true).1)
      && (!r.ok ==> r.world == w1)
  {
    var (installed, w1) := RunCommand(env, w, "apt-get install -y " + ExtensionPackage(extension, version), true);
    if installed.code == 0 then
      var (_, w2) := RunCommand(env, w1, "systemctl restart php" + version + "-fpm", true);
      Done(true, "PHP extension installed: " + extension, w2)
    else Done(false, "Failed to install PHP extension: " + installed.stderr, w1)
  }

  /** The package name starts with the version's `php` prefix and ends
      with the extension. */
  lemma ExtensionPackageShape(extension: string, version: string)
    ensures StartsWith(ExtensionPackage(extension, version), "php" + version + "-")
    ensures EndsWith(ExtensionPackage(extension, version), "-" + extension)
  {
    var s := ExtensionPackage(extension, version);
    assert s[..|"php" + version + "-"|] == "php" + version + "-";
    assert s[|s| - |"-" + extension|..] == "-" + extension;
  }
}

=== FILE: projects.dfy ===
/** The project manager (core/project_manager.py).

    Projects are directories under the projects root. Directory listings
    come from a `Listing` function standing for `os.listdir`, which may
    raise (`None`); existence and "is a directory" are read off the world
    of the command bridge. */
module Projects {
  import opened Wrappers
  import opened Text
  import opened Bridge

  /** The project types the detector reports. */
  datatype Kind = Laravel | WordPress | Symfony | NodeJs | Python | Php | Html | Unknown

  /** The label the program shows for each type. */
  function KindLabel(k: Kind): string
  {
    match k
    case Laravel => "Laravel"
    case WordPress => "WordPress"
    case Symfony => "Symfony"
    case NodeJs => "Node.js"
    case Python => "Python"
    case Php => "PHP"
    case Html => "HTML"
    case Unknown => "Unknown"
  }

  /** `os.listdir`: the entry names of a directory, or `None` when it
      raises. */
  type Listing = string -> Option<seq<string>>

  /** One row of the project list. */
  datatype Project = Project(name: string, path: string, kind: Kind, url: string)

  /** The address a project is served at. */
  function ProjectUrl(name: string, extension: string): string
  {
    "http://" + name + extension
  }

  // ---------------------------------------------------------------------
  // Type detection

  /** `os.path.exists(os.path.join(dir, name))` */
  predicate HasFile(w: World, dir: string, name: string)
  {
    Exists(w, PathJoin(dir, name))
  }

  /** Some entry name ends with `suffix`. */
  predicate AnyEndsWith(names: seq<string>, suffix: string)
  {
    exists i :: 0 <= i < |names| && EndsWith(names[i], suffix)
  }

  /** The type a directory announces, given which names it holds and its
      listing (`None` when listing raises). Marker files are looked at
      first, in a fixed order, then the extensions of the entries; the
      listing is only needed when no marker is present. */
  function Classify(has: string -> bool, listed: Option<seq<string>>): (r: Option<Kind>)
    ensures r.None? ==> listed.None?
    ensures r == Some(Unknown) ==> listed.Some?
  {
    if has("artisan") then Some(Laravel)
    else if has("wp-config.php") then Some(WordPress)
    else if has("symfony.lock") then Some(Symfony)
    else if has("package.json") then Some(NodeJs)
    else if has("requirements.txt") then Some(Python)
    else
      match listed
      case None => None
      case Some(names) =>
        if AnyEndsWith(names, ".php") then Some(Php)
        else if AnyEndsWith(names, ".html") then Some(Html)
        else Some(Unknown)
  }

  /** _detect_project_type for the directory at `path`; `None` when
      `os.listdir` raises. */
  function Detect(w: World, listing: Listing, path: string): Option<Kind>
  {
    Classify(name => HasFile(w, path, name), listing(path))
  }

  /** The marker files in priority order, with the type each announces. */
  const Markers: seq<(string, Kind)> :=
    [("artisan", Laravel), ("wp-config.php", WordPress), ("symfony.lock", Symfony),
     ("package.json", NodeJs), ("requirements.txt", Python)]

  /** The type announced by the first marker present, if any. */
  function FirstMarker(has: string -> bool, markers: seq<(string, Kind)>): (r: Option<Kind>)
    ensures r.Some? <==> exists i :: 0 <= i < |markers| && has(markers[i].0)
  {
    if |markers| == 0 then None
    else if has(markers[0].0) then Some(markers[0].1)
    else
      var r := FirstMarker(has, markers[1..]);
      assert forall i :: 1 <= i < |markers| ==> markers[i] == markers[1..][i - 1];
      r
  }

  /** The type by extension alone. */
  function ByExtension(listed: Option<seq<string>>): Option<Kind>
  {
    match listed
    case None => None
    case Some(names) =>
      Some(if AnyEndsWith(names, ".php") then Php else if AnyEndsWith(names, ".html") then Html else Unknown)
  }

  /** The detector is the marker table read in order, then the extension
      rule. */
  lemma ClassifyByTable(has: string -> bool, listed: Option<seq<string>>)
    ensures Classify(has, listed) ==
      match FirstMarker(has, Markers)
      case Some(k) => Some(k)
      case None => ByExtension(listed)
  {
    var m := Markers;
    assert m[1..][1..][1..][1..][1..] == [];
  }

  /** A marker earlier in the table wins over every later one, whatever
      else the directory holds. */
  lemma MarkerPriority(has: string -> bool, listed: Option<seq<string>>, i: nat)
    requires i < |Markers|
    requires has(Markers[i].0)
    requires forall j :: 0 <= j < i ==> !has(Markers[j].0)
    ensures Classify(has, listed) == Some(Markers[i].1)
  {
    var m := Markers;
    if i == 1 {
      assert !has(m[0].0);
    } else if i == 2 {
      assert !has(m[0].0) && !has(m[1].0);
    } else if i == 3 {
      assert !has(m[0].0) && !has(m[1].0) && !has(m[2].0);
    } else if i == 4 {
      assert !has(m[0].0) && !has(m[1].0) && !has(m[2].0) && !has(m[3].0);
    }
  }

  // ---------------------------------------------------------------------
  // Listing the projects

  /** The directories among `items`, in order, with the type `kindOf`
      gives each; an entry whose type detection raises (`None`) ends the
      list there, since the loop's exception handler keeps what was
      gathered so far. */
  function Collect(w: World, kindOf: string -> Option<Kind>, root: string, items: seq<string>, extension: string): (r: seq<Project>)
    ensures |r| <= |items|
    ensures forall k :: 0 <= k < |r| ==>
      && r[k].path == PathJoin(root, r[k].name)
      && r[k].path in w.dirs
      && kindOf(r[k].path) == Some(r[k].kind)
      && r[k].url == ProjectUrl(r[k].name, extension)
    decreases |items|
  {
    if |items| == 0 then []
    else
      var path := PathJoin(root, items[0]);
      var rest := Collect(w, kindOf, root, items[1..], extension);
      if path !in w.dirs then rest
      else
        match kindOf(path)
        case None => []
        case Some(kind) => [Project(items[0], path, kind, ProjectUrl(items[0], extension))] + rest
  }

  /** get_projects: nothing when the root is missing or cannot be listed. */
  function GetProjects(w: World, listing: Listing, root: string, extension: string): (r: seq<Project>)
    ensures !Exists(w, root) ==> r == []
    ensures listing(root).None? ==> r == []
  {
    if !Exists(w, root) then []
    else
      match listing(root)
      case None => []
      case Some(items) => Collect(w, path => Detect(w, listing, path), root, items, extension)
  }

  /** The names of the entries of `items` that are directories, in order. */
  function Subdirectories(w: World, root: string, items: seq<string>): seq<string>
    decreases |items|
  {
    if |items| == 0 then []
    else (if PathJoin(root, items[0]) in w.dirs then [items[0]] else []) + Subdirectories(w, root, items[1..])
  }

  function Names(ps: seq<Project>): seq<string>
  {
    if |ps| == 0 then [] else [ps[0].name] + Names(ps[1..])
  }

  /** The project list names a prefix of the subdirectories, in listing
      order, and all of them when no type detection raises. */
  lemma CollectNamesSubdirectories(w: World, kindOf: string -> Option<Kind>, root: string, items: seq<string>, extension: string)
    ensures Names(Collect(w, kindOf, root, items, extension)) <= Subdirectories(w, root, items)
    ensures (forall i :: 0 <= i < |items| ==> kindOf(PathJoin(root, items[i])).Some?) ==>
      Names(Collect(w, kindOf, root, items, extension)) == Subdirectories(w, root, items)
  {
    CollectNamesPrefix(w, kindOf, root, items, extension);
    if forall i :: 0 <= i < |items| ==> kindOf(PathJoin(root, items[i])).Some? {
      CollectNamesAll(w, kindOf, root, items, extension);
    }
  }

  lemma {:induction false} CollectNamesPrefix(w: World, kindOf: string -> Option<Kind>, root: string, items: seq<string>, extension: string)
    ensures Names(Collect(w, kindOf, root, items, extension)) <= Subdirectories(w, root, items)
    decreases |items|
  {
    if |items| > 0 {
      CollectNamesPrefix(w, kindOf, root, items[1..], extension);
      var path := PathJoin(root, items[0]);
      if path in w.dirs && kindOf(path).Some? {
        var rest := Collect(w, kindOf, root, items[1..], extension);
        var p := Project(items[0], path, kindOf(path).value, ProjectUrl(items[0], extension));
        NamesCons(p, rest);
      }
    }
  }

  lemma {:induction false} CollectNamesAll(w: World, kindOf: string -> Option<Kind>, root: string, items: seq<string>, extension: string)
    requires forall i :: 0 <= i < |items| ==> kindOf(PathJoin(root, items[i])).Some?
    ensures Names(Collect(w, kindOf, root, items, extension)) == Subdirectories(w, root, items)
    decreases |items|
  {
    if |items| > 0 {
      forall i | 0 <= i < |items[1..]| ensures kindOf(PathJoin(root, items[1..][i])).Some? {
        assert items[1..][i] == items[i + 1];
      }
      CollectNamesAll(w, kindOf, root, items[1..], extension);
      var path := PathJoin(root, items[0]);
      assert kindOf(path).Some?;
      if path in w.dirs {
        var rest := Collect(w, kindOf, root, items[1..], extension);
        var p := Project(items[0], path, kindOf(path).value, ProjectUrl(items[0], extension));
        NamesCons(p, rest);
      }
    }
  }

  lemma NamesCons(p: Project, ps: seq<Project>)
    ensures Names([p] + ps) == [p.name] + Names(ps)
  {
    assert ([p] + ps)[1..] == ps;
  }

  /** The page a project row links to is the one the browser action
      opens. */
  lemma ListedUrlIsOpened(env: Env, w: World, listing: Listing, root: string, extension: string, k: nat)
    requires k < |GetProjects(w, listing, root, extension)|
    ensures var p := GetProjects(w, listing, root, extension)[k];
      OpenInBrowser(env, w, p.name, extension).world.log ==
        w.log + [Effective(env, "xdg-open " + DoubleQuoted(p.url), false)]
  {
  }

  // ---------------------------------------------------------------------
  // Creating and deleting

  /** What create_project leaves: a result, or the world as it stood when
      `os.makedirs` or `open` raised, which the method does not catch. */
  datatype Created = Finished(done: Done) | Escaped(world: World)

  const PhpIndex := "<?php\nphpinfo();\n?>"

  const HtmlHead := "<!DOCTYPE html>\n<html lang=\"en\">\n<head>\n    <meta charset=\"UTF-8\">\n    <meta name=\"viewport\" content=\"width=device-width, initial-scale=1.0\">\n    "
  const HtmlMiddle := "\n</head>\n<body>\n    "
  const HtmlTail := "\n</body>\n</html>"

  /** The `index.html` of a new HTML project: the name fills the title and
      the heading. */
  function HtmlIndex(name: string): string
  {
    HtmlHead + ("<title>" + name + "</title>") + HtmlMiddle + ("<h1>Welcome to " + name + "</h1>") + HtmlTail
  }

  lemma HtmlIndexNames(name: string)
    ensures Contains(HtmlIndex(name), "<title>" + name + "</title>")
    ensures Contains(HtmlIndex(name), "<h1>Welcome to " + name + "</h1>")
  {
    var title := "<title>" + name + "</title>";
    var heading := "<h1>Welcome to " + name + "</h1>";
    ContainsInfix(HtmlHead, title, HtmlMiddle + heading + HtmlTail);
    assert HtmlIndex(name) == HtmlHead + title + (HtmlMiddle + heading + HtmlTail);
    ContainsInfix(HtmlHead + title + HtmlMiddle, heading, HtmlTail);
  }

  function LaravelCommand(path: string): string
  {
    "composer create-project laravel/laravel " + DoubleQuoted(path)
  }

  function WordPressCommand(path: string): string
  {
    "wget -O /tmp/wordpress.tar.gz https://wordpress.org/latest.tar.gz && "
    + "tar -xzf /tmp/wordpress.tar.gz -C /tmp && "
    + "mv /tmp/wordpress/* \"" + path + "/\" && "
    + "rm -rf /tmp/wordpress /tmp/wordpress.tar.gz"
  }

  /** `open(path, 'w').write(content)`, which raises on a locked path and
      on a directory. */
  function WriteNew(w: World, path: string, content: string): Created
  {
    if path in w.locked || path in w.dirs then Escaped(w) else Finished(Done(true, "", w.(files := w.files[path := content])))
  }

  /** create_project. The directory, with every missing ancestor, is made
      before the type is looked at, so an unsupported type leaves an empty
      directory behind. */
  function CreateProject(env: Env, w: World, root: string, name: string, projectType: string): (r: Created)
    ensures var path := PathJoin(root, name);
      && (Exists(w, path) ==> r == Finished(Done(false, "Project already exists: " + name, w)))
      && (!Exists(w, path) && MakedirsBlocked(w, path) ==> r == Escaped(w))
      && (!Exists(w, path) && r.Finished? ==> r.done.world.dirs == w.dirs + Lineage(path))
      && (r.Finished? && r.done.ok ==> path in r.done.world.dirs)
      && (!Exists(w, path) && !MakedirsBlocked(w, path) && projectType !in {"empty", "laravel", "wordpress", "html"} ==>
            r == Finished(Done(false, "Unsupported project type: " + projectType, w.(dirs := w.dirs + Lineage(path)))))
  {
    var path := PathJoin(root, name);
    if Exists(w, path) then Finished(Done(false, "Project already exists: " + name, w))
    else if MakedirsBlocked(w, path) then Escaped(w)
    else Populate(env, w.(dirs := w.dirs + Lineage(path)), path, name, projectType)
  }

  /** Creating the first project under a projects root that does not exist
      yet makes the root too, so the project list can then find it. */
  lemma CreateMakesRoot(env: Env, w: World, root: string, name: string, projectType: string)
    requires |root| > 0 && root[|root| - 1] != '/'
    requires |name| > 0 && name[0] != '/'
    ensures var r := CreateProject(env, w, root, name, projectType);
      !Exists(w, PathJoin(root, name)) && r.Finished? ==>
        && root in r.done.world.dirs
        && Lineage(root) <= r.done.world.dirs
        && PathJoin(root, name) in r.done.world.dirs
  {
    JoinedLineage(root, name);
  }

  /** The part of create_project after the directory exists: what goes
      into it depends on the type. Empty and HTML projects cannot fail
      once written; the two downloaded kinds run exactly one command. */
  function Populate(env: Env, w: World, path: string, name: string, projectType: string): (r: Created)
    ensures r.Finished? ==> r.done.world.dirs == w.dirs
    ensures projectType !in {"empty", "laravel", "wordpress", "html"} ==>
      r == Finished(Done(false, "Unsupported project type: " + projectType, w))
    ensures (projectType == "empty" || projectType == "html") && r.Finished? ==> r.done.ok
    ensures (projectType == "laravel" || projectType == "wordpress") ==>
      r.Finished? && |r.done.world.log| == |w.log| + 1
  {
    if projectType == "empty" || projectType == "html" then Page(w, path, name, projectType == "html")
    else if projectType == "laravel" || projectType == "wordpress" then
      Fetch(env, w, path, name, projectType == "laravel")
    else Finished(Done(false, "Unsupported project type: " + projectType, w))
  }

  /** The two kinds that are written rather than fetched: an HTML page, or
      otherwise the PHP information page. */
  function Page(w: World, path: string, name: string, html: bool): (r: Created)
    ensures r.Finished? ==> r.done.ok && r.done.world.dirs == w.dirs
  {
    if html then WriteIndex(w, PathJoin(path, "index.html"), HtmlIndex(name), "HTML project created: " + name)
    else WriteIndex(w, PathJoin(path, "index.php"), PhpIndex, "Empty project created: " + name)
  }

  /** Writing a project's index page: it either raises or succeeds. */
  function WriteIndex(w: World, file: string, content: string, message: string): (r: Created)
    ensures r.Escaped? <==> file in w.locked || file in w.dirs
    ensures r.Finished? ==> r.done == Done(true, message, w.(files := w.files[file := content]))
    ensures r.Finished? ==> r.done.ok && r.done.world.dirs == w.dirs
  {
    match WriteNew(w, file, content)
    case Escaped(w2) => Escaped(w2)
    case Finished(d) => Finished(Done(true, message, d.world))
  }

  /** The two kinds that are fetched rather than written: a Laravel
      project through Composer, otherwise WordPress. */
  function Fetch(env: Env, w: World, path: string, name: string, laravel: bool): (r: Created)
    ensures r.Finished? && r.done.world.dirs == w.dirs && |r.done.world.log| == |w.log| + 1
    ensures r.done.world.log[|w.log|] == Effective(env, if laravel then LaravelCommand(path) else WordPressCommand(path), false)
  {
    if laravel then
      Download(env, w, LaravelCommand(path), "Laravel project created: " + name, "Failed to create Laravel project: ")
    else
      Download(env, w, WordPressCommand(path), "WordPress project created: " + name, "Failed to create WordPress project: ")
  }

  /** Fetching a project with one command: success is its exit status. */
  function Download(env: Env, w: World, command: string, success: string, failure: string): (r: Created)
    ensures var (reply, w1) := RunCommand(env, w, command, false);
      r == Finished(Done(reply.code == 0, if reply.code == 0 then success else failure + reply.stderr, w1))
    ensures r.Finished? && r.done.world.dirs == w.dirs && |r.done.world.log| == |w.log| + 1
  {
    var (reply, w1) := RunCommand(env, w, command, false);
    if reply.code == 0 then Finished(Done(true, success, w1))
    else Finished(Done(false, failure + reply.stderr, w1))
  }

  /** A new empty or HTML project holds its index page under the new
      directory, and the HTML page carries the project name. */
  lemma CreatedIndex(env: Env, w: World, root: string, name: string, projectType: string)
    requires projectType == "empty" || projectType == "html"
    requires CreateProject(env, w, root, name, projectType).Finished?
    requires CreateProject(env, w, root, name, projectType).done.ok
    ensures var path := PathJoin(root, name);
      var files := CreateProject(env, w, root, name, projectType).done.world.files;
      && (projectType == "empty" ==>
            PathJoin(path, "index.php") in files && files[PathJoin(path, "index.php")] == PhpIndex)
      && (projectType == "html" ==>
            PathJoin(path, "index.html") in files
            && Contains(files[PathJoin(path, "index.html")], "<title>" + name + "</title>")
            && Contains(files[PathJoin(path, "index.html")], "<h1>Welcome to " + name + "</h1>"))
  {
    HtmlIndexNames(name);
  }

  /** delete_project: a missing project is reported before any command
      runs; otherwise success is the exit status of `rm -rf`. */
  function DeleteProject(env: Env, w: World, root: string, name: string): (r: Done)
    ensures !Exists(w, PathJoin(root, name)) ==> r == Done(false, "Project not found: " + name, w)
    ensures Exists(w, PathJoin(root, name)) ==>
      var (reply, w1) := RunCommand(env, w, "rm -rf " + DoubleQuoted(PathJoin(root, name)), false);
      r.world == w1 && (r.ok <==> reply.code == 0)
  {
    var path := PathJoin(root, name);
    if !Exists(w, path) then Done(false, "Project not found: " + name, w)
    else
      var (reply, w1) := RunCommand(env, w, "rm -rf " + DoubleQuoted(path), false);
      if reply.code == 0 then Done(true, "Project deleted: " + name, w1)
      else Done(false, "Failed to delete project: " + reply.stderr, w1)
  }

  /** open_in_browser: hands the project's address to `xdg-open`. */
  function OpenInBrowser(env: Env, w: World, name: string, extension: string): (r: Done)
    ensures r.world == w.(log := w.log + [Direct("xdg-open " + DoubleQuoted(ProjectUrl(name, extension)))])
    ensures r.ok <==> RunCommand(env, w, "xdg-open " + DoubleQuoted(ProjectUrl(name, extension)), false).0.code == 0
  {
    var url := ProjectUrl(name, extension);
    var (reply, w1) := RunCommand(env, w, "xdg-open " + DoubleQuoted(url), false);
    if reply.code == 0 then Done(true, "Opened in browser: " + url, w1)
    else Done(false, "Failed to open browser: " + reply.stderr, w1)
  }
}

=== FILE: services.dfy ===
/** The service manager (core/service_manager.py): systemd queries and
    actions through the command bridge, and two fixed tables. */
module Services {
  import opened Wrappers
  import opened Text
  import opened JsonTree
  import opened Validators
  import opened Bridge

  /** The statuses the manager can report. `Error` is documented by the
      program but never produced. */
  datatype Status = Running | Stopped | NotInstalled | Error

  function StatusLabel(s: Status): string
  {
    match s
    case Running => "running"
    case Stopped => "stopped"
    case NotInstalled => "not_installed"
    case Error => "error"
  }

  /** The services the manager knows, with their descriptions, in the
      order the program lists them. */
  const Known: seq<(string, string)> := [
    ("apache2", "Apache Web Server"),
    ("nginx", "Nginx Web Server"),
    ("mysql", "MySQL Database"),
    ("mariadb", "MariaDB Database"),
    ("postgresql", "PostgreSQL Database"),
    ("redis-server", "Redis Cache"),
    ("mongodb", "MongoDB Database"),
    ("php8.5-fpm", "PHP 8.5 FPM"),
    ("php8.2-fpm", "PHP 8.2 FPM"),
    ("php8.1-fpm", "PHP 8.1 FPM"),
    ("php8.0-fpm", "PHP 8.0 FPM"),
    ("php7.4-fpm", "PHP 7.4 FPM")]

  // ---------------------------------------------------------------------
  // Queries

  /** get_service_status: `systemctl is-active`; when that fails, whether
      the unit file exists tells a stopped service from a missing one. */
  function GetStatus(env: Env, w: World, name: string): (r: (Status, World))
    ensures r.0 != Error
    ensures var (active, w1) := RunCommand(env, w, "systemctl is-active " + name, false);
      && (active.code == 0 ==> r.1 == w1 && (r.0 == Running <==> Strip(active.stdout) == "active") && r.0 != NotInstalled)
      && (active.code != 0 ==>
            var (listed, w2) := RunCommand(env, w1, "systemctl list-unit-files " + name + ".service", false);
            r.1 == w2 && r.0 != Running && (r.0 == NotInstalled <==> listed.code != 0))
  {
    var (active, w1) := RunCommand(env, w, "systemctl is-active " + name, false);
    if active.code == 0 then
      (if Strip(active.stdout) == "active" then Running else Stopped, w1)
    else
      var (listed, w2) := RunCommand(env, w1, "systemctl list-unit-files " + name + ".service", false);
      (if listed.code == 0 then Stopped else NotInstalled, w2)
  }

  /** is_enabled */
  function IsEnabled(env: Env, w: World, name: string): (r: (bool, World))
    ensures var (reply, w1) := RunCommand(env, w, "systemctl is-enabled " + name, false);
      r.1 == w1 && (r.0 <==> reply.code == 0 && Strip(reply.stdout) == "enabled")
  {
    var (reply, w1) := RunCommand(env, w, "systemctl is-enabled " + name, false);
    (reply.code == 0 && Strip(reply.stdout) == "enabled", w1)
  }

  // ---------------------------------------------------------------------
  // Actions

  datatype Action = Start | Stop | Restart | Enable | Disable

  function Verb(a: Action): string
  {
    match a
    case Start => "start"
    case Stop => "stop"
    case Restart => "restart"
    case Enable => "enable"
    case Disable => "disable"
  }

  function SuccessMessage(a: Action, name: string): string
  {
    match a
    case Start => "Service " + name + " started successfully"
    case Stop => "Service " + name + " stopped successfully"
    case Restart => "Service " + name + " restarted successfully"
    case Enable => "Service " + name + " enabled for auto-start"
    case Disable => "Service " + name + " disabled from auto-start"
  }

  /** start_service, stop_service, restart_service, enable_service and
      disable_service: one privileged `systemctl <verb> <name>`. */
  function Control(env: Env, w: World, name: string, a: Action): (r: Done)
    ensures var (reply, w1) := RunCommand(env, w, "systemctl " + Verb(a) + " " + name, true);
      && r.world == w1
      && (r.ok <==> reply.code == 0)
      && (!r.ok ==> r.message == "Failed to " + Verb(a) + " " + name + ": " + reply.stderr)
  {
    var (reply, w1) := RunCommand(env, w, "systemctl " + Verb(a) + " " + name, true);
    if reply.code == 0 then Done(true, SuccessMessage(a, name), w1)
    else Done(false, "Failed to " + Verb(a) + " " + name + ": " + reply.stderr, w1)
  }

  /** An action started as root runs `systemctl` itself; otherwise it goes
      through `pkexec`, and a dismissed password prompt reads as a failure
      whose message ends with the cancellation notice. */
  lemma ControlCancelled(env: Env, w: World, name: string, a: Action)
    requires env.oracle(|w.log|, Effective(env, "systemctl " + Verb(a) + " " + name, true)) ==
      Exited(126, "", "")
    ensures var r := Control(env, w, name, a);
      !r.ok && EndsWith(r.message, AuthCancelled)
  {
  }

  // ---------------------------------------------------------------------
  // All services

  datatype Entry = Entry(description: string, status: Status, enabled: bool)

  /** One row of get_all_services_status: a missing service is reported
      as not enabled without asking `systemctl is-enabled`. */
  function ServiceEntry(env: Env, w: World, name: string, description: string): (r: (Entry, World))
    ensures r.0.description == description
    ensures var (status, w1) := GetStatus(env, w, name);
      && r.0.status == status
      && (status == NotInstalled ==> !r.0.enabled && r.1 == w1)
      && (status != NotInstalled ==> (r.0.enabled, r.1) == IsEnabled(env, w1, name))
  {
    var (status, w1) := GetStatus(env, w, name);
    if status == NotInstalled then (Entry(description, NotInstalled, false), w1)
    else
      var (enabled, w2) := IsEnabled(env, w1, name);
      (Entry(description, status, enabled), w2)
  }

  function Names(services: seq<(string, string)>): set<string>
  {
    set i | 0 <= i < |services| :: services[i].0
  }

  /** The rows for `services`, in order, added to `acc`; a later row for the
      same name replaces an earlier one, as dictionary assignment does. */
  function Statuses(env: Env, w: World, services: seq<(string, string)>, acc: map<string, Entry>): (r: (map<string, Entry>, World))
    requires forall n :: n in acc ==> acc[n].status != Error && (acc[n].status == NotInstalled ==> !acc[n].enabled)
    ensures r.0.Keys == acc.Keys + Names(services)
    ensures forall n :: n in r.0 ==> r.0[n].status != Error
    ensures forall n :: n in r.0 && r.0[n].status == NotInstalled ==> !r.0[n].enabled
    decreases |services|
  {
    if |services| == 0 then (acc, w)
    else
      var (entry, w1) := ServiceEntry(env, w, services[0].0, services[0].1);
      assert Names(services) == {services[0].0} + Names(services[1..]) by {
        forall n | n in Names(services) ensures n in {services[0].0} + Names(services[1..]) {
          var i :| 0 <= i < |services| && services[i].0 == n;
          if i > 0 { assert services[1..][i - 1].0 == n; }
        }
      }
      Statuses(env, w1, services[1..], acc[services[0].0 := entry])
  }

  /** No service name occurs twice. */
  predicate DistinctNames(services: seq<(string, string)>)
  {
    forall i, j :: 0 <= i < j < |services| ==> services[i].0 != services[j].0
  }

  /** No service is listed twice in the table. */
  lemma KnownDistinct()
    ensures DistinctNames(Known)
  {
  }

  /** get_all_services_status: one row per known service. */
  function AllStatuses(env: Env, w: World): (r: (map<string, Entry>, World))
    ensures r.0.Keys == Names(Known)
  {
    Statuses(env, w, Known, map[])
  }

  /** Each known service's row holds what `get_service_status` and
      `is_enabled` answer for it once the services before it have been
      asked about. */
  lemma AllStatusesRows(env: Env, w: World)
    ensures RowsFromEntries(env, w, Known, map[], AllStatuses(env, w).0)
  {
    KnownDistinct();
    StatusesRows(env, w, Known, map[]);
  }

  /** Every service has a row, and it is the one `ServiceEntry` computes
      for it on the world left by the services before it. */
  predicate RowsFromEntries(env: Env, w: World, services: seq<(string, string)>, acc: map<string, Entry>, rows: map<string, Entry>)
    requires forall n :: n in acc ==> acc[n].status != Error && (acc[n].status == NotInstalled ==> !acc[n].enabled)
  {
    forall k :: 0 <= k < |services| ==>
      && services[k].0 in rows
      && rows[services[k].0] == ServiceEntry(env, Statuses(env, w, services[..k], acc).1, services[k].0, services[k].1).0
  }

  /** For distinct services, every row is the one its service produced. */
  lemma StatusesRows(env: Env, w: World, services: seq<(string, string)>, acc: map<string, Entry>)
    requires forall n :: n in acc ==> acc[n].status != Error && (acc[n].status == NotInstalled ==> !acc[n].enabled)
    requires DistinctNames(services)
    ensures RowsFromEntries(env, w, services, acc, Statuses(env, w, services, acc).0)
  {
    forall k | 0 <= k < |services|
      ensures services[k].0 in Statuses(env, w, services, acc).0
      ensures Statuses(env, w, services, acc).0[services[k].0] == ServiceEntry(env, Statuses(env, w, services[..k], acc).1, services[k].0, services[k].1).0
    {
      StatusesLastWins(env, w, services, acc, k);
    }
  }

  /** The row kept for a name is the one its last occurrence produced, on
      the world left by the services before it: the status and enabled
      flag `ServiceEntry` computes there, and that occurrence's
      description. */
  lemma {:induction false} StatusesLastWins(env: Env, w: World, services: seq<(string, string)>, acc: map<string, Entry>, k: nat)
    requires forall n :: n in acc ==> acc[n].status != Error && (acc[n].status == NotInstalled ==> !acc[n].enabled)
    requires k < |services|
    requires forall j :: k < j < |services| ==> services[j].0 != services[k].0
    ensures var r := Statuses(env, w, services, acc);
      var before := Statuses(env, w, services[..k], acc).1;
      && services[k].0 in r.0
      && r.0[services[k].0] == ServiceEntry(env, before, services[k].0, services[k].1).0
    decreases |services|
  {
    var (entry, w1) := ServiceEntry(env, w, services[0].0, services[0].1);
    var acc1 := acc[services[0].0 := entry];
    if k == 0 {
      assert services[..0] == [];
      StatusesKeeps(env, w1, services[1..], acc1, services[0].0);
    } else {
      assert services[..k][0] == services[0];
      assert services[..k][1..] == services[1..][..k - 1];
      forall j | k - 1 < j < |services[1..]| ensures services[1..][j].0 != services[1..][k - 1].0 {
        assert services[1..][j] == services[j + 1];
      }
      StatusesLastWins(env, w1, services[1..], acc1, k - 1);
    }
  }

  /** A name that no later service mentions keeps its row. */
  lemma {:induction false} StatusesKeeps(env: Env, w: World, services: seq<(string, string)>, acc: map<string, Entry>, n: string)
    requires forall m :: m in acc ==> acc[m].status != Error && (acc[m].status == NotInstalled ==> !acc[m].enabled)
    requires n in acc
    requires forall j :: 0 <= j < |services| ==> services[j].0 != n
    ensures n in Statuses(env, w, services, acc).0
    ensures Statuses(env, w, services, acc).0[n] == acc[n]
    decreases |services|
  {
    if |services| > 0 {
      var (entry, w1) := ServiceEntry(env, w, services[0].0, services[0].1);
      forall j | 0 <= j < |services[1..]| ensures services[1..][j].0 != n {
        assert services[1..][j] == services[j + 1];
      }
      StatusesKeeps(env, w1, services[1..], acc[services[0].0 := entry], n);
    }
  }

  // ---------------------------------------------------------------------
  // Ports

  /** get_service_port's table. */
  const Ports: map<string, int> := map[
    "apache2" := 80, "nginx" := 80, "mysql" := 3306, "mariadb" := 3306,
    "postgresql" := 5432, "redis-server" := 6379, "mongodb" := 27017]

  /** get_service_port: `None` for a service without a known port. */
  function Port(name: string): (r: Option<int>)
    ensures r.Some? <==> name in Ports
    ensures r.Some? ==> r.value == Ports[name]
  {
    if name in Ports then Some(Ports[name]) else None
  }

  /** Every port of the table is one the port validator accepts. */
  lemma PortsValid(name: string)
    requires Port(name).Some?
    ensures ValidatePort(JInt(Port(name).value))
  {
  }

  /** Every service with a port is a known service; the PHP FPM services
      are known but have none. */
  lemma PortsOfKnownServices(name: string)
    ensures Port(name).Some? ==> name in Names(Known)
    ensures name in {"php8.5-fpm", "php8.2-fpm", "php8.1-fpm", "php8.0-fpm", "php7.4-fpm"} ==>
      name in Names(Known) && Port(name).None?
  {
    var k := Known;
    assert k[0].0 == "apache2" && k[1].0 == "nginx" && k[2].0 == "mysql" && k[3].0 == "mariadb";
    assert k[4].0 == "postgresql" && k[5].0 == "redis-server" && k[6].0 == "mongodb";
    assert k[7].0 == "php8.5-fpm" && k[8].0 == "php8.2-fpm" && k[9].0 == "php8.1-fpm";
    assert k[10].0 == "php8.0-fpm" && k[11].0 == "php7.4-fpm";
  }
}

=== FILE: terminal.dfy ===
/** The terminal panel (gui/terminal_widget.py): the command history that
    the arrow keys walk through, the history update when a command is
    run, and the environment the command runs in. Widgets, colours and
    the child process itself are left out. */
module Terminal {
  import opened Wrappers
  import opened Text
  import opened Bridge
  import Projects

  /** The state the history keys and the run button share: the commands
      run so far, the position in them, and the text of the input line. */
  datatype Session = Session(history: seq<string>, index: int, input: string)

  /** A fresh panel: no history, position before the start. */
  const Fresh := Session([], -1, "")

  /** What the panel keeps true: the position is within the history or
      one past its end (or the initial -1); every entry is a stripped,
      non-empty command; no command follows itself. */
  predicate Valid(s: Session)
  {
    -1 <= s.index <= |s.history| && GoodHistory(s.history)
  }

  /** Every entry is a stripped, non-empty command and no command follows
      itself. */
  predicate GoodHistory(h: seq<string>)
  {
    Commands(h) && NoRepeat(h)
  }

  predicate Commands(h: seq<string>)
  {
    forall c | c in h :: Command(c)
  }

  predicate NoRepeat(h: seq<string>)
  {
    forall i :: 0 < i < |h| ==> h[i - 1] != h[i]
  }

  /** A command as the history records it. */
  predicate Command(c: string)
  {
    c != "" && Strip(c) == c
  }

  lemma FreshValid()
    ensures Valid(Fresh)
  {
  }

  // ---------------------------------------------------------------------
  // Walking the history

  /** navigate_history: the up key passes -1, the down key +1. The
      position stops at the first command; moving past the last one
      empties the input line. */
  function Navigate(s: Session, direction: int): (r: Session)
    ensures r.history == s.history
    ensures |s.history| == 0 ==> r == s
    ensures |s.history| > 0 ==> 0 <= r.index <= |s.history|
    ensures |s.history| > 0 && 0 <= s.index + direction < |s.history| ==> r.index == s.index + direction
    ensures |s.history| > 0 && s.index + direction < 0 ==> r.index == 0
    ensures |s.history| > 0 && s.index + direction >= |s.history| ==> r.index == |s.history|
    ensures |s.history| > 0 && r.index < |s.history| ==> r.input == s.history[r.index]
    ensures |s.history| > 0 && r.index == |s.history| ==> r.input == ""
  {
    if |s.history| == 0 then s
    else
      var i := s.index + direction;
      if i < 0 then s.(index := 0, input := s.history[0])
      else if i >= |s.history| then s.(index := |s.history|, input := "")
      else s.(index := i, input := s.history[i])
  }

  lemma NavigateValid(s: Session, direction: int)
    requires Valid(s)
    ensures Valid(Navigate(s, direction))
  {
  }

  /** Going up and then down again returns to where the walk was, and
      the input line shows that entry (or nothing past the end). */
  lemma UpThenDown(s: Session)
    requires Valid(s) && 1 <= s.index <= |s.history|
    ensures var r := Navigate(Navigate(s, -1), 1);
      && r.index == s.index
      && r.input == (if s.index < |s.history| then s.history[s.index] else "")
  {
  }

  /** At either end a further step in the same direction changes
      nothing. */
  lemma NavigateStops(s: Session)
    requires Valid(s) && |s.history| > 0
    ensures var top := Navigate(s, -(s.index + 1));
      top.index == 0 && Navigate(top, -1) == top
    ensures var bottom := Navigate(s, |s.history| - s.index);
      bottom.index == |s.history| && Navigate(bottom, 1) == bottom
  {
  }

  // ---------------------------------------------------------------------
  // Running a command

  /** The history and input part of execute_command: the input line is
      stripped; an empty command does nothing; otherwise it joins the
      history unless it repeats the last entry, the position moves past
      the end and the input line is cleared. The command to run is
      returned. */
  function Execute(s: Session): (r: (Session, Option<string>))
    ensures r.1.None? <==> Strip(s.input) == ""
    ensures r.1.None? ==> r.0 == s
    ensures r.1.Some? ==>
      && r.1.value == Strip(s.input)
      && r.0.input == ""
      && r.0.index == |r.0.history|
      && |r.0.history| > 0 && r.0.history[|r.0.history| - 1] == r.1.value
      && (r.0.history == s.history + [r.1.value] <==> (|s.history| == 0 || s.history[|s.history| - 1] != r.1.value))
      && (r.0.history == s.history <==> (|s.history| > 0 && s.history[|s.history| - 1] == r.1.value))
  {
    var command := Strip(s.input);
    if command == "" then (s, None)
    else
      var history := if |s.history| == 0 || s.history[|s.history| - 1] != command then s.history + [command] else s.history;
      (Session(history, |history|, ""), Some(command))
  }

  lemma ExecuteValid(s: Session)
    requires Valid(s)
    ensures Valid(Execute(s).0)
  {
    var command := Strip(s.input);
    if command != "" {
      StripIdempotent(s.input);
      if |s.history| == 0 || s.history[|s.history| - 1] != command {
        AppendGood(s.history, command);
      }
    }
  }

  /** Recording a command that differs from the last entry keeps the
      history well formed. */
  lemma AppendGood(h: seq<string>, c: string)
    requires GoodHistory(h) && Command(c)
    requires |h| == 0 || h[|h| - 1] != c
    ensures GoodHistory(h + [c])
  {
    AppendCommand(h, c);
    AppendNoRepeat(h, c);
  }

  lemma AppendCommand(h: seq<string>, c: string)
    requires Commands(h) && Command(c)
    ensures Commands(h + [c])
  {
    AppendAll(h, c, Command);
  }

  /** A property every element of `h` and also `c` have, every element of
      `h + [c]` has. */
  lemma AppendAll<T>(h: seq<T>, c: T, p: T -> bool)
    requires forall x | x in h :: p(x)
    requires p(c)
    ensures forall x | x in h + [c] :: p(x)
  {
    forall x | x in h + [c] ensures p(x) {
      if x !in h { assert x == c; }
    }
  }

  lemma AppendNoRepeat(h: seq<string>, c: string)
    requires NoRepeat(h)
    requires |h| == 0 || h[|h| - 1] != c
    ensures NoRepeat(h + [c])
  {
    var h2 := h + [c];
    forall i | 0 < i < |h2| ensures h2[i - 1] != h2[i] {
      if i < |h| {
        assert h2[i - 1] == h[i - 1] && h2[i] == h[i];
      } else {
        assert h2[i - 1] == h[|h| - 1] && h2[i] == c;
      }
    }
  }

  /** Stripping twice is stripping once. */
  lemma StripIdempotent(s: string)
    ensures Strip(Strip(s)) == Strip(s)
  {
    StripCharsIdentity(Strip(s), Whitespace);
  }

  /** After a command runs, the up key brings it back. */
  lemma RecallLast(s: Session)
    ensures Strip(s.input) != "" ==> Navigate(Execute(s).0, -1).input == Strip(s.input)
  {
  }

  /** Running the same command twice in a row records it once. */
  lemma RepeatRecordedOnce(s: Session)
    requires Strip(s.input) != ""
    ensures var first := Execute(s).0;
      Execute(first.(input := s.input)).0.history == first.history
  {
  }

  // ---------------------------------------------------------------------
  // Where and how the command runs

  /** The working directory: the selected project's path, or the home
      directory (`home` stands for the expanded `~`). */
  function WorkingDirectory(project: Option<Projects.Project>, home: string): (r: string)
    ensures project.Some? ==> r == project.value.path
    ensures project.None? ==> r == home
  {
    match project
    case Some(p) => p.path
    case None => home
  }

  /** The directory of a project's Node.js command-line tools. */
  function NodeBin(path: string): string { PathJoin(PathJoin(path, "node_modules"), ".bin") }

  /** The directory of a project's Composer command-line tools. */
  function VendorBin(path: string): string { PathJoin(PathJoin(path, "vendor"), "bin") }

  /** `PATH` as the environment has it, empty when unset. */
  function SearchPath(env: map<string, string>): string
  {
    if "PATH" in env then env["PATH"] else ""
  }

  /** Putting a directory in front of the search path. */
  function Prepend(env: map<string, string>, dir: string): (r: map<string, string>)
    ensures r.Keys == env.Keys + {"PATH"}
    ensures r["PATH"] == dir + ":" + SearchPath(env)
    ensures forall k :: k in env && k != "PATH" ==> r[k] == env[k]
  {
    env["PATH" := dir + ":" + SearchPath(env)]
  }

  /** The process environment of execute_command. It starts from the
      environment of a new `QProcess`, which is empty. Left empty (no
      project), it makes the child inherit `parent`, the program's own
      environment. With a project, the project's root, name and type are
      put in it, then the Node.js tools and the Composer tools go in front
      of its (empty) search path, each only when its directory exists;
      nothing is inherited. */
  function ProcessEnvironment(w: World, parent: map<string, string>, project: Option<Projects.Project>): (r: map<string, string>)
    ensures project.None? ==> r == parent
    ensures project.Some? ==> r.Keys <= ProjectKeys
  {
    match project
    case None => parent
    case Some(p) =>
      var hasNode := Exists(w, NodeBin(p.path));
      var hasVendor := Exists(w, VendorBin(p.path));
      ProjectOnly(p, hasNode, hasVendor);
      ProjectEnvironment(map[], p, hasNode, hasVendor)
  }

  /** The environment of a run inside project `p`, given which of its two
      tool directories exist. */
  function ProjectEnvironment(base: map<string, string>, p: Projects.Project, hasNode: bool, hasVendor: bool): (r: map<string, string>)
  {
    var tagged := base["PROJECT_ROOT" := p.path]["PROJECT_NAME" := p.name]["PROJECT_TYPE" := Projects.KindLabel(p.kind)];
    var withNode := if hasNode then Prepend(tagged, NodeBin(p.path)) else tagged;
    if hasVendor then Prepend(withNode, VendorBin(p.path)) else withNode
  }

  /** The names a project run adds to the environment. */
  const ProjectKeys: set<string> := {"PROJECT_ROOT", "PROJECT_NAME", "PROJECT_TYPE", "PATH"}

  /** With a project, its details are exported. */
  lemma ProjectExported(base: map<string, string>, p: Projects.Project, hasNode: bool, hasVendor: bool)
    ensures var r := ProjectEnvironment(base, p, hasNode, hasVendor);
      && r["PROJECT_ROOT"] == p.path
      && r["PROJECT_NAME"] == p.name
      && r["PROJECT_TYPE"] == Projects.KindLabel(p.kind)
  {
    assert "PROJECT_ROOT"[8] != "PROJECT_NAME"[8] && "PROJECT_ROOT"[8] != "PROJECT_TYPE"[8];
    assert "PROJECT_NAME"[8] != "PROJECT_TYPE"[8];
    assert |"PATH"| != |"PROJECT_ROOT"|;
  }

  /** Started from the empty environment, a project run sees the three
      project variables and, only when a tool directory exists, `PATH`;
      nothing else. */
  lemma ProjectOnly(p: Projects.Project, hasNode: bool, hasVendor: bool)
    ensures var r := ProjectEnvironment(map[], p, hasNode, hasVendor);
      r.Keys == {"PROJECT_ROOT", "PROJECT_NAME", "PROJECT_TYPE"} + (if hasNode || hasVendor then {"PATH"} else {})
  {
  }

  /** The search path of a project run that starts from the empty
      environment: the existing tool directories, Composer's first, each
      followed by a colon, ending in the empty entry the unset `PATH`
      leaves. */
  lemma EmptyStartPath(p: Projects.Project, hasNode: bool, hasVendor: bool)
    ensures var r := ProjectEnvironment(map[], p, hasNode, hasVendor);
      var node := NodeBin(p.path);
      var vendor := VendorBin(p.path);
      && (hasNode && hasVendor ==> r["PATH"] == vendor + ":" + node + ":")
      && (hasNode && !hasVendor ==> r["PATH"] == node + ":")
      && (!hasNode && hasVendor ==> r["PATH"] == vendor + ":")
  {
    SearchPathOrder(map[], p, hasNode, hasVendor);
    assert SearchPath(map[]) == "";
    assert NodeBin(p.path) + ":" + "" == NodeBin(p.path) + ":";
  }

  /** What the child of a project run sees does not depend on the
      program's own environment: the project's details, and `PATH` only
      when a tool directory exists. */
  lemma ProjectRun(w: World, parent: map<string, string>, p: Projects.Project)
    ensures var r := ProcessEnvironment(w, parent, Some(p));
      && r == ProjectEnvironment(map[], p, Exists(w, NodeBin(p.path)), Exists(w, VendorBin(p.path)))
      && r["PROJECT_ROOT"] == p.path && r["PROJECT_NAME"] == p.name && r["PROJECT_TYPE"] == Projects.KindLabel(p.kind)
      && ("PATH" in r <==> Exists(w, NodeBin(p.path)) || Exists(w, VendorBin(p.path)))
  {
    var hasNode := Exists(w, NodeBin(p.path));
    var hasVendor := Exists(w, VendorBin(p.path));
    ProjectExported(map[], p, hasNode, hasVendor);
    ProjectOnly(p, hasNode, hasVendor);
  }

  /** The search path a project run sees: the Composer tools, then the
      Node.js tools, then the inherited path, each tool directory only
      when it exists. */
  lemma SearchPathOrder(base: map<string, string>, p: Projects.Project, hasNode: bool, hasVendor: bool)
    ensures var r := ProjectEnvironment(base, p, hasNode, hasVendor);
      var node := NodeBin(p.path);
      var vendor := VendorBin(p.path);
      && (hasNode && hasVendor ==> r["PATH"] == vendor + ":" + (node + ":" + SearchPath(base)))
      && (hasNode && !hasVendor ==> r["PATH"] == node + ":" + SearchPath(base))
      && (!hasNode && hasVendor ==> r["PATH"] == vendor + ":" + SearchPath(base))
      && (!hasNode && !hasVendor ==> SearchPath(r) == SearchPath(base))
  {
    var tagged := base["PROJECT_ROOT" := p.path]["PROJECT_NAME" := p.name]["PROJECT_TYPE" := Projects.KindLabel(p.kind)];
    assert SearchPath(tagged) == SearchPath(base);
  }
}

=== FILE: text.dfy ===
/** Python string primitives the application relies on, over `string` = `seq<char>`.
    Each function follows the behaviour of the Python built-in it is named after
    (`str.strip`, `str.split`, `str.join`, `in`, `str.lower` on ASCII, `str(int)`). */
module Text {

  /** The characters Python's `str.isspace` accepts, which `str.strip()`,
      `str.rstrip()` and `str.split()` without arguments remove. */
  const Whitespace: set<char> := {
    '\t', '\n', '\U{000B}', '\U{000C}', '\r', '\U{001C}', '\U{001D}', '\U{001E}', '\U{001F}', ' ',
    '\U{0085}', '\U{00A0}', '\U{1680}', '\U{2000}', '\U{2001}', '\U{2002}', '\U{2003}', '\U{2004}',
    '\U{2005}', '\U{2006}', '\U{2007}', '\U{2008}', '\U{2009}', '\U{200A}', '\U{2028}', '\U{2029}',
    '\U{202F}', '\U{205F}', '\U{3000}'
  }

  predicate IsDigit(c: char) { '0' <= c <= '9' }
  predicate IsAsciiUpper(c: char) { 'A' <= c <= 'Z' }
  predicate IsAsciiLower(c: char) { 'a' <= c <= 'z' }
  predicate IsAsciiAlnum(c: char) { IsDigit(c) || IsAsciiUpper(c) || IsAsciiLower(c) }

  /** `s.startswith(p)` */
  predicate StartsWith(s: string, p: string) {
    |p| <= |s| && s[..|p|] == p
  }

  /** `s.endswith(p)` */
  predicate EndsWith(s: string, p: string) {
    |p| <= |s| && s[|s| - |p|..] == p
  }

  /** `sub in s` for two strings. */
  predicate Contains(s: string, sub: string)
    decreases |s|
  {
    StartsWith(s, sub) || (|s| > 0 && Contains(s[1..], sub))
  }

  /** A string occurs inside any string that has it as a middle part. */
  lemma {:induction false} ContainsInfix(a: string, b: string, c: string)
    ensures Contains(a + b + c, b)
  {
    if |a| == 0 {
      assert a + b + c == b + c;
      assert (b + c)[..|b|] == b;
    } else {
      ContainsInfix(a[1..], b, c);
      assert (a + b + c)[1..] == a[1..] + b + c;
    }
  }

  /** Dropping characters from the front never creates an occurrence. */
  lemma {:induction false} ContainsSuffix(s: string, k: nat, sub: string)
    requires k <= |s|
    requires Contains(s[k..], sub)
    ensures Contains(s, sub)
  {
    if k > 0 {
      assert s[1..][k - 1..] == s[k..];
      ContainsSuffix(s[1..], k - 1, sub);
    }
  }

  // ---------------------------------------------------------------------
  // Character removal and trimming

  /** The characters of `s` that lie in `keep`, in order (a regex
      substitution of the complement class by ''). */
  function Keep(s: string, keep: char -> bool): (r: string)
    ensures |r| <= |s|
    ensures forall i :: 0 <= i < |r| ==> keep(r[i])
    ensures forall c :: c in r ==> c in s
  {
    if |s| == 0 then ""
    else (if keep(s[0]) then [s[0]] else "") + Keep(s[1..], keep)
  }

  /** Keeping an alphabet the string already lies in changes nothing. */
  lemma {:induction false} KeepIdentity(s: string, keep: char -> bool)
    requires forall i :: 0 <= i < |s| ==> keep(s[i])
    ensures Keep(s, keep) == s
  {
    if |s| > 0 {
      KeepIdentity(s[1..], keep);
      assert [s[0]] + s[1..] == s;
    }
  }

  lemma {:induction false} KeepAppend(a: string, b: string, keep: char -> bool)
    ensures Keep(a + b, keep) == Keep(a, keep) + Keep(b, keep)
  {
    if |a| > 0 {
      assert (a + b)[1..] == a[1..] + b;
      KeepAppend(a[1..], b, keep);
    } else {
      assert a + b == b;
    }
  }

  /** Nothing survives from a string none of whose characters is kept. */
  lemma {:induction false} KeepNone(s: string, keep: char -> bool)
    requires forall i :: 0 <= i < |s| ==> !keep(s[i])
    ensures Keep(s, keep) == ""
  {
    if |s| > 0 {
      KeepNone(s[1..], keep);
    }
  }

  /** A second, narrower filter sees through the first. */
  lemma {:induction false} KeepKeep(s: string, wide: char -> bool, narrow: char -> bool)
    requires forall c :: narrow(c) ==> wide(c)
    ensures Keep(Keep(s, wide), narrow) == Keep(s, narrow)
  {
    if |s| > 0 {
      var head: string := if wide(s[0]) then [s[0]] else "";
      KeepAppend(head, Keep(s[1..], wide), narrow);
      KeepKeep(s[1..], wide, narrow);
      if !wide(s[0]) {
        assert !narrow(s[0]);
      }
    }
  }

  lemma {:induction false} KeepLStrip(s: string, chars: set<char>, keep: char -> bool)
    requires forall c :: keep(c) ==> c !in chars
    ensures Keep(LStripChars(s, chars), keep) == Keep(s, keep)
    decreases |s|
  {
    if |s| > 0 && s[0] in chars {
      KeepLStrip(s[1..], chars, keep);
    }
  }

  lemma {:induction false} KeepRStrip(s: string, chars: set<char>, keep: char -> bool)
    requires forall c :: keep(c) ==> c !in chars
    ensures Keep(RStripChars(s, chars), keep) == Keep(s, keep)
    decreases |s|
  {
    if |s| > 0 && s[|s| - 1] in chars {
      var init := s[..|s| - 1];
      KeepRStrip(init, chars, keep);
      assert s == init + [s[|s| - 1]];
      KeepAppend(init, [s[|s| - 1]], keep);
      KeepNone([s[|s| - 1]], keep);
    }
  }

  /** Trimming characters the filter drops anyway is invisible to the filter. */
  lemma KeepStripChars(s: string, chars: set<char>, keep: char -> bool)
    requires forall c :: keep(c) ==> c !in chars
    ensures Keep(StripChars(s, chars), keep) == Keep(s, keep)
  {
    KeepLStrip(s, chars, keep);
    KeepRStrip(LStripChars(s, chars), chars, keep);
  }

  /** `s.lstrip(chars)` */
  function LStripChars(s: string, chars: set<char>): (r: string)
    ensures |r| <= |s| && r == s[|s| - |r|..]
    ensures |r| > 0 ==> r[0] !in chars
    ensures forall i :: 0 <= i < |s| - |r| ==> s[i] in chars
    decreases |s|
  {
    if |s| > 0 && s[0] in chars then LStripChars(s[1..], chars) else s
  }

  /** `s.rstrip(chars)` */
  function RStripChars(s: string, chars: set<char>): (r: string)
    ensures |r| <= |s| && r == s[..|r|]
    ensures |r| > 0 ==> r[|r| - 1] !in chars
    ensures forall i :: |r| <= i < |s| ==> s[i] in chars
    decreases |s|
  {
    if |s| > 0 && s[|s| - 1] in chars then RStripChars(s[..|s| - 1], chars) else s
  }

  /** `s.strip(chars)` */
  function StripChars(s: string, chars: set<char>): (r: string)
    ensures |r| <= |s|
    ensures |r| > 0 ==> r[0] !in chars && r[|r| - 1] !in chars
    ensures forall c :: c in r ==> c in s
  {
    var l := LStripChars(s, chars);
    var r := RStripChars(l, chars);
    assert forall c :: c in r ==> c in l;
    assert forall c :: c in l ==> c in s;
    if |r| > 0 then
      assert r[0] == l[0];
      r
    else r
  }

  /** Stripping a string whose ends are already clear changes nothing. */
  lemma StripCharsIdentity(s: string, chars: set<char>)
    requires |s| > 0 ==> s[0] !in chars && s[|s| - 1] !in chars
    ensures StripChars(s, chars) == s
  {
  }

  /** `s.strip()` */
  function Strip(s: string): string { StripChars(s, Whitespace) }

  /** `s.rstrip()` */
  function RStrip(s: string): string { RStripChars(s, Whitespace) }

  /** `s.lower()`, for the ASCII letters. */
  function LowerChar(c: char): (r: char)
    ensures !IsAsciiUpper(r)
  {
    if IsAsciiUpper(c) then (c as int + 32) as char else c
  }

  function Lower(s: string): (r: string)
    ensures |r| == |s|
    ensures forall i :: 0 <= i < |s| ==> r[i] == LowerChar(s[i])
  {
    seq(|s|, i requires 0 <= i < |s| => LowerChar(s[i]))
  }

  lemma LowerIdentity(s: string)
    requires forall i :: 0 <= i < |s| ==> !IsAsciiUpper(s[i])
    ensures Lower(s) == s
  {
  }

  // ---------------------------------------------------------------------
  // Splitting and joining on one separator character

  /** Index of the first `c` in `s`, or `|s|` when there is none. */
  function IndexOf(s: string, c: char): (i: nat)
    ensures i <= |s|
    ensures i < |s| ==> s[i] == c
    ensures forall j :: 0 <= j < i ==> s[j] != c
  {
    if |s| == 0 then 0 else if s[0] == c then 0 else 1 + IndexOf(s[1..], c)
  }

  /** `s.split(c)`: never empty, and no piece holds the separator. */
  function Split(s: string, c: char): (r: seq<string>)
    ensures |r| >= 1
    ensures forall k :: 0 <= k < |r| ==> c !in r[k]
    decreases |s|
  {
    var i := IndexOf(s, c);
    if i == |s| then [s] else [s[..i]] + Split(s[i + 1..], c)
  }

  /** `c.join(parts)` */
  function Join(parts: seq<string>, c: char): string
  {
    if |parts| == 0 then ""
    else if |parts| == 1 then parts[0]
    else parts[0] + [c] + Join(parts[1..], c)
  }

  /** Joining the pieces of a split restores the original string. */
  lemma {:induction false} JoinSplit(s: string, c: char)
    ensures Join(Split(s, c), c) == s
    decreases |s|
  {
    var i := IndexOf(s, c);
    if i < |s| {
      var rest := Split(s[i + 1..], c);
      JoinSplit(s[i + 1..], c);
      assert Split(s, c) == [s[..i]] + rest;
      assert Join(Split(s, c), c) == s[..i] + [c] + Join(rest, c);
      assert s == s[..i] + [c] + s[i + 1..];
    }
  }

  /** Splitting a join of separator-free pieces gives the pieces back. */
  lemma {:induction false} SplitJoin(parts: seq<string>, c: char)
    requires |parts| >= 1
    requires forall k :: 0 <= k < |parts| ==> c !in parts[k]
    ensures Split(Join(parts, c), c) == parts
  {
    if |parts| > 1 {
      var s := Join(parts, c);
      var tail := Join(parts[1..], c);
      assert s == parts[0] + [c] + tail;
      IndexOfPrefix(parts[0], c, tail);
      assert s[..|parts[0]|] == parts[0];
      assert s[|parts[0]| + 1..] == tail;
      SplitJoin(parts[1..], c);
    }
  }

  lemma {:induction false} IndexOfPrefix(a: string, c: char, b: string)
    requires c !in a
    ensures IndexOf(a + [c] + b, c) == |a|
  {
    if |a| > 0 {
      assert (a + [c] + b)[1..] == a[1..] + [c] + b;
      IndexOfPrefix(a[1..], c, b);
    }
  }

  /** Splitting at the first separator. */
  lemma SplitAt(s: string, c: char, i: nat)
    requires i < |s| && IndexOf(s, c) == i
    ensures Split(s, c) == [s[..i]] + Split(s[i + 1..], c)
  {
  }

  /** A string without the separator splits into itself. */
  lemma SplitNone(s: string, c: char)
    requires c !in s
    ensures Split(s, c) == [s]
  {
    assert IndexOf(s, c) == |s|;
  }

  /** Splitting peels off the text before the first separator. */
  lemma SplitFirst(a: string, c: char, b: string)
    requires c !in a
    ensures Split(a + [c] + b, c) == [a] + Split(b, c)
  {
    IndexOfPrefix(a, c, b);
    var s := a + [c] + b;
    assert s[..|a|] == a;
    assert s[|a| + 1..] == b;
  }

  /** A header line followed by separator-free lines splits back into
      the header and the lines. */
  lemma SplitHeader(header: string, c: char, names: seq<string>)
    requires c !in header
    requires |names| >= 1 && forall k :: 0 <= k < |names| ==> c !in names[k]
    ensures Split(header + [c] + Join(names, c), c) == [header] + names
  {
    SplitFirst(header, c, Join(names, c));
    SplitJoin(names, c);
  }

  /** Splitting two separator-free parts joined by the separator. */
  lemma SplitPair(a: string, c: char, b: string)
    requires c !in a && c !in b
    ensures Split(a + [c] + b, c) == [a, b]
  {
    SplitFirst(a, c, b);
    SplitNone(b, c);
  }

  /** A leading separator splits off an empty piece. */
  lemma SplitLeading(c: char, tail: string)
    ensures Split([c] + tail, c) == [[]] + Split(tail, c)
  {
    assert [] + [c] + tail == [c] + tail;
    SplitFirst([], c, tail);
  }

  /** The pieces of `a//b/d` split at `/`, for any separator. */
  lemma SplitFour(a: string, c: char, b: string, d: string)
    requires c !in a && c !in b && c !in d
    ensures Split(a + [c] + ([c] + (b + [c] + d)), c) == [a, [], b, d]
  {
    var tail := b + [c] + d;
    var mid := [c] + tail;
    SplitPair(b, c, d);
    assert Split(tail, c) == [b, d];
    SplitLeading(c, tail);
    assert Split(mid, c) == [[], b, d];
    SplitFirst(a, c, mid);
  }

  // ---------------------------------------------------------------------
  // Decimal numerals

  function DigitChar(d: nat): (c: char)
    requires d < 10
    ensures IsDigit(c)
  {
    ('0' as int + d) as char
  }

  function DigitValue(c: char): (d: nat)
    requires IsDigit(c)
    ensures d < 10
  {
    c as int - '0' as int
  }

  /** The value of a string of decimal digits (leading zeros allowed). */
  function DigitsValue(s: string): nat
    requires forall i :: 0 <= i < |s| ==> IsDigit(s[i])
  {
    if |s| == 0 then 0 else DigitsValue(s[..|s| - 1]) * 10 + DigitValue(s[|s| - 1])
  }

  /** `str(n)` for a natural number. */
  function NatToString(n: nat): (s: string)
    ensures |s| >= 1
    ensures forall i :: 0 <= i < |s| ==> IsDigit(s[i])
  {
    if n < 10 then [DigitChar(n)] else NatToString(n / 10) + [DigitChar(n % 10)]
  }

  /** `str(i)` for any integer. */
  function IntToString(i: int): string
  {
    if i < 0 then "-" + NatToString(-i) else NatToString(i)
  }

  /** Reading back a rendered natural number gives the number. */
  lemma {:induction false} NatToStringRoundTrip(n: nat)
    ensures DigitsValue(NatToString(n)) == n
  {
    var s := NatToString(n);
    if n >= 10 {
      NatToStringRoundTrip(n / 10);
      assert s[..|s| - 1] == NatToString(n / 10);
    }
  }
}

=== FILE: validators.dfy ===
/** Input validation and sanitisation (utils/validators.py): pure predicates
    and transforms over strings.

    Every pattern of the source is anchored with `^…$` and matched with
    Python's `re.match`, whose `$` also matches just before ONE trailing
    newline. The model keeps that: each pattern is accepted either on the
    whole string or on the string minus a final '\n'. */
module Validators {
  import opened Text
  import opened JsonTree

  /** Accepted by `pattern` as Python's `^pattern$` does. */
  predicate DollarMatch(s: string, pattern: string -> bool)
  {
    pattern(s) || (|s| > 0 && s[|s| - 1] == '\n' && pattern(s[..|s| - 1]))
  }

  // ---------------------------------------------------------------------
  // Domain names

  predicate IsLabelChar(c: char) { IsAsciiAlnum(c) || c == '-' }

  /** A host-name label as section 2.3.1 of RFC 1035 defines it, relaxed by
      section 2.1 of RFC 1123 so that it may begin with a digit: 1 to 63
      letters, digits or hyphens, neither first nor last a hyphen. */
  predicate IsLabel(s: string)
  {
    && 1 <= |s| <= 63
    && (forall i :: 0 <= i < |s| ==> IsLabelChar(s[i]))
    && IsAsciiAlnum(s[0]) && IsAsciiAlnum(s[|s| - 1])
  }

  /** The regular language `(?:L\.)*L` with L a label, written as the
      grammar it is: a label, or a label, a dot and more of the same. */
  ghost predicate LabelSequence(s: string)
    decreases |s|
  {
    || IsLabel(s)
    || exists i | 0 <= i < |s| :: s[i] == '.' && IsLabel(s[..i]) && LabelSequence(s[i + 1..])
  }

  /** The same language decided by splitting on dots. */
  predicate DotSeparatedLabels(s: string)
  {
    AllLabels(Split(s, '.'))
  }

  predicate AllLabels(parts: seq<string>)
  {
    forall k :: 0 <= k < |parts| ==> IsLabel(parts[k])
  }

  lemma AllLabelsCons(head: string, parts: seq<string>)
    ensures AllLabels([head] + parts) <==> IsLabel(head) && AllLabels(parts)
  {
    var all := [head] + parts;
    if IsLabel(head) && AllLabels(parts) {
      forall k | 0 <= k < |all| ensures IsLabel(all[k]) {
        if k > 0 { assert all[k] == parts[k - 1]; }
      }
    }
    if AllLabels(all) {
      assert IsLabel(all[0]);
      forall k | 0 <= k < |parts| ensures IsLabel(parts[k]) {
        assert parts[k] == all[k + 1];
      }
    }
  }

  /** A label holds no dot, so the first dot of `s` ends its first label. */
  lemma FirstDot(s: string, j: nat)
    requires j < |s| && s[j] == '.' && IsLabel(s[..j])
    ensures IndexOf(s, '.') == j
  {
    forall k | 0 <= k < j
      ensures s[k] != '.'
    {
      assert IsLabelChar(s[..j][k]);
    }
  }

  lemma NoDotInLabel(s: string)
    requires IsLabel(s)
    ensures IndexOf(s, '.') == |s|
  {
    forall k | 0 <= k < |s|
      ensures s[k] != '.'
    {
      assert IsLabelChar(s[k]);
    }
  }

  lemma {:induction false} LabelSequenceToDots(s: string)
    requires LabelSequence(s)
    ensures DotSeparatedLabels(s)
    decreases |s|
  {
    if IsLabel(s) {
      NoDotInLabel(s);
      SplitNone(s, '.');
      AllLabelsCons(s, []);
      assert [s] + [] == [s];
    } else {
      var j :| 0 <= j < |s| && s[j] == '.' && IsLabel(s[..j]) && LabelSequence(s[j + 1..]);
      FirstDot(s, j);
      LabelSequenceToDots(s[j + 1..]);
      SplitAt(s, '.', j);
      AllLabelsCons(s[..j], Split(s[j + 1..], '.'));
    }
  }

  lemma {:induction false} DotsToLabelSequence(s: string)
    requires DotSeparatedLabels(s)
    ensures LabelSequence(s)
    decreases |s|
  {
    var i := IndexOf(s, '.');
    if i == |s| {
      SplitNone(s, '.');
      assert IsLabel(Split(s, '.')[0]);
    } else {
      var rest := s[i + 1..];
      SplitAt(s, '.', i);
      AllLabelsCons(s[..i], Split(rest, '.'));
      DotsToLabelSequence(rest);
      assert s[i] == '.' && IsLabel(s[..i]) && LabelSequence(rest);
    }
  }

  lemma LabelSequenceIff(s: string)
    ensures LabelSequence(s) <==> DotSeparatedLabels(s)
  {
    if LabelSequence(s) {
      LabelSequenceToDots(s);
    }
    if DotSeparatedLabels(s) {
      DotsToLabelSequence(s);
    }
  }

  /** validate_domain_name */
  function ValidateDomainName(domain: string): (ok: bool)
    ensures ok <==>
      && 1 <= |domain| <= 253
      && (domain == "localhost" || DollarMatch(domain, LabelSequence))
  {
    if |domain| == 0 || |domain| > 253 then false
    else if domain == "localhost" then true
    else
      LabelSequenceIff(domain);
      LabelSequenceIff(domain[..|domain| - 1]);
      DollarMatch(domain, DotSeparatedLabels)
  }

  /** Dot-separated labels within the length bound are accepted. */
  lemma DottedLabelsAccepted(domain: string)
    requires 1 <= |domain| <= 253
    requires DotSeparatedLabels(domain)
    ensures ValidateDomainName(domain)
  {
    assert DollarMatch(domain, DotSeparatedLabels);
  }

  /** A hyphenated two-label name is accepted. */
  lemma HyphenatedDomainAccepted()
    ensures ValidateDomainName("my-app.test")
  {
    HyphenatedDomainLabels("my-app.test");
    DottedLabelsAccepted("my-app.test");
  }

  lemma HyphenatedDomainLabels(domain: string)
    requires domain == "my-app.test"
    ensures DotSeparatedLabels(domain)
  {
    var first, second := "my-app", "test";
    assert domain == first + ['.'] + second;
    SplitPair(first, '.', second);
    ExampleLabels(first, second);
  }

  lemma ExampleLabels(first: string, second: string)
    requires first == "my-app" && second == "test"
    ensures IsLabel(first) && IsLabel(second)
  {
    assert forall i :: 0 <= i < |first| ==> IsLabelChar(first[i]);
    assert forall i :: 0 <= i < |second| ==> IsLabelChar(second[i]);
  }

  /** A label may not begin with a hyphen, so neither may a domain. */
  lemma LeadingHyphenRejected(domain: string)
    requires |domain| > 0 && domain[0] == '-'
    ensures !ValidateDomainName(domain)
  {
    assert domain != "localhost" by { assert "localhost"[0] == 'l'; }
    LabelSequenceIff(domain);
    HyphenFirstNotDotted(domain);
    if |domain| >= 2 {
      var trimmed := domain[..|domain| - 1];
      LabelSequenceIff(trimmed);
      HyphenFirstNotDotted(trimmed);
    }
  }

  lemma HyphenFirstNotDotted(s: string)
    requires |s| > 0 && s[0] == '-'
    ensures !DotSeparatedLabels(s)
  {
    var i := IndexOf(s, '.');
    if i == |s| {
      assert '.' !in s by {
        forall j | 0 <= j < |s| ensures s[j] != '.' { }
      }
      SplitNone(s, '.');
      assert !IsLabel(Split(s, '.')[0]);
    } else {
      var head := s[..i];
      SplitAt(s, '.', i);
      assert !IsLabel(head) by {
        if |head| > 0 { assert head[0] == '-'; }
      }
      AllLabelsCons(head, Split(s[i + 1..], '.'));
    }
  }

  /** A name longer than 253 characters is rejected whatever it holds. */
  lemma OverlongDomainRejected(domain: string)
    requires |domain| > 253
    ensures !ValidateDomainName(domain)
  {
  }

  // ---------------------------------------------------------------------
  // Names for databases and users

  predicate IsNameChar(c: char) { IsAsciiAlnum(c) || c == '_' || c == '-' }

  /** The regex `[a-zA-Z0-9_-]+` */
  predicate NameChars(s: string)
  {
    |s| >= 1 && forall i :: 0 <= i < |s| ==> IsNameChar(s[i])
  }

  /** validate_database_name */
  function ValidateDatabaseName(name: string): bool
  {
    !(|name| == 0 || |name| > 64) && DollarMatch(name, NameChars)
  }

  /** validate_username */
  function ValidateUsername(name: string): bool
  {
    !(|name| == 0 || |name| > 32) && DollarMatch(name, NameChars)
  }

  /** What an accepted database name looks like: 1 to 64 characters, every
      one from `[A-Za-z0-9_-]` except that the last may be a newline after
      at least one such character. And conversely. */
  lemma DatabaseNameShape(name: string)
    ensures ValidateDatabaseName(name) <==>
      && 1 <= |name| <= 64
      && (forall i :: 0 <= i < |name| - 1 ==> IsNameChar(name[i]))
      && (IsNameChar(name[|name| - 1]) || (|name| >= 2 && name[|name| - 1] == '\n'))
  {
    if 1 <= |name| <= 64 && (forall i :: 0 <= i < |name| - 1 ==> IsNameChar(name[i])) {
      if IsNameChar(name[|name| - 1]) {
        assert NameChars(name);
      } else if |name| >= 2 && name[|name| - 1] == '\n' {
        assert NameChars(name[..|name| - 1]);
      }
    }
  }

  /** Every accepted user name is also an accepted database name, and the
      two checks differ only in the length bound. */
  lemma UsernameIsDatabaseName(name: string)
    ensures ValidateUsername(name) ==> ValidateDatabaseName(name)
    ensures ValidateDatabaseName(name) && |name| <= 32 ==> ValidateUsername(name)
  {
  }

  /** The trailing newline that Python's `$` lets through. */
  lemma NameWithNewlineAccepted()
    ensures ValidateDatabaseName("db\n")
    ensures ValidateUsername("db\n")
  {
    assert "db\n"[..2] == "db";
    assert NameChars("db");
  }

  // ---------------------------------------------------------------------
  // Ports and IPv4 addresses

  /** validate_port: `isinstance(port, int) and 1 <= port <= 65535`. In
      Python `bool` is a subclass of `int`, so `True` (which equals 1) is a
      valid port and `False` is not. */
  function ValidatePort(port: Json): (ok: bool)
    ensures ok ==> port.JInt? || port.JBool?
    ensures port.JInt? ==> (ok <==> 1 <= port.i <= 65535)
    ensures port.JBool? ==> (ok <==> port.b)
  {
    match port
    case JInt(n) => 1 <= n <= 65535
    case JBool(b) => 1 <= (if b then 1 else 0) <= 65535
    case _ => false
  }

  /** In Python a bool is an int, so a boolean port is checked as the
      integer 0 or 1 it stands for. */
  lemma BoolPortIsInt(b: bool)
    ensures ValidatePort(JBool(b)) == ValidatePort(JInt(if b then 1 else 0))
  {
  }

  /** One octet as the source's regex spells it:
      `25[0-5]|2[0-4][0-9]|[01]?[0-9][0-9]?`. */
  predicate OctetPattern(t: string)
  {
    || (|t| == 3 && t[0] == '2' && t[1] == '5' && '0' <= t[2] <= '5')
    || (|t| == 3 && t[0] == '2' && '0' <= t[1] <= '4' && IsDigit(t[2]))
    || (|t| == 3 && (t[0] == '0' || t[0] == '1') && IsDigit(t[1]) && IsDigit(t[2]))
    || (|t| == 2 && IsDigit(t[0]) && IsDigit(t[1]))
    || (|t| == 1 && IsDigit(t[0]))
  }

  /** One octet as a number: one to three decimal digits worth at most 255. */
  predicate OctetValue(t: string)
  {
    && 1 <= |t| <= 3
    && (forall i :: 0 <= i < |t| ==> IsDigit(t[i]))
    && DigitsValue(t) <= 255
  }

  lemma OctetPatternIsValue(t: string)
    ensures OctetPattern(t) <==> OctetValue(t)
  {
    if 1 <= |t| <= 3 && forall i :: 0 <= i < |t| ==> IsDigit(t[i]) {
      var one := t[..1];
      assert one[..0] == "";
      assert DigitsValue(one) == DigitValue(t[0]);
      if |t| >= 2 {
        var two := t[..2];
        assert two[..1] == one;
        assert DigitsValue(two) == DigitValue(t[0]) * 10 + DigitValue(t[1]);
        if |t| == 3 {
          assert t[..2] == two;
          assert DigitsValue(t) == DigitValue(t[0]) * 100 + DigitValue(t[1]) * 10 + DigitValue(t[2]);
        } else {
          assert t == two;
        }
      } else {
        assert t == one;
      }
    }
  }

  /** Four dot-separated fields, each matched by `fieldOk`. */
  predicate DottedQuad(s: string, fieldOk: string -> bool)
  {
    var parts := Split(s, '.');
    |parts| == 4 && forall k :: 0 <= k < 4 ==> fieldOk(parts[k])
  }

  /** validate_ip_address */
  function ValidateIpAddress(ip: string): (ok: bool)
    ensures ok <==> |ip| > 0 && DollarMatch(ip, s => DottedQuad(s, OctetValue))
  {
    forall t | true ensures OctetPattern(t) <==> OctetValue(t) {
      OctetPatternIsValue(t);
    }
    |ip| > 0 && DollarMatch(ip, s => DottedQuad(s, OctetPattern))
  }

  // ---------------------------------------------------------------------
  // Paths

  /** validate_path; the file system's existence test is the `pathExists`
      parameter. */
  function ValidatePath(path: string, mustExist: bool, pathExists: string -> bool): (ok: bool)
    ensures ok ==> |path| > 0 && '\0' !in path && '\n' !in path && '\r' !in path
    ensures ok && mustExist ==> pathExists(path)
    ensures !mustExist && |path| > 0 && '\0' !in path && '\n' !in path && '\r' !in path ==> ok
    ensures mustExist && |path| > 0 && '\0' !in path && '\n' !in path && '\r' !in path ==> ok == pathExists(path)
  {
    if |path| == 0 then false
    else if '\0' in path || '\n' in path || '\r' in path then false
    else if mustExist then pathExists(path)
    else true
  }

  /** Asking for existence only narrows the check: a path passes with
      `must_exist` iff it passes without it and exists. */
  lemma ExistingPathStricter(path: string, pathExists: string -> bool)
    ensures ValidatePath(path, true, pathExists) <==> ValidatePath(path, false, pathExists) && pathExists(path)
  {
  }

  // ---------------------------------------------------------------------
  // Sanitisers

  predicate IsDomainChar(c: char) { IsAsciiLower(c) || IsDigit(c) || c == '.' || c == '-' }

  const DomainEdge: set<char> := {'.', '-'}

  /** sanitize_domain: lower-case, drop everything outside `[a-z0-9.-]`,
      trim dots and hyphens from both ends. */
  function SanitizeDomain(domain: string): (r: string)
    ensures |r| <= |domain|
    ensures forall i :: 0 <= i < |r| ==> IsDomainChar(r[i])
    ensures |r| > 0 ==> r[0] !in DomainEdge && r[|r| - 1] !in DomainEdge
  {
    StripChars(Keep(Lower(domain), IsDomainChar), DomainEdge)
  }

  /** An upper-case letter never survives sanitising unchanged. */
  lemma SanitizeChangesUpper(domain: string, i: nat)
    requires i < |domain| && IsAsciiUpper(domain[i])
    ensures SanitizeDomain(domain) != domain
  {
    var d := SanitizeDomain(domain);
    if |d| == |domain| {
      assert IsDomainChar(d[i]);
      assert d[i] != domain[i];
    }
  }

  /** Sanitising twice is sanitising once. */
  lemma SanitizeDomainIdempotent(domain: string)
    ensures SanitizeDomain(SanitizeDomain(domain)) == SanitizeDomain(domain)
  {
    var once := SanitizeDomain(domain);
    LowerIdentity(once);
    KeepIdentity(once, IsDomainChar);
    StripCharsIdentity(once, DomainEdge);
  }

  predicate IsLowerAlnum(c: char) { IsAsciiLower(c) || IsDigit(c) }

  /** Nothing but punctuation is lost: every letter and digit of the input
      survives, lower-cased and in order. */
  lemma SanitizeDomainKeepsAlnum(domain: string)
    ensures Keep(SanitizeDomain(domain), IsLowerAlnum) == Keep(Lower(domain), IsLowerAlnum)
  {
    KeepStripChars(Keep(Lower(domain), IsDomainChar), DomainEdge, IsLowerAlnum);
    KeepKeep(Lower(domain), IsDomainChar, IsLowerAlnum);
  }

  /** The characters `re.sub(r'[<>:"/\\|?*\0]', '', …)` removes. */
  const FilenameForbidden: set<char> := {'<', '>', ':', '"', '/', '\\', '|', '?', '*', '\0'}

  const FilenameEdge: set<char> := {'.', ' '}

  predicate IsFilenameChar(c: char) { c !in FilenameForbidden }

  /** sanitize_filename */
  function SanitizeFilename(filename: string): (r: string)
    ensures |r| <= |filename|
    ensures forall i :: 0 <= i < |r| ==> r[i] !in FilenameForbidden
    ensures |r| > 0 ==> r[0] !in FilenameEdge && r[|r| - 1] !in FilenameEdge
  {
    StripChars(Keep(filename, IsFilenameChar), FilenameEdge)
  }

  lemma SanitizeFilenameIdempotent(filename: string)
    ensures SanitizeFilename(SanitizeFilename(filename)) == SanitizeFilename(filename)
  {
    var once := SanitizeFilename(filename);
    KeepIdentity(once, IsFilenameChar);
    StripCharsIdentity(once, FilenameEdge);
  }
}

=== FILE: vhost.dfy ===
/** The virtual-host provisioner (core/vhost_manager.py).

    Creating a virtual host is a pipeline with early exits: derive the
    domain, validate it, check the document root, run the web server's
    steps (write the configuration, enable it, test it for nginx, reload),
    then register the domain in the hosts file. Template rendering with
    `str.format` is the uninterpreted `render` function of the `Host`,
    applied to the template text and the exact name bindings the program
    passes. */
module VHost {
  import opened Wrappers
  import opened Text
  import opened Validators
  import opened Bridge
  import Certificates

  /** `template.format(**bindings)` */
  type Render = (string, map<string, string>) -> string

  /** What the provisioner reads from the configuration and its own
      installation directory. */
  datatype Host = Host(
    appDir: string,
    apacheSites: string,
    nginxSites: string,
    nginxEnabled: string,
    hostsFile: string,
    domainExtension: string,
    render: Render)

  datatype Request = Request(
    projectName: string,
    documentRoot: string,
    webServer: string,
    phpVersion: string,
    enableSsl: bool,
    customDomain: Option<string>)

  // ---------------------------------------------------------------------
  // The domain

  /** A non-empty custom domain is sanitised; otherwise the sanitised
      project name gets the configured extension, which is not sanitised. */
  function DeriveDomain(projectName: string, customDomain: Option<string>, extension: string): string
  {
    if customDomain.Some? && customDomain.value != "" then SanitizeDomain(customDomain.value)
    else SanitizeDomain(projectName) + extension
  }

  /** What the derived domain looks like: a custom domain comes out in
      sanitised form (a second sanitising changes nothing); otherwise the
      extension ends the domain and what precedes it is the sanitised
      project name. */
  lemma DerivedDomainShape(projectName: string, customDomain: Option<string>, extension: string)
    ensures var d := DeriveDomain(projectName, customDomain, extension);
      && (customDomain.Some? && customDomain.value != "" ==> SanitizeDomain(d) == d)
      && (!(customDomain.Some? && customDomain.value != "") ==>
            EndsWith(d, extension) && SanitizeDomain(d[..|d| - |extension|]) == d[..|d| - |extension|])
  {
    if customDomain.Some? && customDomain.value != "" {
      SanitizeDomainIdempotent(customDomain.value);
    } else {
      var d := DeriveDomain(projectName, customDomain, extension);
      assert d[..|d| - |extension|] == SanitizeDomain(projectName);
      assert d[|d| - |extension|..] == extension;
      SanitizeDomainIdempotent(projectName);
    }
  }

  function SslCertPath(domain: string): string { "/etc/ssl/certs/" + domain + ".crt" }
  function SslKeyPath(domain: string): string { "/etc/ssl/private/" + domain + ".key" }

  /** The configuration points at the very files the certificate issuer
      writes. */
  lemma SslPathsAgree(domain: string)
    ensures SslCertPath(domain) == Certificates.CertPath(domain)
    ensures SslKeyPath(domain) == Certificates.KeyPath(domain)
  {
  }

  // ---------------------------------------------------------------------
  // Rendering the configuration

  function TemplatePath(host: Host, name: string): string
  {
    PathJoin(PathJoin(host.appDir, "templates"), name)
  }

  function SslBindings(domain: string, root: string, php: string): map<string, string>
  {
    map["domain" := domain, "document_root" := root, "php_version" := php,
        "ssl_cert" := SslCertPath(domain), "ssl_key" := SslKeyPath(domain)]
  }

  function MainBindings(domain: string, root: string, php: string, sslConfig: string): map<string, string>
  {
    map["domain" := domain, "document_root" := root, "php_version" := php, "ssl_config" := sslConfig]
  }

  /** The SSL block: empty without SSL, and also when the SSL template is
      missing or empty. */
  function SslConfig(env: Env, w: World, host: Host, sslTemplate: string, domain: string, root: string, php: string, enableSsl: bool): (s: string)
    ensures !enableSsl ==> s == ""
    ensures var t := ReadFile(env, w, TemplatePath(host, sslTemplate), false).0;
      enableSsl && t.Some? && t.value != "" ==> s == host.render(t.value, SslBindings(domain, root, php))
    ensures var t := ReadFile(env, w, TemplatePath(host, sslTemplate), false).0;
      t.None? || t.value == "" ==> s == ""
  {
    if !enableSsl then ""
    else
      match ReadFile(env, w, TemplatePath(host, sslTemplate), false).0
      case Some(t) => if t != "" then host.render(t, SslBindings(domain, root, php)) else ""
      case None => ""
  }

  /** The rendered configuration, or `None` when the main template is
      missing or empty. */
  function RenderConfig(env: Env, w: World, host: Host, mainTemplate: string, sslTemplate: string,
                        domain: string, root: string, php: string, enableSsl: bool): (r: Option<string>)
    ensures var t := ReadFile(env, w, TemplatePath(host, mainTemplate), false).0;
      (r.Some? <==> t.Some? && t.value != "")
      && (r.Some? ==> r.value == host.render(t.value, MainBindings(domain, root, php,
                                   SslConfig(env, w, host, sslTemplate, domain, root, php, enableSsl))))
  {
    match ReadFile(env, w, TemplatePath(host, mainTemplate), false).0
    case Some(t) =>
      if t == "" then None
      else Some(host.render(t, MainBindings(domain, root, php, SslConfig(env, w, host, sslTemplate, domain, root, php, enableSsl))))
    case None => None
  }

  // ---------------------------------------------------------------------
  // Apache

  function ApacheConfigFile(host: Host, domain: string): string
  {
    PathJoin(host.apacheSites, domain + ".conf")
  }

  /** _create_apache_vhost */
  function Apache(env: Env, w: World, host: Host, domain: string, root: string, php: string, enableSsl: bool): (r: Done)
    ensures RenderConfig(env, w, host, "apache_vhost.conf", "apache_ssl.conf", domain, root, php, enableSsl).None? ==>
      r == Done(false, "Failed to load Apache template", w)
    ensures r.world.dirs == w.dirs
  {
    match RenderConfig(env, w, host, "apache_vhost.conf", "apache_ssl.conf", domain, root, php, enableSsl)
    case None => Done(false, "Failed to load Apache template", w)
    case Some(config) => ApacheCommands(env, w, ApacheConfigFile(host, domain), domain, config)
  }

  /** The Apache step once the configuration text is rendered. */
  function ApacheCommands(env: Env, w: World, path: string, domain: string, config: string): (r: Done)
    ensures r.world.dirs == w.dirs
  {
    var (written, w1) := WriteFile(env, w, path, config, true);
    if !written then Done(false, "Failed to write Apache configuration", w1)
    else
      var (enabled, w2) := RunCommand(env, w1, "a2ensite " + domain + ".conf", true);
      if enabled.code != 0 then Done(false, "Failed to enable site: " + enabled.stderr, w2)
      else
        var (reloaded, w6) := ApacheFinish(env, w2);
        if reloaded.code != 0 then Done(false, "Failed to reload Apache: " + reloaded.stderr, w6)
        else Done(true, "Apache virtual host created", w6)
  }

  /** The last part of the Apache step: three module activations whose
      outcome is ignored, then the reload, whose reply is returned. */
  function ApacheFinish(env: Env, w: World): (r: (Reply, World))
    ensures r.1 == w.(log := w.log + [Effective(env, "a2enmod rewrite", true),
                                      Effective(env, "a2enmod ssl", true),
                                      Effective(env, "a2enmod proxy_fcgi", true),
                                      Effective(env, "systemctl reload apache2", true)])
  {
    var (_, w3) := RunCommand(env, w, "a2enmod rewrite", true);
    var (_, w4) := RunCommand(env, w3, "a2enmod ssl", true);
    var (_, w5) := RunCommand(env, w4, "a2enmod proxy_fcgi", true);
    RunCommand(env, w5, "systemctl reload apache2", true)
  }

  /** The first command line of a server step: the privileged copy of
      the rendered configuration into place. */
  function CopyLine(env: Env, path: string): Line
  {
    Effective(env, CopyInto(env, path), true)
  }

  /** A failed copy of the Apache configuration ends the step with nothing
      else started and no file changed. */
  lemma ApacheCopyFails(env: Env, w: World, path: string, domain: string, config: string)
    requires CopyCommand(env, w, path).0.code != 0
    ensures var r := ApacheCommands(env, w, path, domain, config);
      && !r.ok && r.message == "Failed to write Apache configuration"
      && r.world.files == w.files
      && r.world.log == w.log + [CopyLine(env, path)]
  {
  }

  /** A failed site activation ends the step after the copy: the
      configuration stays written and no module is activated. */
  lemma ApacheEnableFails(env: Env, w: World, path: string, domain: string, config: string)
    requires var (copied, w1) := CopyCommand(env, w, path);
      copied.code == 0 && RunCommand(env, w1, "a2ensite " + domain + ".conf", true).0.code != 0
    ensures var r := ApacheCommands(env, w, path, domain, config);
      && !r.ok
      && r.world.files == w.files[path := config]
      && r.world.log == w.log + [CopyLine(env, path),
                                 Effective(env, "a2ensite " + domain + ".conf", true)]
  {
  }

  /** A successful Apache step has written the configuration and started
      the copy, the site activation, the three module activations and the
      reload, in that order; the copy and the activation exited with
      status 0. */
  lemma ApacheSuccess(env: Env, w: World, path: string, domain: string, config: string)
    requires ApacheCommands(env, w, path, domain, config).ok
    ensures var r := ApacheCommands(env, w, path, domain, config);
      var (copied, w1) := CopyCommand(env, w, path);
      && copied.code == 0
      && RunCommand(env, w1, "a2ensite " + domain + ".conf", true).0.code == 0
      && r.world.files == w.files[path := config]
      && r.world.log == w.log + [CopyLine(env, path),
                                 Effective(env, "a2ensite " + domain + ".conf", true),
                                 Effective(env, "a2enmod rewrite", true),
                                 Effective(env, "a2enmod ssl", true),
                                 Effective(env, "a2enmod proxy_fcgi", true),
                                 Effective(env, "systemctl reload apache2", true)]
  {
    var (copied, w1) := CopyCommand(env, w, path);
    var w2 := RunCommand(env, w1, "a2ensite " + domain + ".conf", true).1;
    assert w1.log == w.log + [CopyLine(env, path)];
    assert w2.log == w.log + [CopyLine(env, path), Effective(env, "a2ensite " + domain + ".conf", true)];
  }

  // ---------------------------------------------------------------------
  // Nginx

  function NginxConfigFile(host: Host, domain: string): string
  {
    PathJoin(host.nginxSites, domain)
  }

  function NginxLink(host: Host, domain: string): string
  {
    PathJoin(host.nginxEnabled, domain)
  }

  /** _create_nginx_vhost */
  function Nginx(env: Env, w: World, host: Host, domain: string, root: string, php: string, enableSsl: bool): (r: Done)
    ensures RenderConfig(env, w, host, "nginx_vhost.conf", "nginx_ssl.conf", domain, root, php, enableSsl).None? ==>
      r == Done(false, "Failed to load Nginx template", w)
    ensures r.world.dirs == w.dirs
  {
    match RenderConfig(env, w, host, "nginx_vhost.conf", "nginx_ssl.conf", domain, root, php, enableSsl)
    case None => Done(false, "Failed to load Nginx template", w)
    case Some(config) => NginxCommands(env, w, NginxConfigFile(host, domain), NginxLink(host, domain), config)
  }

  /** The nginx step once the configuration text is rendered. */
  function NginxCommands(env: Env, w: World, path: string, link: string, config: string): (r: Done)
    ensures r.world.dirs == w.dirs
  {
    var (written, w1) := WriteFile(env, w, path, config, true);
    if !written then Done(false, "Failed to write Nginx configuration", w1)
    else NginxActivate(env, w1, path, link)
  }

  /** The nginx step after the configuration is in place: link it into
      the enabled sites, test the configuration and reload, stopping at
      the first failure. */
  function NginxActivate(env: Env, w: World, path: string, link: string): (r: Done)
    ensures r.world.files == w.files && r.world.dirs == w.dirs
  {
    var (linked, w1) := RunCommand(env, w, LinkCommand(path, link), true);
    if linked.code != 0 then Done(false, "Failed to enable site: " + linked.stderr, w1)
    else
      var (tested, w2) := RunCommand(env, w1, "nginx -t", true);
      if tested.code != 0 then Done(false, "Nginx configuration test failed: " + tested.stderr, w2)
      else
        var (reloaded, w3) := RunCommand(env, w2, "systemctl reload nginx", true);
        if reloaded.code != 0 then Done(false, "Failed to reload Nginx: " + reloaded.stderr, w3)
        else Done(true, "Nginx virtual host created", w3)
  }

  function LinkCommand(path: string, link: string): string
  {
    "ln -sf " + path + " " + link
  }

  /** A failed copy of the nginx configuration ends the step with nothing
      else started and no file changed. */
  lemma NginxCopyFails(env: Env, w: World, path: string, link: string, config: string)
    requires CopyCommand(env, w, path).0.code != 0
    ensures var r := NginxCommands(env, w, path, link, config);
      && !r.ok && r.message == "Failed to write Nginx configuration"
      && r.world.files == w.files
      && r.world.log == w.log + [CopyLine(env, path)]
  {
  }

  /** A failed link ends the step right after it. */
  lemma NginxLinkFails(env: Env, w: World, path: string, link: string, config: string)
    requires var (copied, w1) := CopyCommand(env, w, path);
      copied.code == 0 && RunCommand(env, w1, LinkCommand(path, link), true).0.code != 0
    ensures var r := NginxCommands(env, w, path, link, config);
      && !r.ok
      && r.world.log == w.log + [CopyLine(env, path),
                                 Effective(env, LinkCommand(path, link), true)]
  {
  }

  /** A failed configuration test ends the step before the reload. */
  lemma NginxTestFails(env: Env, w: World, path: string, link: string, config: string)
    requires var (copied, w1) := CopyCommand(env, w, path);
      var (linked, w2) := RunCommand(env, w1, LinkCommand(path, link), true);
      copied.code == 0 && linked.code == 0 && RunCommand(env, w2, "nginx -t", true).0.code != 0
    ensures var r := NginxCommands(env, w, path, link, config);
      && !r.ok
      && r.world.log == w.log + [CopyLine(env, path),
                                 Effective(env, LinkCommand(path, link), true),
                                 Effective(env, "nginx -t", true)]
  {
  }

  /** A failed reload fails the step after all four commands have
      started. */
  lemma NginxReloadFails(env: Env, w: World, path: string, link: string, config: string)
    requires var (copied, w1) := CopyCommand(env, w, path);
      var (linked, w2) := RunCommand(env, w1, LinkCommand(path, link), true);
      var (tested, w3) := RunCommand(env, w2, "nginx -t", true);
      && copied.code == 0 && linked.code == 0 && tested.code == 0
      && RunCommand(env, w3, "systemctl reload nginx", true).0.code != 0
    ensures var r := NginxCommands(env, w, path, link, config);
      !r.ok && r.world.files == w.files[path := config]
  {
  }

  /** Activation succeeds after starting the link, the test and the
      reload, in that order. */
  lemma NginxActivateSuccess(env: Env, w: World, path: string, link: string)
    requires NginxActivate(env, w, path, link).ok
    ensures NginxActivate(env, w, path, link).world.log ==
      w.log + [Effective(env, LinkCommand(path, link), true),
               Effective(env, "nginx -t", true),
               Effective(env, "systemctl reload nginx", true)]
  {
    var w1 := RunCommand(env, w, LinkCommand(path, link), true).1;
    var w2 := RunCommand(env, w1, "nginx -t", true).1;
    var w3 := RunCommand(env, w2, "systemctl reload nginx", true).1;
    assert w3.log == w.log + [Effective(env, LinkCommand(path, link), true),
                              Effective(env, "nginx -t", true),
                              Effective(env, "systemctl reload nginx", true)];
  }

  /** A successful nginx step has started the copy, the link, the test
      and the reload, in that order, and has written the configuration
      (that each exited with status 0 is the other side of the four
      failure lemmas above). */
  lemma NginxSuccess(env: Env, w: World, path: string, link: string, config: string)
    requires NginxCommands(env, w, path, link, config).ok
    ensures var r := NginxCommands(env, w, path, link, config);
      && r.world.files == w.files[path := config]
      && r.world.log == w.log + [CopyLine(env, path),
                                 Effective(env, LinkCommand(path, link), true),
                                 Effective(env, "nginx -t", true),
                                 Effective(env, "systemctl reload nginx", true)]
  {
    var w1 := WriteFile(env, w, path, config, true).1;
    assert w1.log == w.log + [CopyLine(env, path)];
    NginxActivateSuccess(env, w1, path, link);
  }

  // ---------------------------------------------------------------------
  // The hosts file

  function HostsEntry(domain: string): string
  {
    "127.0.0.1 " + domain
  }

  /** The hosts text after registering `domain`: unchanged when the entry
      already occurs anywhere (a longer domain with this one as prefix
      counts too); otherwise trailing whitespace is dropped and the entry
      follows on a line of its own. */
  function AppendHostEntry(content: string, domain: string): (r: string)
    ensures Contains(r, HostsEntry(domain))
    ensures Contains(content, HostsEntry(domain)) ==> r == content
    ensures !Contains(content, HostsEntry(domain)) ==>
      && StartsWith(r, RStrip(content)) && EndsWith(r, "\n" + HostsEntry(domain) + "\n")
      && |r| == |RStrip(content)| + |HostsEntry(domain)| + 2
  {
    var entry := HostsEntry(domain);
    if Contains(content, entry) then content
    else
      var r := RStrip(content) + "\n" + entry + "\n";
      ContainsInfix(RStrip(content) + "\n", entry, "\n");
      assert r[..|RStrip(content)|] == RStrip(content);
      assert r[|r| - |"\n" + entry + "\n"|..] == "\n" + entry + "\n";
      r
  }

  /** Registering twice is registering once. */
  lemma AppendHostEntryIdempotent(content: string, domain: string)
    ensures AppendHostEntry(AppendHostEntry(content, domain), domain) == AppendHostEntry(content, domain)
  {
  }

  /** The elements `drop` does not hold of, in order. */
  function Reject(lines: seq<string>, drop: string -> bool): (r: seq<string>)
    ensures |r| <= |lines|
    ensures forall i :: 0 <= i < |r| ==> !drop(r[i]) && r[i] in lines
    ensures forall l :: l in lines && !drop(l) ==> l in r
    ensures (forall i :: 0 <= i < |lines| ==> !drop(lines[i])) ==> r == lines
  {
    if |lines| == 0 then []
    else
      var rest := Reject(lines[1..], drop);
      assert lines == [lines[0]] + lines[1..];
      if drop(lines[0]) then rest else [lines[0]] + rest
  }

  /** Rejecting works element by element: a kept element stays in its
      place, once. With RejectSingle this fixes the order and the
      multiplicity of the kept lines. */
  lemma {:induction false} RejectConcat(a: seq<string>, b: seq<string>, drop: string -> bool)
    ensures Reject(a + b, drop) == Reject(a, drop) + Reject(b, drop)
  {
    if |a| > 0 {
      assert (a + b)[0] == a[0];
      assert (a + b)[1..] == a[1..] + b;
      RejectConcat(a[1..], b, drop);
    } else {
      assert a + b == b;
    }
  }

  lemma RejectSingle(line: string, drop: string -> bool)
    ensures Reject([line], drop) == if drop(line) then [] else [line]
  {
  }

  /** A hosts line that belongs to `domain`: stripped, it ends with it. */
  predicate NamesDomain(line: string, domain: string)
  {
    EndsWith(Strip(line), domain)
  }

  function KeepLines(lines: seq<string>, domain: string): seq<string>
  {
    Reject(lines, l => NamesDomain(l, domain))
  }

  /** The hosts text without `domain`'s lines. */
  function RemoveHostLines(content: string, domain: string): string
  {
    Join(KeepLines(Split(content, '\n'), domain), '\n')
  }

  /** Text with no matching line comes back unchanged. */
  lemma RemoveHostLinesNoMatch(content: string, domain: string)
    requires forall l :: l in Split(content, '\n') ==> !NamesDomain(l, domain)
    ensures RemoveHostLines(content, domain) == content
  {
    JoinSplit(content, '\n');
  }

  /** The lines of the result are exactly the kept lines, and for a
      non-empty domain none of them ends with it. */
  lemma RemoveHostLinesExact(content: string, domain: string)
    ensures var kept := KeepLines(Split(content, '\n'), domain);
      |kept| >= 1 ==> Split(RemoveHostLines(content, domain), '\n') == kept
    ensures domain != "" ==>
      forall l :: l in Split(RemoveHostLines(content, domain), '\n') ==> !NamesDomain(l, domain)
  {
    var lines := Split(content, '\n');
    var kept := KeepLines(lines, domain);
    forall i | 0 <= i < |kept| ensures '\n' !in kept[i] {
      assert kept[i] in lines;
    }
    if |kept| >= 1 {
      SplitJoin(kept, '\n');
    } else {
      assert RemoveHostLines(content, domain) == "";
      assert Split("", '\n') == [""];
      assert Strip("") == "";
    }
  }

  /** A registered domain whose own entry was the only line ending with
      it is gone again after removal. */
  lemma AddThenRemove(content: string, domain: string)
    requires domain != ""
    ensures forall l :: l in Split(RemoveHostLines(AppendHostEntry(content, domain), domain), '\n') ==>
      !NamesDomain(l, domain)
  {
    RemoveHostLinesExact(AppendHostEntry(content, domain), domain);
  }

  /** _add_to_hosts */
  function AddToHosts(env: Env, w: World, hostsFile: string, domain: string): (r: Done)
    ensures r.world.dirs == w.dirs
    ensures r.ok ==> (var read := ReadFile(env, w, hostsFile, true).0;
                      read.Some? && (r.world.files == w.files ||
                                     r.world.files == w.files[hostsFile := AppendHostEntry(read.value, domain)]))
    ensures ReadFile(env, w, hostsFile, true).0.None? ==> !r.ok && r.world.files == w.files
    ensures var (read, w1) := ReadFile(env, w, hostsFile, true);
      read.Some? ==>
        && (Contains(read.value, HostsEntry(domain)) ==> r.ok && r.world == w1)
        && (!Contains(read.value, HostsEntry(domain)) ==>
              (r.ok <==> WriteFile(env, w1, hostsFile, AppendHostEntry(read.value, domain), true).0))
  {
    var (read, w1) := ReadFile(env, w, hostsFile, true);
    match read
    case None => Done(false, "Failed to read hosts file", w1)
    case Some(content) =>
      if Contains(content, HostsEntry(domain)) then Done(true, "Domain already in hosts file", w1)
      else
        var (written, w2) := WriteFile(env, w1, hostsFile, AppendHostEntry(content, domain), true);
        if !written then Done(false, "Failed to update hosts file", w2)
        else Done(true, "Domain added to hosts file", w2)
  }

  /** _remove_from_hosts */
  function RemoveFromHosts(env: Env, w: World, hostsFile: string, domain: string): (r: Done)
    ensures r.world.dirs == w.dirs
    ensures r.ok ==> (var read := ReadFile(env, w, hostsFile, true).0;
                      read.Some? && r.world.files == w.files[hostsFile := RemoveHostLines(read.value, domain)])
    ensures !r.ok ==> r.world.files == w.files
    ensures var (read, w1) := ReadFile(env, w, hostsFile, true);
      && (read.None? ==> !r.ok)
      && (read.Some? ==> (r.ok <==> WriteFile(env, w1, hostsFile, RemoveHostLines(read.value, domain), true).0))
  {
    var (read, w1) := ReadFile(env, w, hostsFile, true);
    match read
    case None => Done(false, "Failed to read hosts file", w1)
    case Some(content) =>
      var (written, w2) := WriteFile(env, w1, hostsFile, RemoveHostLines(content, domain), true);
      if !written then Done(false, "Failed to update hosts file", w2)
      else Done(true, "Domain removed from hosts file", w2)
  }

  // ---------------------------------------------------------------------
  // The pipeline

  /** The server-specific step; `None` for a server the program does not
      support. */
  function ServerStep(env: Env, w: World, host: Host, domain: string, req: Request): (r: Option<Done>)
    ensures r.Some? <==> req.webServer == "apache2" || req.webServer == "nginx"
  {
    if req.webServer == "apache2" then Some(Apache(env, w, host, domain, req.documentRoot, req.phpVersion, req.enableSsl))
    else if req.webServer == "nginx" then Some(Nginx(env, w, host, domain, req.documentRoot, req.phpVersion, req.enableSsl))
    else None
  }

  /** create_virtual_host. The three checks run in order and leave the
      world untouched; the hosts file is read only once the server step
      has succeeded; success needs both steps to succeed. */
  function CreateVirtualHost(env: Env, w: World, host: Host, req: Request): (r: Done)
    ensures var d := DeriveDomain(req.projectName, req.customDomain, host.domainExtension);
      && (!ValidateDomainName(d) ==> r == Done(false, "Invalid domain name: " + d, w))
      && (ValidateDomainName(d) && !Exists(w, req.documentRoot) ==>
            r == Done(false, "Document root does not exist: " + req.documentRoot, w))
      && (ValidateDomainName(d) && Exists(w, req.documentRoot) && ServerStep(env, w, host, d, req).None? ==>
            r == Done(false, "Unsupported web server: " + req.webServer, w))
    ensures var d := DeriveDomain(req.projectName, req.customDomain, host.domainExtension);
      var step := ServerStep(env, w, host, d, req);
      && (r.ok <==> ValidateDomainName(d) && Exists(w, req.documentRoot) && step.Some? && step.value.ok
                    && AddToHosts(env, step.value.world, host.hostsFile, d).ok)
      && (ValidateDomainName(d) && Exists(w, req.documentRoot) && step.Some? && !step.value.ok ==>
            r == Done(false, step.value.message, step.value.world))
    ensures var d := DeriveDomain(req.projectName, req.customDomain, host.domainExtension);
      var step := ServerStep(env, w, host, d, req);
      ValidateDomainName(d) && Exists(w, req.documentRoot) && step.Some? && step.value.ok ==>
        var hosts := AddToHosts(env, step.value.world, host.hostsFile, d);
        && r.world == hosts.world
        && r.message == (if hosts.ok then "Virtual host created successfully: " + d else hosts.message)
  {
    var domain := DeriveDomain(req.projectName, req.customDomain, host.domainExtension);
    if !ValidateDomainName(domain) then Done(false, "Invalid domain name: " + domain, w)
    else if !Exists(w, req.documentRoot) then Done(false, "Document root does not exist: " + req.documentRoot, w)
    else
      match ServerStep(env, w, host, domain, req)
      case None => Done(false, "Unsupported web server: " + req.webServer, w)
      case Some(step) =>
        if !step.ok then Done(false, step.message, step.world)
        else
          var hosts := AddToHosts(env, step.world, host.hostsFile, domain);
          if !hosts.ok then Done(false, hosts.message, hosts.world)
          else Done(true, "Virtual host created successfully: " + domain, hosts.world)
  }

  /** The commands that take a site down, by server; any other server name
      takes nothing down. */
  function RemovalPlan(host: Host, domain: string, webServer: string): seq<string>
  {
    if webServer == "apache2" then
      ["a2dissite " + domain + ".conf", "rm -f " + ApacheConfigFile(host, domain), "systemctl reload apache2"]
    else if webServer == "nginx" then
      ["rm -f " + NginxLink(host, domain), "rm -f " + NginxConfigFile(host, domain), "systemctl reload nginx"]
    else []
  }

  function RunIgnoring(env: Env, w: World, commands: seq<string>): (r: World)
    ensures r == w.(log := w.log + Started(env, commands, true))
    decreases |commands|
  {
    if |commands| == 0 then w
    else
      var w1 := RunCommand(env, w, commands[0], true).1;
      assert w1.log + Started(env, commands[1..], true) == w.log + Started(env, commands, true);
      RunIgnoring(env, w1, commands[1..])
  }

  /** remove_virtual_host: the server's commands (results ignored), then
      the hosts file, whose outcome is ignored too. */
  function RemoveVirtualHost(env: Env, w: World, host: Host, domain: string, webServer: string): (r: Done)
    ensures r.ok
    ensures var w1 := w.(log := w.log + Started(env, RemovalPlan(host, domain, webServer), true));
      r.world == RemoveFromHosts(env, w1, host.hostsFile, domain).world
  {
    var w1 := RunIgnoring(env, w, RemovalPlan(host, domain, webServer));
    var hosts := RemoveFromHosts(env, w1, host.hostsFile, domain);
    Done(true, "Virtual host removed: " + domain, hosts.world)
  }
}

=== FILE: wrappers.dfy ===
/** The optional value used for Python's `None`-or-value returns and for
    operations that raise. */
module Wrappers {

  datatype Option<+T> = None | Some(value: T) {

    function GetOr(default: T): T {
      match this
      case Some(v) => v
      case None => default
    }
  }
}
